=== FILE: README.md ===
# m2deploy in Dafny

A Dafny model of the decision logic of **m2deploy**, a command-line tool that builds the
Magnetiq container images, distributes them to the worker nodes of a k0s Kubernetes cluster
over SSH, deploys and removes the Kubernetes manifests, and backs up and restores the
application's SQLite database.

Every external effect (running a command, asking the file system, the SSH transport, the clock)
is a parameter: an *oracle* function that says what the effect returned. The model then states
what the tool decides from those answers. There is one module per source package:

- `Distribute` (`pkg/ssh/distribute.go`): naming worker nodes, the connectivity probe, the
  per-worker pipeline (copy with its header line and size check, import with its base name and
  error classification, verification, clean-up), the per-worker retry loop and the quorum verdict.
  The SSH transport is the `Probe` oracle, indexed by worker and attempt.
- `Retry` (`pkg/retry/retry.go`): the generic retry combinator, with sleeps counted.
- `Kube` (`pkg/k8s/k8s.go`): the `kubectl` command line, worker-address discovery from an already
  decoded node list, the deploy and undeploy manifest orders and loops, and the pod-health rule.
- `Config` (`pkg/config/config.go`): local image names, tag resolution and the sudo decision.
- `Cli` (`cmd/utils.go`): component selection and validation, derived names, the workspace derived
  from a repository URL, error hints and the confirmation prompt.
- `Prereq` (`pkg/prereq/prereq.go`): the checker's result list, the substring helper, each
  tool check with its diagnosis, the disk-space arithmetic in unsigned 64-bit words, and the
  check lists of every operation.
- `Database` (`pkg/database/database.go`): finding the backend pod, backup and restore file
  names, migration and status, and the retention of old backups.
- `Payload` (`pkg/payload/validator.go`): the structure check and the full payload check.
- `Builder` (`pkg/builder/builder.go`): the external build script's invocation, log directory
  and file, the reported last output lines, the asynchronous build process and its log tail.
- `Constants` (`pkg/constants/constants.go`, `cmd/constants.go`): the literal values shared above.

Two supporting modules model the parts of Go's standard library that the decisions depend on:
`Text` (`strings.Split`, `Join`, `Fields`, `TrimSpace`, `TrimPrefix`/`TrimSuffix`,
`ReplaceAll` for one character, ASCII `ToLower`, `strconv` decimal formatting and the 64-bit
`ParseInt` with its clamping) and `Paths` (`filepath.Join` with `Clean`, and `filepath.Base`).
Their lemmas (for example that `Split` inverts `Join`, or that `TrimSpace` strips padding) are
the tools the proofs above use; they have no rows below because they state nothing about
m2deploy itself. `Base` holds the `Option` and `Result` types.

## Model

| member | source | states |
|---|---|---|
| Distribute.NewDistributor | pkg/ssh/distribute.go:58-68 | a new distributor keeps the SSH settings, has no manual addresses, removes tarballs, runs 3 workers in parallel with 3 attempts each, and has a minimum of 0, so that every worker is required whatever the number of workers |
| Distribute.GetWorkerNodes | pkg/ssh/distribute.go:72-118 | a manual address list wins and gives one node per address, named `worker-<position from 1>`; otherwise a client that cannot discover, a failed discovery and an empty discovery are three distinct errors, and success gives one node per discovered address, named `worker-<address>`, none reachable yet |
| Distribute.ManualNamesDistinct | pkg/ssh/distribute.go:77-82 | nodes from a manual list never share a name |
| Distribute.ManualListIgnoresDiscovery | pkg/ssh/distribute.go:74-84 | with a manual list, what the cluster would report makes no difference |
| Distribute.FailuresUpTo | pkg/ssh/distribute.go:126-137 | there is at most one failure line per worker probed, and none iff every probe succeeded |
| Distribute.ProbeAll | pkg/ssh/distribute.go:126-137 | each worker is marked reachable when its probe succeeds, and otherwise unreachable with the probe's error; the failure lines are those of the failed workers in order |
| Distribute.TestConnectivity | pkg/ssh/distribute.go:121-145 | every worker is probed; the result is an error iff some probe failed, and the error lists the failure lines and names the SSH user for the fix hint |
| Distribute.ScpHeaderRoundTrip | pkg/ssh/distribute.go:371-373 | the copy header `C0644 <size> <name>` reads back as the same size and file name, for any name without a newline |
| Distribute.RemoteSizeOfStat | pkg/ssh/distribute.go:391-397 | a size printed by `stat` and followed by white space reads back as that size |
| Distribute.UnparsableSizeIsZero | pkg/ssh/distribute.go:397 | output that is not a decimal integer reads as size 0, since the parse error is ignored |
| Distribute.ScpToWorker | pkg/ssh/distribute.go:329-403 | the copy succeeds iff the connection and the stream went through, `stat` succeeded and the remote size equals the local size; a failed connection or stream, a failed `stat` and a size difference are each reported by their own fault, with the cause or with both sizes; a failed connection issues no remote command, a failed stream only `scp -t`, otherwise `scp -t` then the size query |
| Distribute.CopySucceedsOnTrueSize | pkg/ssh/distribute.go:386-402 | when the connection and the stream succeed and `stat` prints the true size, the copy succeeds |
| Distribute.BaseName | pkg/ssh/distribute.go:453-454 | an image name without `/` gives an empty base; otherwise the base is everything before the last `/` |
| Distribute.BaseNameShape | pkg/ssh/distribute.go:453-454 | splitting at `/` and joining all pieces but the last gives the text before the last `/`, or empty when there is none |
| Distribute.BaseNameOfAppended | pkg/ssh/distribute.go:453-454 | `<prefix>/<last>`, where `<last>` has no `/`, has base `<prefix>` |
| Distribute.BaseNameExample | pkg/ssh/distribute.go:452 | the documented example `crepo.re-cloud.io/magnetiq/v2/backend:latest` has base `crepo.re-cloud.io/magnetiq/v2` |
| Distribute.ImportBaseIsImagePrefix | pkg/ssh/distribute.go:453-454 | for a locally named image `<prefix>/<component>:<tag>`, the import base is exactly the configured prefix |
| Distribute.ClassifyImport | pkg/ssh/distribute.go:463-480 | an import fails iff its command failed; the output, lowercased, is checked for "no space left", then "permission denied", then "connection refused", in that priority, and anything else keeps the command's error |
| Distribute.ClassifyIgnoresCase | pkg/ssh/distribute.go:466 | the classification does not depend on the case of the output |
| Distribute.VerifyImport | pkg/ssh/distribute.go:304-316 | verification passes iff listing succeeded and its output contains the image name; a listing failure and a missing image are reported as such |
| Distribute.ListedImageVerifies | pkg/ssh/distribute.go:311-315 | any listing containing the image name verifies |
| Distribute.Progress | pkg/ssh/distribute.go:170-211 | the steps stop at the first fault, which is reported as the copy's, the import's or the verification's fault in that priority: no fault iff copy, import and verification all succeed; a copy fault leaves the at most 2 commands the copy issued, an import fault 3, a verification fault 4, and success 4, or 5 with the tarball removed |
| Distribute.DistributeToWorker | pkg/ssh/distribute.go:148-223 | the result names the worker and component; it succeeds iff the tarball exists, the connection, the copy, the size check, the import and the listing all succeed and the listing shows the image; a failure carries the annotated fault of the first failing step (copy, import, verification) and the command count that step leaves; an unreadable tarball issues no remote command |
| Distribute.AttemptCommands | pkg/ssh/distribute.go:170-211 | the remote commands of one attempt are a prefix of copy, size check, import, listing and removal, with length fixed by where the attempt stopped; a failed connection issues none |
| Distribute.AttemptImportAndCleanup | pkg/ssh/distribute.go:183-211 | the import is issued iff the copy reported no fault; the remote tarball is removed iff the attempt succeeded and tarballs are not kept |
| Distribute.CleanupIgnored | pkg/ssh/distribute.go:207-211 | what the removal command reports never changes the attempt's result |
| Distribute.RunNode | pkg/ssh/distribute.go:246-269 | the worker succeeds iff some attempt from 1 to the retry count succeeds, and then the result is the first success and every earlier attempt failed; otherwise every attempt ran and the result carries the last attempt's error without its step annotation, or no error when no attempt was allowed |
| Distribute.FailedNodeKeepsLastFault | pkg/ssh/distribute.go:259-268 | a worker that failed every attempt reports the error of the last attempt |
| Distribute.SameAttemptsSameRun | pkg/ssh/distribute.go:246-269 | the retry loop depends only on what each attempt does |
| Distribute.Attempts | pkg/ssh/distribute.go:253 | each attempt of a worker's loop is a full distribution to that worker, whose result names the worker and component and succeeds iff it carries no error |
| Distribute.SuccessCount | pkg/ssh/distribute.go:276-281 | the count is at most the number of results, equals it iff all succeeded and is zero iff none did |
| Distribute.SuccessCountOneFailure | pkg/ssh/distribute.go:276-281 | exactly one failed result counts one less than the total |
| Distribute.MinRequired | pkg/ssh/distribute.go:283-286 | a minimum of 0 requires every worker; any other value is the minimum as given, not clamped to the number of workers |
| Distribute.Judge | pkg/ssh/distribute.go:283-300 | a minimum of 0 means all workers; fewer successes than the minimum is the error carrying the counts and the minimum; otherwise fewer successes than workers is a degraded success |
| Distribute.DistributeToAllWorkers | pkg/ssh/distribute.go:226-301 | one result per worker at its own index, each the outcome of that worker's retry loop, naming the worker and component; the verdict is judged on the number of successes, and it is an error iff that is below the minimum |
| Distribute.DefaultQuorumNeedsEveryWorker | pkg/ssh/distribute.go:283-292 | with the default minimum, the distribution fails iff some worker failed |
| Distribute.OneLostWorkerTolerated | pkg/ssh/distribute.go:289-298 | with a minimum below the number of workers, one failed worker gives a degraded success and not an error |
| Distribute.NoBudgetNoSuccess | pkg/ssh/distribute.go:247-268 | a non-positive retry count makes no attempt: every worker fails with no error recorded |
| Distribute.ResultsArePerWorker | pkg/ssh/distribute.go:238-270 | a worker's result depends only on that worker's own attempts, whatever the others do |
| Retry.Attempts | pkg/retry/retry.go:31-49 | the loop succeeds iff some attempt between `from` and MaxRetries succeeds; on success the last call is the first successful attempt and every earlier one failed; otherwise every attempt up to MaxRetries was made (none when the budget is below `from`) and the kept error is that of attempt MaxRetries; there is one sleep per failed attempt that is not the last |
| Retry.WithRetry | pkg/retry/retry.go:26-52 | a nil options value means 3 attempts 2 s apart; no error iff an attempt within the budget succeeds, and then the operation ran exactly up to the first success; otherwise it ran max(MaxRetries, 0) times and the error carries MaxRetries and the last attempt's error; the total sleep is (calls - 1) times the delay |
| Retry.WithRetryFuncIsDefault | pkg/retry/retry.go:55-61 | the convenience wrapper equals `WithRetry` with a nil options value and with explicit options of 3 attempts and 2 s |
| Retry.WithRetryFunc | pkg/retry/retry.go:55-61 | the wrapper succeeds iff one of attempts 1 to 3 succeeds, and then stops at the first success; otherwise it makes 3 calls and wraps the third error; it sleeps 2 s between calls |
| Retry.FirstSuccessCalls | pkg/retry/retry.go:32-36 | when attempt k is the first success within the budget the result is nil after exactly k calls and k - 1 sleeps |
| Retry.AlwaysFailing | pkg/retry/retry.go:32-51 | an operation that always fails is called MaxRetries times (0 for a non-positive budget) and the returned error wraps the last failure |
| Retry.NoBudget | pkg/retry/retry.go:31-51 | a budget of 0 or less never calls the operation, never sleeps, and still returns an error with no wrapped cause |
| Retry.SecondAttemptSucceeds | pkg/retry/retry_test.go:9-31 | the package's "temporary error" case: 2 calls and no error |
| Retry.PersistentFailure | pkg/retry/retry_test.go:33-52 | the package's "persistent error" case: 3 calls and an error |
| Config.LocalImageNamePieces | pkg/config/config.go:25-27 | `<prefix>/<component>:<tag>` splits at `/` into the prefix's pieces followed by `<component>:<tag>` |
| Config.LocalImageName | pkg/config/config.go:25-27 | the image name is the prefix, `/`, the component, `:` and the tag, each at its own position and nothing else |
| Config.UnsetPrefixGivesLeadingSlash | pkg/config/config_test.go:14-21 | with no prefix the code yields `/backend:latest`, which differs from the `magnetiq/backend:latest` the table test expects |
| Config.ResolveImageTag | pkg/config/config.go:34-63 | the tag is never empty; a command tag wins; then a global tag other than `latest`; otherwise the commit tag when there is one, else `latest`; the result is always one of these candidates |
| Config.GitTag | pkg/config/config.go:47-58 | a commit tag exists iff the work directory is named, has a `.git` entry and `git rev-parse` succeeds with non-blank output, and it is that output trimmed |
| Config.ResolveImageTagIdempotent | pkg/config/config.go:34-39 | feeding the resolved tag back in as the command tag resolves to the same tag |
| Config.LatestFallsThroughToCommit | pkg/config/config.go:42-55 | a global tag of `latest` does not win: the repository's commit hash is used |
| Config.ShouldUseSudo | pkg/config/config.go:82-96 | an explicitly set flag is obeyed, and otherwise sudo is used exactly when running as root |
| Cli.Components | cmd/utils.go:14-25 | every selected component is `backend` or `frontend`; `both` selects backend then frontend; any other argument selects itself or nothing |
| Cli.ValidateComponent | cmd/utils.go:38-44 | a rejection names the argument and the three accepted values |
| Cli.ComponentsIffValid | cmd/utils.go:14-44 | an argument selects at least one component exactly when it validates |
| Cli.ComponentsOfSelected | cmd/utils.go:14-25 | each selected component, given again, selects only itself |
| Cli.ComponentsTable | cmd/utils_test.go:7-92 | the package's test tables for component selection and validation, including the empty argument |
| Cli.DeploymentName | cmd/utils.go:28-30 | the deployment name starts with `magnetiq-`, and removing that prefix gives back the component |
| Cli.TestContainerName | cmd/utils.go:33-35 | the test container name starts with `m2deploy-test-`, and removing that prefix gives back the component |
| Cli.DerivedNamesInjective | cmd/utils.go:28-35 | distinct components never share a deployment name or a test container name |
| Cli.RepoPath | cmd/utils.go:53-62 | the reduced repository path never contains `:` |
| Cli.WorkspaceOf | cmd/utils.go:64-73 | a path with no `/` gives `/tmp/m2deploy-workspace`; otherwise the result is `/tmp` joined with the last two `/`-pieces |
| Cli.DeriveWorkspace | cmd/utils.go:52-74 | after stripping the scheme and user, mapping `:` to `/` and dropping `.git`, a path with no `/` gives `/tmp/m2deploy-workspace`, and any other path gives `/tmp` joined with its last two pieces |
| Cli.WorkspaceOfOwnerAndName | cmd/utils.go:64-70 | a path ending in `/<owner>/<name>`, both plain names, gives `/tmp/<owner>/<name>` |
| Cli.HttpsUrlWorkspace | cmd/utils.go:52-70 | `https://<host>/<owner>/<name>` gives `/tmp/<owner>/<name>` |
| Cli.HttpsGitUrlWorkspace | cmd/utils.go:52-70 | `https://<host>/<owner>/<name>.git` gives the same workspace as without `.git` |
| Cli.SshUrlPath | cmd/utils.go:53-62 | `git@<host>:<owner>/<name>.git` reduces to `<host>/<owner>/<name>` |
| Cli.SshUrlWorkspace | cmd/utils.go:52-70 | `git@<host>:<owner>/<name>.git` gives `/tmp/<owner>/<name>` |
| Cli.NoSeparatorFallsBack | cmd/utils.go:72-73 | a URL with neither `/` nor `:` gives the fallback workspace |
| Cli.HttpsExample | cmd/utils.go:49 | the documented example `https://github.com/wapsol/magnetiq2` gives `/tmp/wapsol/magnetiq2` |
| Cli.SshExample | cmd/utils.go:50 | the documented example `git@github.com:user/project.git` gives `/tmp/user/project` |
| Cli.FormatError | cmd/utils.go:77-82 | no error stays no error; any error is kept as the cause and tagged with the command's help hint |
| Cli.FormatPrereqError | cmd/utils.go:86-89 | always an error: the prerequisite failure with the command's help hint |
| Cli.Confirmed | cmd/utils.go:93-105 | a line confirms iff it was read and, with surrounding white space removed, is `yes` with each letter in either case; a read error never confirms |
| Cli.ShoutedYesConfirms | cmd/utils.go:103-104 | the answer `YES` followed by a newline confirms |
| Kube.KubectlArgv | pkg/k8s/k8s.go:37-49 | the command is `k0s kubectl`, then `--kubeconfig <file>` exactly when a kubeconfig is set, then the caller's arguments unchanged at the end; it starts with `sudo` exactly when sudo is used |
| Kube.FirstInternalIP | pkg/k8s/k8s.go:521-527 | no address is taken iff the node has no `InternalIP` address; otherwise the taken one is the first `InternalIP` address |
| Kube.WorkerAddresses | pkg/k8s/k8s.go:504-528 | at most one address per node is collected |
| Kube.WorkerAddressesSound | pkg/k8s/k8s.go:504-528 | every collected address is the internal address of some node that is not a control-plane node |
| Kube.WorkerAddressesComplete | pkg/k8s/k8s.go:504-528 | every node that is not a control-plane node and has an internal address contributes that address |
| Kube.WorkerAddressesAppend | pkg/k8s/k8s.go:504-528 | nodes are visited in order: the addresses of a concatenated node list are the concatenation of the addresses |
| Kube.GetWorkerIPs | pkg/k8s/k8s.go:471-536 | a failed query or undecodable output is an error carrying its cause; a decoded list succeeds iff it yields at least one worker address, and then the result is exactly those addresses |
| Kube.ControlPlaneOnlyHasNoWorkers | pkg/k8s/k8s.go:506-518 | a cluster whose every node carries a control-plane or master label yields the "no worker nodes" error |
| Kube.IsControlPlane | pkg/k8s/k8s.go:506-512 | the label scan answers true iff some label key contains `control-plane` or `master`, whatever order the keys are visited in |
| Kube.UndeployOrder | pkg/k8s/k8s.go:216-237 | the nine fixed manifests come first; when volume claims are not kept, the volume claim and storage come next, at positions 9 and 10; RBAC is always deleted, last or just before the namespace; the namespace is deleted iff it is not kept, and then last |
| Kube.UndeployReversesDeploy | pkg/k8s/k8s.go:129-143 | with nothing kept, deletion visits the manifests in exactly the reverse of the deployment order |
| Kube.FullTeardownIsUndeployOrder | pkg/k8s/k8s.go:216-237 | with nothing kept, the deletion order is the fixed head followed by volume claim, storage, RBAC and namespace |
| Kube.FullTeardownReversesDeploy | pkg/k8s/k8s.go:129-143 | the deployment order reversed is that full teardown order |
| Kube.DeleteAll | pkg/k8s/k8s.go:239-252 | every entry is accounted for exactly once; an entry is skipped iff its file is missing, failed iff present and its deletion errs, done iff present and its deletion succeeds; each of the three lists keeps the order of the entries |
| Kube.Undeploy | pkg/k8s/k8s.go:211-256 | undeploying never returns an error, whatever the deletions did; each manifest of the order is exactly one of skipped (file missing), failed (present, not a dry run, and deletion failed) or deleted (present, and a dry run or a successful deletion); a dry run has no failures; deletions happen in the order of the deletion list |
| Kube.KeptResourcesSurvive | pkg/k8s/k8s.go:229-237 | keeping the namespace and the volume claims never deletes the namespace, volume claim or storage manifests |
| Kube.Present | pkg/k8s/k8s.go:150-155 | the manifests considered are exactly those of the order whose files exist |
| Kube.UntilFailure | pkg/k8s/k8s.go:146-182 | a loop that stops at the first error: what it completed is a prefix of the entries that all succeeded; it stops early iff some step failed, and then the failure names the next entry and that step's error |
| Kube.NoFailureMeansAll | pkg/k8s/k8s.go:146-182 | the loop reports no failure iff every entry's step succeeds |
| Kube.DeployWithOptions | pkg/k8s/k8s.go:118-208 | validation and application cover only present manifests, in order; without validation nothing is validated; with validation, every present manifest is validated unless validation itself fails, and a validation failure applies nothing; every validated or applied manifest passed its step; a failure names the first present manifest after those that passed, with its own error; no error iff every present manifest validates (when asked) and applies (unless a dry run), and then all were applied |
| Kube.ManifestRun | pkg/k8s/k8s.go:146-181 | one phase runs its step over the present manifests in order: the ones before the stop all passed; it stops early iff some manifest fails, and then at the first failing one with its error |
| Kube.InvalidManifestBlocksApply | pkg/k8s/k8s.go:145-162 | with validation on, one invalid present manifest means nothing is applied and the error is a validation failure naming an invalid manifest no later than it |
| Kube.FirstUnhealthy | pkg/k8s/k8s.go:398-402 | no phase is reported iff all phases are `Running` or `Succeeded`; a reported phase is neither, and every phase listed before it is healthy |
| Kube.CheckPodHealth | pkg/k8s/k8s.go:385-405 | a failed query is reported with its cause; otherwise the check passes iff every whitespace-separated phase is healthy, and a failure names the first unhealthy phase of the output |
| Kube.NoPodsIsHealthy | pkg/k8s/k8s.go:397-404 | empty output (no pods) passes the check |
| Kube.HealthOfPrintedPhases | pkg/k8s/k8s.go:389-404 | for phases printed separated by spaces, the check passes iff every printed phase is healthy |
| Prereq.NewChecker | pkg/prereq/prereq.go:27-32 | a new checker has no results and so no failures |
| Prereq.ScanForFailures | pkg/prereq/prereq.go:55-62 | the scan reports a failure iff some recorded result is both required and failed |
| Prereq.AddResult | pkg/prereq/prereq.go:35-37 | recording appends exactly the new result and keeps the earlier ones |
| Prereq.AddResultFailures | pkg/prereq/prereq.go:35-62 | after recording, the checker has failures iff it had them before or the new result is a required failure |
| Prereq.ScanFromFinds | pkg/prereq/prereq.go:122-129 | the substring scan from an offset succeeds iff the substring occurs at that offset or later |
| Prereq.HasSubstringIsContains | pkg/prereq/prereq.go:117-120 | the package's own `contains` helper agrees with substring containment on every input, the empty substring included |
| Prereq.DockerFailure | pkg/prereq/prereq.go:77-104 | the diagnosis is a permission problem iff sudo is off and the output mentions a permission or socket problem; otherwise a stopped daemon, then a missing binary, by the first matching phrase; otherwise the command's error |
| Prereq.CheckDocker | pkg/prereq/prereq.go:65-114 | one required result named `Docker` is added; it passes iff `docker info` succeeds, is never a warning, and a failure carries the diagnosis of the output |
| Prereq.K0sFailure | pkg/prereq/prereq.go:143-157 | a permission problem iff sudo is off and the output says "permission denied"; otherwise a missing binary by its phrases; otherwise k0s is not running, with the command's error |
| Prereq.CheckK0s | pkg/prereq/prereq.go:132-174 | one required result named `k0s` is added; it passes iff `k0s status` succeeds, is never a warning, and a failure carries the diagnosis |
| Prereq.KubectlFailure | pkg/prereq/prereq.go:188-203 | a permission or timeout problem iff sudo is off and the output says "permission denied", or both "dial" and "timeout"; otherwise an unreachable API server on "connection refused" or "dial"; otherwise the command's error |
| Prereq.CheckK0sKubectl | pkg/prereq/prereq.go:177-246 | a required `kubectl` result passes iff listing nodes succeeds, and a failure carries the diagnosis; only when it passes and a namespace is named is a second, optional `Namespace` result added, which passes iff the namespace exists and otherwise warns |
| Prereq.CheckGit | pkg/prereq/prereq.go:249-269 | one required result named `Git` is added; it passes iff `git --version` succeeds and otherwise fails |
| Prereq.AvailableGB | pkg/prereq/prereq.go:285-286 | free space is the available blocks times the block size, in unsigned 64-bit arithmetic, divided down to whole GiB; without wrap-around it is the exact quotient |
| Prereq.AvailableGBRoundsDown | pkg/prereq/prereq.go:285-286 | with 4096-byte blocks, exactly n GiB of blocks is n GB and one block fewer is n - 1 |
| Prereq.CheckDiskSpace | pkg/prereq/prereq.go:272-310 | one optional `Disk Space` result is added; it warns iff the file system cannot be queried or has fewer GB than asked, never fails, and reports the free space and the minimum |
| Prereq.CheckWorkDir | pkg/prereq/prereq.go:313-330 | one optional `Work Directory` result is added; it warns iff the directory does not exist (any other stat error passes) and never fails |
| Prereq.CheckNetwork | pkg/prereq/prereq.go:333-355 | one optional `Network (<host>)` result is added; it warns iff a single ping fails and never fails |
| Prereq.RunCheckFailures | pkg/prereq/prereq.go:65-355 | each check appends one or two results and keeps the earlier ones; the checker fails afterwards iff it failed before or the check is a required tool check whose command failed |
| Prereq.OneResultFailures | pkg/prereq/prereq.go:55-62 | appending one result makes the checker fail iff it failed before or that result is a required failure |
| Prereq.ExtendedFailures | pkg/prereq/prereq.go:55-62 | after results are appended, the checker fails iff it failed before or one of the new results is a required failure |
| Prereq.RunChecks | pkg/prereq/prereq.go:358-423 | running a list of checks keeps earlier results, adds at least one per check, and fails iff it failed before or some check in the list breaks |
| Prereq.CheckPrereqs | pkg/prereq/prereq.go:358-423 | an operation's prerequisites fail iff one of the required tool checks in its list breaks; disk space, work directory and network checks only warn |
| Prereq.Plan | pkg/prereq/prereq.go:358-423 | every operation checks something; git is checked iff building, cloning, running everything or updating; Docker iff building, testing, running everything, cleaning up or updating; k0s iff the operation touches the cluster, and kubectl against the namespace exactly then; the network (github.com) only when cloning or running everything; free disk space in the current directory iff building, deploying, cloning, running everything or updating, with a minimum of 5 GB for building and updating, 10 GB for everything and 2 GB otherwise |
| Prereq.KubectlFollowsK0s | pkg/prereq/prereq.go:365-423 | in every operation the node listing is checked right after `k0s status` |
| Prereq.CloneNeedsOnlyGit | pkg/prereq/prereq.go:377-381 | cloning fails its prerequisites iff `git --version` fails, whatever the network and disk show |
| Prereq.AllNeedsEveryTool | pkg/prereq/prereq.go:390-397 | the full pipeline fails its prerequisites iff git, docker, k0s or node listing fails |
| Prereq.DockerSocketDiagnosis | pkg/prereq/prereq.go:79-90 | a socket message is blamed on permissions without sudo, while "Cannot connect" with sudo means a stopped daemon |
| Prereq.DialTimeoutDiagnosis | pkg/prereq/prereq.go:191-196 | a dial timeout is a permission or timeout problem without sudo and an unreachable API server with sudo |
| Prereq.SudoNeverBlamesPermission | pkg/prereq/prereq.go:77-203 | with sudo, no diagnosis ever blames permissions |
| Database.GetBackendPod | pkg/database/database.go:230-249 | a failed pod query is an error with its cause; blank output is the "no backend pod" error; otherwise the pod name is the trimmed output, never empty |
| Database.PaddedPodName | pkg/database/database.go:243 | a pod name printed with trailing white space is found as the bare name |
| Database.Backup | pkg/database/database.go:51-100 | a dry run does nothing; otherwise it succeeds iff the pod is found, the directory is created and the copy out of the pod succeeds; a missing pod and a failed directory creation are errors with their causes; the file written is `<dir>/magnetiq-db-<timestamp>.db`, with `.gz` only when compression was asked for and succeeded; a failed compression is not an error |
| Database.Restore | pkg/database/database.go:103-154 | a dry run does nothing; a missing file is an error naming it; a compressed file succeeds iff the file without `.gz` can be created, `gunzip -c` succeeds, the pod is found and copying the decompressed file in succeeds; failed creation and failed decompression are errors with their causes; an uncompressed file succeeds iff the pod is found and copying that very file succeeds |
| Database.Unpack | pkg/database/database.go:115-131 | a file without `.gz` needs no decompression; a `.gz` file is unpacked iff the target without `.gz` can be created and `gunzip -c` succeeds, and each failure is reported with its cause |
| Database.Upload | pkg/database/database.go:133-150 | the upload succeeds iff the backend pod is found and copying the file into it succeeds |
| Database.BackupFileEndsInDb | pkg/database/database.go:70-71 | a backup file name always ends in `.db` |
| Database.RestoreSourceOfBackup | pkg/database/database.go:88-121 | restoring a backup, compressed or not, reads the uncompressed file the backup wrote |
| Database.BackupNamesMatchPattern | pkg/database/database.go:70-261 | every backup name, compressed or not, is matched by the `magnetiq-db-*.db*` retention pattern |
| Database.Migrate | pkg/database/database.go:157-195 | a dry run does nothing; otherwise it succeeds iff the pod is found and `alembic upgrade head` succeeds in it |
| Database.Status | pkg/database/database.go:198-227 | it succeeds iff the pod is found and `alembic current` succeeds in it |
| Database.StatusIgnoresDryRun | pkg/database/database.go:198-227 | the status query runs the same way in a dry run |
| Database.Insert | pkg/database/database.go:289-291 | inserting into an oldest-first list keeps it oldest first and adds exactly the new entry |
| Database.SortByAge | pkg/database/database.go:289-291 | the result is oldest first and is a permutation of the input |
| Database.Stated | pkg/database/database.go:278-286 | an entry is kept for every match whose modification time could be read, with that time; unreadable matches are skipped |
| Database.Removed | pkg/database/database.go:296-303 | a path counts as removed iff it was among those to delete and its removal succeeded; failures are only warnings |
| Database.SortedCut | pkg/database/database.go:289-296 | in an oldest-first list, every entry before the cut is no newer than every entry after it |
| Database.PruneCut | pkg/database/database.go:289-296 | cutting the sorted list loses nothing, the removed part is no newer than the kept part, and every removed entry was listed |
| Database.Prune | pkg/database/database.go:289-306 | never an error; the entries deleted and kept together are exactly the listed ones; the `retention` newest (or all, if fewer) are kept; each deleted entry is no newer than any kept one; removed paths are those deleted without error |
| Database.CleanOldBackups | pkg/database/database.go:252-307 | a dry run does nothing; the only error is a failure to list the backups; at most `retention` matches removes nothing; otherwise the oldest matches with readable times are pruned down to `retention` |
| Database.ZeroRetentionAttemptsAll | pkg/database/database.go:267-303 | a retention of 0 keeps nothing and tries to delete every backup whose time could be read |
| Database.UnstatableBackupSurvives | pkg/database/database.go:280-284 | a backup whose modification time cannot be read is never removed |
| Payload.MissingAmong | pkg/payload/validator.go:40-46 | the missing entries are exactly the required ones that do not exist, kept in the required order |
| Payload.ValidateStructureAsWritten | pkg/payload/validator.go:30-66 | the check as written crashes exactly when nothing is reported missing but the build script cannot be examined for a reason other than not existing |
| Payload.StructureCheckCrashes | pkg/payload/validator.go:53-55 | with the three directories present and the build script unreadable, the check as written dereferences a nil file description |
| Payload.ValidateStructure | pkg/payload/validator.go:30-66 | the check reports missing entries iff some required entry does not exist, and then lists exactly those, in order; it tries to make the script executable iff nothing is missing and the script exists without any execute bit |
| Payload.StructureCorrectionAgrees | pkg/payload/validator.go:30-66 | whenever the check as written does not crash, it agrees with the corrected check |
| Payload.DirIssuesAsWritten | pkg/payload/validator.go:82-95 | the directory loop as written crashes iff some directory cannot be examined for a reason other than not existing |
| Payload.DirIssues | pkg/payload/validator.go:82-95 | an issue is reported for every required directory that is missing or is not a directory, and for no other |
| Payload.DirIssuesNoDuplicates | pkg/payload/validator.go:82-95 | directories listed once each are reported at most once each |
| Payload.FileIssues | pkg/payload/validator.go:109-117 | an issue is reported for every required file that does not exist, and for no other |
| Payload.FileIssuesNoDuplicates | pkg/payload/validator.go:109-117 | files listed once each are reported at most once each |
| Payload.ExecIssue | pkg/payload/validator.go:120-128 | one issue iff the build script exists and has no execute bit, and none otherwise |
| Payload.ValidatePayloadAsWritten | pkg/payload/validator.go:69-137 | the full check as written crashes iff one of the four directories cannot be examined for a reason other than not existing |
| Payload.PayloadCheckCrashes | pkg/payload/validator.go:84-89 | an unreadable `k8s` directory crashes the full check as written |
| Payload.ValidatePayload | pkg/payload/validator.go:69-137 | the result reports every faulty directory, every missing file and a non-executable script, and nothing else, and no issue twice |
| Payload.ValidatePayloadEmptyIff | pkg/payload/validator.go:69-137 | no issues iff every directory exists as a directory, every file exists and the script, if present, is executable |
| Payload.PayloadCorrectionAgrees | pkg/payload/validator.go:69-137 | whenever the full check as written does not crash, it agrees with the corrected check |
| Payload.DirsAgree | pkg/payload/validator.go:82-95 | the directory loop as written and the corrected one agree whenever the former does not crash |
| Builder.Tail | pkg/builder/builder.go:249-253 | the tail has `min(n, length)` elements and they are the last ones, in order |
| Builder.TailOfAppended | pkg/builder/builder.go:249-253 | the tail of length `|s|` of `pre + s` is `s` |
| Builder.TailOfTail | pkg/builder/builder.go:249-253 | taking a tail of a tail is taking the shorter tail |
| Builder.LinesOf | pkg/builder/builder.go:248 | the trimmed text splits into at least one line, and joining the lines with newlines gives the trimmed text back |
| Builder.TailIsEndOfText | pkg/builder/builder.go:248-253 | the last lines, joined again, are the end of the trimmed text |
| Builder.TailLog | pkg/builder/builder.go:242-254 | an unreadable log is that read error; otherwise the result is the last `min(n, lines)` lines of the trimmed log, position by position, which rejoined are the end of the trimmed log, and the whole log when it has no more than `n` lines |
| Builder.LastOutputLines | pkg/builder/builder.go:106-117 | empty output reports no lines; otherwise the last `min(10, lines)` lines of the trimmed output, position by position, which rejoined are its end, and all of them when there are no more than 10 |
| Builder.LogDir | pkg/builder/builder.go:67-72 | the log directory is `/var/log/m2deploy` iff it can be created, and `/tmp` otherwise |
| Builder.LogFileNamed | pkg/builder/builder.go:73 | for a component and tag without `/`, the log file is `build-<component>-<tag>.log` directly inside the log directory |
| Builder.BuildEnv | pkg/builder/builder.go:76-85 | the added variables are the production target, host network and `magnetiq` registry prefix, then `USE_SUDO=true` iff sudo is used and `USE_SUDO=false` otherwise |
| Builder.BuildInvocation | pkg/builder/builder.go:88-90 | the build runs the work directory's `scripts/build.sh` in the work directory with the component, the local tag and the log file |
| Builder.Build | pkg/builder/builder.go:47-126 | a dry run succeeds without running anything; a missing script is reported with its path; otherwise the build succeeds iff the script succeeds; a script failure names the component and its cause; it also carries the last at most 10 output lines and the log file, which the source logs rather than puts in the returned error |
| Builder.FailedBuildReportsEndOfOutput | pkg/builder/builder.go:103-119 | a failed build carries the script's error, and the lines it reports are the end of the script's trimmed output |
| Builder.BuildAsync | pkg/builder/builder.go:130-194 | a started build names the component and local image and has no error; a dry run is already done, logs to `/tmp/dryrun.log` and has no process; otherwise it fails iff the script is missing or cannot be started, and a started build is not done, has the process started and logs to the build's log file |
| Builder.Wait | pkg/builder/builder.go:208-218 | after waiting the build is done and the returned error is the recorded one; a finished build returns its recorded error unchanged; an unfinished one records the process's exit error; nothing else changes |
| Builder.WaitIdempotent | pkg/builder/builder.go:208-211 | waiting a second time changes nothing and returns the same error |
| Builder.SendSignal | pkg/builder/builder.go:232 | sending a nil signal is always an error, while signal 0 succeeds iff the process is alive |
| Builder.IsRunningAsWritten | pkg/builder/builder.go:221-234 | a finished build, or one with no process, is not running |
| Builder.IsRunningAsWrittenNeverTrue | pkg/builder/builder.go:232-233 | because a nil signal always errs, the check as written never reports a build as running |
| Builder.IsRunning | pkg/builder/builder.go:221-234 | with a signal-0 probe, a build is running iff it is not done, has a process, and that process is alive |
| Builder.LiveBuildMisreported | pkg/builder/builder.go:177-233 | a started build whose process is alive is reported as not running by the check as written, and as running by the corrected check |
| Builder.WaitedNotRunning | pkg/builder/builder.go:208-229 | a build that has been waited for is never running |

## Left out

- The SSH transport (reading the key, dialling, sessions, the command timeout and its kill
  signal): each remote command's reply is an input of the `Probe` oracle.
- The goroutines, semaphore and wait group of `DistributeToAllWorkers`: workers are handled in
  index order; each task writes only its own slot, so the results do not depend on the
  interleaving (`Distribute.ResultsArePerWorker`).
- Distribute.DistributeToAllWorkers: requires at least one parallel slot, because with 0 slots
  every task blocks on the unbuffered semaphore forever and a negative count makes the channel
  allocation panic.
- Durations, start times and sleeps (`Duration`, `StartTime`, the delays between manifests and
  retries, `BuildProcess.Duration`): time is not modelled; sleeps are counted where the source
  promises how many happen.
- The floating-point megabyte figure in the distributor's log lines, and every log line: the
  logger has no effect on results. The one exception is `ScriptFailed`'s `lastLines` and
  `logFile`, which record what `Build` logs on a script failure; its returned error text is only
  `build script failed for <component>: <cause>`.
- Decoding the node list as JSON: `GetWorkerIPs` receives the decoded nodes or the decoding error.
- `os.Stat`, `os.MkdirAll`, `os.Create`, `os.Remove`, `filepath.Glob`, `syscall.Statfs`,
  `os.ReadFile`, `os.Open`, process start, wait and signals, and `os.Geteuid`: all are oracle parameters.
- `os.Environ()` in the build environment: only the four variables the builder appends are modelled.
- The wait phase of `DeployWithOptions` (rollout waits and the pod-health check): it only logs
  and never changes the result, so the model has no `wait` flag; `Deploy` is the case without
  validation.
- `SetImage`, `WaitForRollout`, `Rollback`, `GetPods`, `GetServices`, `GetIngress`,
  `CopySecretToNamespace`, `ScaleDeployment` and the clients' constructors: single command
  wrappers with no decision in them.
- The wrappers in `pkg/docker/docker.go` and `pkg/git/git.go`, the YAML round trip in
  `pkg/manifest/manifest.go`, and every command file except `cmd/utils.go`: plumbing around the
  modelled logic.
- `NewExternalBuilder`, `NewValidator`, `PrintValidationErrors` and `PrintResults`: constructors
  and printing.
- Payload.ValidatePayload: the source iterates over Go maps, whose order is unspecified, so the
  contract states which issues are reported and not their order.
- Builder.TailLog: requires a non-negative line count, because a negative one makes the source
  slice past the end and panic.
- Database.CleanOldBackups: requires a non-negative retention, because a negative one makes the
  source index past the end of the file list and panic.
- Database.CleanOldBackups: backups with equal modification times are ordered as the insertion
  sort leaves them, while the source's `sort.Slice` is not stable and may remove either; `Prune`'s
  own contract does not depend on that order.
- Database.Backup: the timestamp is an input instead of the clock's formatted time.
- The `Text` and `Paths` modules cover only what the modelled code uses: `ToLower` maps only
  `A` to `Z`, not the full Unicode case mapping of Go's `strings.ToLower`; the white-space test
  covers ASCII, U+0085, U+00A0 and the other Unicode white-space characters.

Where the package's own tests and its code disagree, the code is modelled:
`pkg/config/config_test.go` expects `magnetiq/backend:latest` when no image prefix is set, while
`GetLocalImageName` yields `/backend:latest` (`Config.UnsetPrefixGivesLeadingSlash`).

## Findings

| source | as written | input that shows it | evidently intended | confidence | as-written member | corrected member |
|---|---|---|---|---|---|---|
| pkg/payload/validator.go:53-55 | the build script's `FileInfo` is taken with its error ignored and then used | `backend`, `frontend`, `k8s` present and `scripts/build.sh` failing to stat with "permission denied": the nil `FileInfo` is dereferenced and the process panics | a script that cannot be examined is not made executable, and the check returns normally | high, not executed | Payload.ValidateStructureAsWritten | Payload.ValidateStructure |
| pkg/payload/validator.go:84-89 | only "does not exist" is tested before calling `IsDir` on the stat result | a required directory such as `k8s` failing to stat with "permission denied": `IsDir` is called on a nil `FileInfo` and the process panics | a directory that cannot be examined is not reported as faulty, and the check returns its list | high, not executed | Payload.ValidatePayloadAsWritten | Payload.ValidatePayload |
| pkg/builder/builder.go:232 | liveness is probed with `Process.Signal(os.Signal(nil))`, which Go rejects for a nil signal | any started, unfinished build whose process is alive: `IsRunning` returns false | probe with signal 0, so a live process is reported as running | high, not executed | Builder.IsRunningAsWritten | Builder.IsRunning |

=== FILE: base.dfy ===
/**
 * Failure-carrying wrappers shared by every module of the model: the
 * `(value, error)` pairs and nil-able errors of the Go code become
 * `Result` and `Option`.
 */
module Base {

  /** A value that may be absent (a nil pointer or nil error in the source). */
  datatype Option<+T> = None | Some(value: T)

  /** The outcome of an operation that returns either a value or an error. */
  datatype Result<+T, +E> = Ok(value: T) | Err(error: E)

  /** `b` keeps some of the elements of `a`, in their order. */
  predicate Subsequence<T(==)>(b: seq<T>, a: seq<T>)
    decreases |a|
  {
    if |b| == 0 then true
    else if |a| == 0 then false
    else (b[0] == a[0] && Subsequence(b[1..], a[1..])) || Subsequence(b, a[1..])
  }

  /** A byte of a file or of a stream. */
  type byte = x: int | 0 <= x < 256

  /** Largest value of Go's `int64`. */
  const MaxInt64: int := 0x7FFF_FFFF_FFFF_FFFF

  /** Smallest value of Go's `int64`. */
  const MinInt64: int := -0x8000_0000_0000_0000

  /** Number of values of Go's `uint64` (arithmetic on it wraps modulo this). */
  const Uint64Modulus: int := 0x1_0000_0000_0000_0000

  /** A value of Go's `uint64`. */
  type uint64 = x: int | 0 <= x < Uint64Modulus

  /** A value of Go's `int64`. */
  type int64 = x: int | MinInt64 <= x <= MaxInt64
}

=== FILE: builder.dfy ===
/**
 * The external image builder: a build script run as a separate process,
 * its log file, the tail of that log, and the bookkeeping of a build
 * started in the background. Stat, `mkdir -p`, process execution, the
 * log file's contents and process liveness are oracles.
 */
module Builder {
  import opened Base
  import opened Text
  import Paths
  import Config

  /** Where build logs go when the directory can be created. */
  const PrimaryLogDir: string := "/var/log/m2deploy"

  /** Where build logs go otherwise. */
  const FallbackLogDir: string := "/tmp"

  /** The log file a dry-run background build claims. */
  const DryRunLogFile: string := "/tmp/dryrun.log"

  /** How many trailing output lines a failed build reports. */
  const ReportedLines: nat := 10

  function Min(a: nat, b: nat): nat { if a <= b then a else b }

  // ---------------------------------------------------------------------
  // Tails of logs
  // ---------------------------------------------------------------------

  /** The last `n` elements of `lines`, or all of them when there are no more than `n`. */
  function Tail<T>(lines: seq<T>, n: nat): (r: seq<T>)
    ensures |r| == Min(n, |lines|)
    ensures forall k :: 0 <= k < |r| ==> r[k] == lines[|lines| - |r| + k]
  {
    if |lines| <= n then lines else lines[|lines| - n..]
  }

  /** The tail of a sequence that ends with `s` is `s` itself, at `s`'s length. */
  lemma TailOfAppended<T>(pre: seq<T>, s: seq<T>)
    ensures Tail(pre + s, |s|) == s
  {
    var r := Tail(pre + s, |s|);
    assert forall k :: 0 <= k < |s| ==> r[k] == s[k];
  }

  /** Taking tails twice takes the shorter tail. */
  lemma TailOfTail<T>(lines: seq<T>, m: nat, n: nat)
    ensures Tail(Tail(lines, m), n) == Tail(lines, Min(m, n))
  {
    var a := Tail(Tail(lines, m), n);
    var b := Tail(lines, Min(m, n));
    assert |a| == |b|;
    assert forall k :: 0 <= k < |a| ==> a[k] == b[k];
  }

  /** Dropping leading pieces of a join leaves a suffix of the joined string. */
  lemma {:induction false} JoinDropSuffix(parts: seq<string>, k: nat, sep: char)
    requires k < |parts|
    ensures HasSuffix(Join(parts, sep), Join(parts[k..], sep))
    decreases k
  {
    if k > 0 {
      JoinDropSuffix(parts[1..], k - 1, sep);
      assert parts[1..][k - 1..] == parts[k..];
      var rest := Join(parts[1..], sep);
      var full := Join(parts, sep);
      assert full == parts[0] + [sep] + rest;
      var t := Join(parts[k..], sep);
      assert rest[|rest| - |t|..] == t;
      assert full[|full| - |t|..] == rest[|rest| - |t|..];
    }
  }

  /** The newline-separated lines of the trimmed text, as the source reads a log. */
  function LinesOf(text: string): (r: seq<string>)
    ensures |r| >= 1
    ensures Join(r, '\n') == TrimSpace(text)
  {
    JoinSplit(TrimSpace(text), '\n');
    Split(TrimSpace(text), '\n')
  }

  /** The last `n` lines of a text, joined back, are the end of the trimmed text. */
  lemma TailIsEndOfText(text: string, n: nat)
    ensures HasSuffix(TrimSpace(text), Join(Tail(LinesOf(text), n), '\n'))
  {
    var lines := LinesOf(text);
    if n >= 1 {
      var k := |lines| - Min(n, |lines|);
      assert Tail(lines, n) == lines[k..];
      JoinDropSuffix(lines, k, '\n');
    }
  }

  /**
   * `TailLog`: reads the log and returns its last `n` lines, or the read
   * error. The source slices out of range for a negative `n`.
   */
  function TailLog(logFile: string, n: int, read: string -> Result<string, string>)
    : (r: Result<seq<string>, string>)
    requires n >= 0
    ensures read(logFile).Err? ==> r == Err(read(logFile).error)
    ensures read(logFile).Ok? ==> r.Ok? && |r.value| == Min(n, |LinesOf(read(logFile).value)|)
    ensures read(logFile).Ok? ==>
              var ls := LinesOf(read(logFile).value);
              forall k :: 0 <= k < |r.value| ==> r.value[k] == ls[|ls| - |r.value| + k]
    ensures read(logFile).Ok? ==> HasSuffix(TrimSpace(read(logFile).value), Join(r.value, '\n'))
    ensures read(logFile).Ok? && n >= |LinesOf(read(logFile).value)| ==> Join(r.value, '\n') == TrimSpace(read(logFile).value)
  {
    match read(logFile)
    case Err(e) => Err(e)
    case Ok(content) =>
      TailIsEndOfText(content, n);
      Ok(Tail(LinesOf(content), n))
  }

  /** The output lines a failed build reports: none for empty output, otherwise the last ten. */
  function LastOutputLines(output: string): (r: seq<string>)
    ensures output == "" <==> r == []
    ensures |r| <= ReportedLines
    ensures output != "" ==> |r| == Min(ReportedLines, |LinesOf(output)|)
    ensures output != "" ==>
              var ls := LinesOf(output);
              forall k :: 0 <= k < |r| ==> r[k] == ls[|ls| - |r| + k]
    ensures output != "" ==> HasSuffix(TrimSpace(output), Join(r, '\n'))
    ensures output != "" && |LinesOf(output)| <= ReportedLines ==> r == LinesOf(output)
  {
    if |output| > 0 then
      var lines := LinesOf(output);
      TailIsEndOfText(output, ReportedLines);
      var r := Tail(lines, ReportedLines);
      assert |lines| <= ReportedLines ==> r == lines;
      r
    else []
  }

  // ---------------------------------------------------------------------
  // Running the build script
  // ---------------------------------------------------------------------

  /** `ExternalBuilder`. */
  datatype Builder = Builder(dryRun: bool, config: Config.Config, useSudo: bool)

  /** A run of the build script: program, arguments, extra environment and working directory. */
  datatype Invocation = Invocation(program: string, args: seq<string>, env: seq<string>, dir: string)

  /** What a finished process reports: its combined output, and its error if it failed. */
  datatype Completion = Completion(output: string, err: Option<string>)

  /** The host the builder runs on. */
  datatype Host = Host(
    notExist: string -> bool,
    mkdirAll: string -> bool,
    run: Invocation -> Completion,
    start: Invocation -> Result<int, string>)

  /**
   * Why a build failed. A script failure's error text names only the
   * component and the cause; `lastLines` and `logFile` carry what the
   * builder logs alongside it (the end of the output and the log file).
   */
  datatype BuildError =
    | ScriptNotFound(path: string)
    | ScriptFailed(component: string, cause: string, lastLines: seq<string>, logFile: string)
    | StartFailed(cause: string)

  /** `<workDir>/scripts/build.sh`. */
  function ScriptPath(workDir: string): string {
    Paths.JoinPath([workDir, "scripts", "build.sh"])
  }

  /** The log directory: the primary one when it can be created, `/tmp` otherwise. */
  function LogDir(host: Host): (r: string)
    ensures r == PrimaryLogDir <==> host.mkdirAll(PrimaryLogDir)
    ensures r == PrimaryLogDir || r == FallbackLogDir
  {
    if host.mkdirAll(PrimaryLogDir) then PrimaryLogDir else FallbackLogDir
  }

  /** `build-<component>-<tag>.log`. */
  function LogFileName(component: string, tag: string): string {
    "build-" + component + "-" + tag + ".log"
  }

  /** The log file of a build, inside the log directory. */
  function LogFile(dir: string, component: string, tag: string): string {
    Paths.JoinPath([dir, LogFileName(component, tag)])
  }

  /**
   * For a component and tag without `/`, the log file is named after
   * them and lies directly in the log directory.
   */
  lemma LogFileNamed(dir: string, component: string, tag: string)
    requires '/' !in component && '/' !in tag
    ensures Paths.Base(LogFile(dir, component, tag)) == LogFileName(component, tag)
    ensures HasSuffix(LogFile(dir, component, tag), LogFileName(component, tag))
  {
    var name := LogFileName(component, tag);
    assert name == "build-" + component + "-" + tag + ".log";
    assert forall k :: 0 <= k < |name| ==> name[k] != '/' by {
      forall k | 0 <= k < |name| ensures name[k] != '/' {
        if k < 6 {
        } else if k < 6 + |component| {
          assert name[k] == component[k - 6];
        } else if k < 7 + |component| {
        } else if k < 7 + |component| + |tag| {
          assert name[k] == tag[k - 7 - |component|];
        } else {
          assert name[k] == ".log"[k - 7 - |component| - |tag|];
        }
      }
    }
    assert name[..6] == "build-";
    assert name != "." && name != "..";
    Paths.BaseOfJoinPath(dir, name);
    Paths.JoinPathEndsWith(dir, name);
  }

  /** The variables the build script is given on top of the inherited environment. */
  function BuildEnv(useSudo: bool): (r: seq<string>)
    ensures "USE_SUDO=true" in r <==> useSudo
    ensures "USE_SUDO=false" in r <==> !useSudo
    ensures |r| == 4 && r[..3] == ["BUILD_TARGET=production", "BUILD_NETWORK=host", "REGISTRY_PREFIX=magnetiq"]
  {
    ["BUILD_TARGET=production", "BUILD_NETWORK=host", "REGISTRY_PREFIX=magnetiq",
     if useSudo then "USE_SUDO=true" else "USE_SUDO=false"]
  }

  /** `build.sh <component> <tag> <logFile>`, run in the work directory. */
  function BuildInvocation(b: Builder, workDir: string, component: string, logFile: string): (r: Invocation)
    ensures r.program == ScriptPath(workDir) && r.dir == workDir
    ensures r.args == [component, b.config.localImageTag, logFile]
  {
    Invocation(ScriptPath(workDir), [component, b.config.localImageTag, logFile], BuildEnv(b.useSudo), workDir)
  }

  /**
   * `Build`: nothing in a dry run; otherwise the script must exist, and
   * it runs to completion with its log in the log directory. A failure
   * carries the last output lines and the log file.
   */
  function Build(b: Builder, workDir: string, component: string, host: Host): (r: Option<BuildError>)
    ensures b.dryRun ==> r == None
    ensures !b.dryRun && host.notExist(ScriptPath(workDir)) ==> r == Some(ScriptNotFound(ScriptPath(workDir)))
    ensures r.None? <==>
              b.dryRun
              || (!host.notExist(ScriptPath(workDir))
                  && host.run(BuildInvocation(b, workDir, component,
                                              LogFile(LogDir(host), component, b.config.localImageTag))).err.None?)
    ensures r.Some? && r.value.ScriptFailed? ==>
              && r.value.component == component
              && r.value.logFile == LogFile(LogDir(host), component, b.config.localImageTag)
              && |r.value.lastLines| <= ReportedLines
    ensures r.Some? ==> !r.value.StartFailed?
  {
    var script := ScriptPath(workDir);
    if b.dryRun then None
    else if host.notExist(script) then Some(ScriptNotFound(script))
    else
      var logFile := LogFile(LogDir(host), component, b.config.localImageTag);
      var done := host.run(BuildInvocation(b, workDir, component, logFile));
      match done.err
      case Some(e) => Some(ScriptFailed(component, e, LastOutputLines(done.output), logFile))
      case None => None
  }

  /** A failed build with output reports the end of that output. */
  lemma FailedBuildReportsEndOfOutput(b: Builder, workDir: string, component: string, host: Host)
    requires Build(b, workDir, component, host).Some?
    requires Build(b, workDir, component, host).value.ScriptFailed?
    ensures var logFile := LogFile(LogDir(host), component, b.config.localImageTag);
            var done := host.run(BuildInvocation(b, workDir, component, logFile));
            && done.err == Some(Build(b, workDir, component, host).value.cause)
            && (done.output != "" ==>
                  HasSuffix(TrimSpace(done.output), Join(Build(b, workDir, component, host).value.lastLines, '\n')))
  {
  }

  // ---------------------------------------------------------------------
  // Background builds
  // ---------------------------------------------------------------------

  /** `BuildProcess` (its start time is left out): the process id once started, and the cached wait result. */
  datatype BuildProcess = BuildProcess(
    component: string,
    imageName: string,
    logFile: string,
    pid: Option<int>,
    done: bool,
    error: Option<string>)

  /**
   * `BuildAsync`: in a dry run a process that is already done, with the
   * dry-run log; otherwise the script must exist and start, and the
   * process is not done yet.
   */
  function BuildAsync(b: Builder, workDir: string, component: string, host: Host)
    : (r: Result<BuildProcess, BuildError>)
    ensures r.Ok? ==> r.value.component == component && r.value.imageName == Config.LocalImageName(b.config, component)
    ensures r.Ok? ==> r.value.error == None
    ensures b.dryRun ==> r.Ok? && r.value.done && r.value.logFile == DryRunLogFile && r.value.pid == None
    ensures !b.dryRun && r.Ok? ==>
              && !r.value.done
              && r.value.logFile == LogFile(LogDir(host), component, b.config.localImageTag)
              && host.start(BuildInvocation(b, workDir, component, r.value.logFile)).Ok?
              && r.value.pid == Some(host.start(BuildInvocation(b, workDir, component, r.value.logFile)).value)
    ensures !b.dryRun ==>
              (r.Err? <==>
                 host.notExist(ScriptPath(workDir))
                 || host.start(BuildInvocation(b, workDir, component,
                                               LogFile(LogDir(host), component, b.config.localImageTag))).Err?)
    ensures r.Err? ==> !r.error.ScriptFailed?
  {
    var image := Config.LocalImageName(b.config, component);
    var script := ScriptPath(workDir);
    if b.dryRun then Ok(BuildProcess(component, image, DryRunLogFile, None, true, None))
    else if host.notExist(script) then Err(ScriptNotFound(script))
    else
      var logFile := LogFile(LogDir(host), component, b.config.localImageTag);
      match host.start(BuildInvocation(b, workDir, component, logFile))
      case Err(e) => Err(StartFailed(e))
      case Ok(pid) => Ok(BuildProcess(component, image, logFile, Some(pid), false, None))
  }

  /**
   * `Wait`: once done, the cached error without waiting again;
   * otherwise `waited` (what waiting for the process reports) becomes
   * the cached error.
   */
  function Wait(bp: BuildProcess, waited: Option<string>): (r: (BuildProcess, Option<string>))
    ensures r.0.done && r.1 == r.0.error
    ensures bp.done ==> r == (bp, bp.error)
    ensures !bp.done ==> r.1 == waited
    ensures r.0.component == bp.component && r.0.imageName == bp.imageName
            && r.0.logFile == bp.logFile && r.0.pid == bp.pid
  {
    if bp.done then (bp, bp.error)
    else (bp.(done := true, error := waited), waited)
  }

  /** Waiting twice waits once: the second call returns the first call's result and changes nothing. */
  lemma WaitIdempotent(bp: BuildProcess, first: Option<string>, second: Option<string>)
    ensures Wait(Wait(bp, first).0, second) == Wait(bp, first)
  {
  }

  /** A signal as `os.Process.Signal` receives it: nil, or a signal number. */
  datatype Signal = NilSignal | SysSignal(number: int)

  /**
   * `os.Process.Signal` on Unix, as the standard library documents it:
   * anything other than a signal number is refused before the process
   * is looked at; signal 0 only probes whether the process is alive.
   */
  function SendSignal(pid: int, sig: Signal, alive: int -> bool): (err: Option<string>)
    ensures sig.NilSignal? ==> err.Some?
    ensures sig == SysSignal(0) ==> (err.None? <==> alive(pid))
  {
    match sig
    case NilSignal => Some("os: unsupported signal type")
    case SysSignal(_) => if alive(pid) then None else Some("os: process already finished")
  }

  /** `IsRunning` as written: it probes the process with a nil signal. */
  function IsRunningAsWritten(bp: BuildProcess, alive: int -> bool): (r: bool)
    ensures bp.done || bp.pid.None? ==> !r
  {
    if bp.done then false
    else if bp.pid.None? then false
    else SendSignal(bp.pid.value, NilSignal, alive).None?
  }

  /** As written, a build is never reported running, even a live one. */
  lemma IsRunningAsWrittenNeverTrue(bp: BuildProcess, alive: int -> bool)
    ensures !IsRunningAsWritten(bp, alive)
  {
  }

  /** `IsRunning` with the probe sent as signal 0: running iff not waited for, started, and alive. */
  function IsRunning(bp: BuildProcess, alive: int -> bool): (r: bool)
    ensures r <==> !bp.done && bp.pid.Some? && alive(bp.pid.value)
  {
    if bp.done then false
    else if bp.pid.None? then false
    else SendSignal(bp.pid.value, SysSignal(0), alive).None?
  }

  /** A freshly started build whose process is alive: the written probe says stopped, the corrected one running. */
  lemma LiveBuildMisreported(b: Builder, workDir: string, component: string, host: Host, alive: int -> bool)
    requires !b.dryRun
    requires BuildAsync(b, workDir, component, host).Ok?
    requires alive(BuildAsync(b, workDir, component, host).value.pid.value)
    ensures !IsRunningAsWritten(BuildAsync(b, workDir, component, host).value, alive)
    ensures IsRunning(BuildAsync(b, workDir, component, host).value, alive)
  {
  }

  /** After `Wait` a build is no longer running, whatever the process does. */
  lemma WaitedNotRunning(bp: BuildProcess, waited: Option<string>, alive: int -> bool)
    ensures !IsRunning(Wait(bp, waited).0, alive)
  {
  }
}

=== FILE: cli.dfy ===
/**
 * Helpers of the command layer: which components a component argument
 * selects, the names derived from a component, the workspace derived
 * from a repository URL, the error decorations, and the reading of a
 * confirmation answer.
 */
module Cli {
  import opened Base
  import opened Text
  import Paths
  import Constants

  // ---------------------------------------------------------------------
  // Components
  // ---------------------------------------------------------------------

  /** `getComponents`: `both` selects backend then frontend; an unknown name selects nothing. */
  function Components(component: string): (r: seq<string>)
    ensures forall k :: 0 <= k < |r| ==>
              r[k] == Constants.ComponentBackend || r[k] == Constants.ComponentFrontend
    ensures component == Constants.ComponentBoth ==>
              r == [Constants.ComponentBackend, Constants.ComponentFrontend]
    ensures component != Constants.ComponentBoth ==> r == [] || r == [component]
  {
    if component == Constants.ComponentBackend then [Constants.ComponentBackend]
    else if component == Constants.ComponentFrontend then [Constants.ComponentFrontend]
    else if component == Constants.ComponentBoth then [Constants.ComponentBackend, Constants.ComponentFrontend]
    else []
  }

  /** The error for an unknown component: the name given and the three accepted ones. */
  datatype ComponentError = InvalidComponent(given: string, accepted: seq<string>)

  /** `validateComponent`: only `backend`, `frontend` and `both` are accepted. */
  function ValidateComponent(component: string): (r: Option<ComponentError>)
    ensures r.Some? ==> r.value == InvalidComponent(component, [Constants.ComponentBackend,
                                                                Constants.ComponentFrontend,
                                                                Constants.ComponentBoth])
  {
    if component != Constants.ComponentBackend && component != Constants.ComponentFrontend
       && component != Constants.ComponentBoth
    then Some(InvalidComponent(component, [Constants.ComponentBackend, Constants.ComponentFrontend,
                                           Constants.ComponentBoth]))
    else None
  }

  /** A component argument selects something exactly when it validates. */
  lemma ComponentsIffValid(component: string)
    ensures |Components(component)| > 0 <==> ValidateComponent(component).None?
  {
  }

  /** Selecting the components of a selected component gives back just that component. */
  lemma ComponentsOfSelected(component: string, k: nat)
    requires k < |Components(component)|
    ensures Components(Components(component)[k]) == [Components(component)[k]]
  {
  }

  /** The test table: `backend`, `frontend`, `both` and `invalid`. */
  lemma ComponentsTable()
    ensures Components("backend") == ["backend"]
    ensures Components("frontend") == ["frontend"]
    ensures Components("both") == ["backend", "frontend"]
    ensures Components("invalid") == []
    ensures ValidateComponent("invalid").Some? && ValidateComponent("").Some?
  {
  }

  // ---------------------------------------------------------------------
  // Derived names
  // ---------------------------------------------------------------------

  /** `getDeploymentName`: `magnetiq-<component>`. */
  function DeploymentName(component: string): (r: string)
    ensures HasPrefix(r, Constants.DeploymentPrefix)
    ensures TrimPrefix(r, Constants.DeploymentPrefix) == component
  {
    Constants.DeploymentPrefix + component
  }

  /** `getTestContainerName`: `m2deploy-test-<component>`. */
  function TestContainerName(component: string): (r: string)
    ensures HasPrefix(r, Constants.TestContainerPrefix)
    ensures TrimPrefix(r, Constants.TestContainerPrefix) == component
  {
    Constants.TestContainerPrefix + component
  }

  /** Distinct components never share a deployment or a test container. */
  lemma DerivedNamesInjective(a: string, b: string)
    requires a != b
    ensures DeploymentName(a) != DeploymentName(b)
    ensures TestContainerName(a) != TestContainerName(b)
  {
    assert TrimPrefix(DeploymentName(a), Constants.DeploymentPrefix) == a;
    assert TrimPrefix(TestContainerName(a), Constants.TestContainerPrefix) == a;
  }

  // ---------------------------------------------------------------------
  // Workspace
  // ---------------------------------------------------------------------

  /**
   * The repository path a URL is reduced to: the scheme `https://`, then
   * `http://`, then the user `git@` are each removed once if present,
   * every `:` becomes `/`, and one `.git` suffix is removed.
   */
  function RepoPath(repoURL: string): (r: string)
    ensures ':' !in r
  {
    var u := TrimPrefix(repoURL, "https://");
    var u := TrimPrefix(u, "http://");
    var u := TrimPrefix(u, "git@");
    var u := ReplaceChar(u, ':', '/');
    assert ':' !in u;
    TrimSuffix(u, ".git")
  }

  /** Where a repository is checked out when no directory is given. */
  const FallbackWorkspace: string := "/tmp/m2deploy-workspace"

  /**
   * The workspace of a repository path: `/tmp/<owner>/<name>` from its
   * last two `/`-separated pieces, or the fallback workspace when the
   * path has no `/`.
   */
  function WorkspaceOf(path: string): (r: string)
    ensures '/' !in path <==> |Split(path, '/')| < 2
    ensures '/' !in path ==> r == FallbackWorkspace
    ensures var parts := Split(path, '/');
            |parts| >= 2 ==> r == Paths.JoinPath(["/tmp", parts[|parts| - 2], parts[|parts| - 1]])
  {
    var parts := Split(path, '/');
    SplitSingleton(path, '/');
    if |parts| >= 2 then Paths.JoinPath(["/tmp", parts[|parts| - 2], parts[|parts| - 1]])
    else FallbackWorkspace
  }

  /**
   * `deriveWorkspaceFromRepoURL`: the workspace of the URL's repository
   * path. What it gives for each kind of URL is stated by the lemmas below.
   */
  function DeriveWorkspace(repoURL: string): (r: string)
    ensures '/' !in RepoPath(repoURL) ==> r == FallbackWorkspace
    ensures var parts := Split(RepoPath(repoURL), '/');
            '/' in RepoPath(repoURL) ==>
              |parts| >= 2 && r == Paths.JoinPath(["/tmp", parts[|parts| - 2], parts[|parts| - 1]])
  {
    WorkspaceOf(RepoPath(repoURL))
  }

  /** Joining two plain names under `/tmp` just puts slashes between them. */
  lemma JoinUnderTmp(owner: string, name: string)
    requires Paths.NormalSegment(owner) && Paths.NormalSegment(name)
    ensures Paths.JoinPath(["/tmp", owner, name]) == "/tmp/" + owner + "/" + name
  {
    assert Paths.NormalSegment("tmp");
    Paths.JoinPathUnderRoot(["tmp"], [owner, name]);
    assert "/" + Join(["tmp"], '/') == "/tmp";
    assert ["/tmp"] + [owner, name] == ["/tmp", owner, name];
    assert ["tmp"] + [owner, name] == ["tmp", owner, name];
    assert Join([owner, name], '/') == owner + "/" + name by {
      assert [owner, name][1..] == [name];
    }
    assert ["tmp", owner, name][1..] == [owner, name];
    assert Join(["tmp", owner, name], '/') == "tmp" + "/" + (owner + "/" + name);
  }

  /** A path ending in `/<owner>/<name>` splits into pieces whose last two are those names. */
  lemma SplitLastTwo(host: string, owner: string, name: string)
    requires '/' !in owner && '/' !in name
    ensures var parts := Split(host + "/" + owner + "/" + name, '/');
            |parts| >= 2 && parts[|parts| - 2] == owner && parts[|parts| - 1] == name
  {
    assert host + "/" + owner + "/" + name == (host + ['/'] + owner) + ['/'] + name;
    Paths.SplitSnoc(host + ['/'] + owner, name, '/');
    Paths.SplitSnoc(host, owner, '/');
  }

  /**
   * A repository path ending in `/<owner>/<name>`, both plain names, gives
   * the workspace `/tmp/<owner>/<name>`.
   */
  lemma WorkspaceOfOwnerAndName(host: string, owner: string, name: string)
    requires Paths.NormalSegment(owner) && Paths.NormalSegment(name)
    ensures WorkspaceOf(host + "/" + owner + "/" + name) == "/tmp/" + owner + "/" + name
  {
    var parts := Split(host + "/" + owner + "/" + name, '/');
    SplitLastTwo(host, owner, name);
    assert |parts| >= 2 && parts[|parts| - 2] == owner && parts[|parts| - 1] == name;
    JoinUnderTmp(owner, name);
  }

  /** Replacing a character that does not occur changes nothing. */
  lemma ReplaceAbsent(s: string, from: char, to: char)
    requires from !in s
    ensures ReplaceChar(s, from, to) == s
  {
  }

  /** Replacing the one occurrence of a character between two pieces without it. */
  lemma ReplaceSole(a: string, b: string, from: char, to: char)
    requires from !in a && from !in b
    ensures ReplaceChar(a + [from] + b, from, to) == a + [to] + b
  {
    var s := a + [from] + b;
    var r := ReplaceChar(s, from, to);
    forall i | 0 <= i < |s| ensures r[i] == (a + [to] + b)[i] {
      if i < |a| {
        assert s[i] == a[i];
      } else if i > |a| {
        assert s[i] == b[i - |a| - 1];
      }
    }
  }

  /** A string starting with `p` agrees with `p` at every index of `p`. */
  lemma PrefixAgrees(s: string, p: string, i: nat)
    requires i < |p|
    ensures HasPrefix(s, p) ==> i < |s| && s[i] == p[i]
  {
    assert HasPrefix(s, p) ==> s[..|p|][i] == s[i];
  }

  /** A string ending with `p` agrees with `p` at every index of `p`. */
  lemma SuffixAgrees(s: string, p: string, i: nat)
    requires i < |p|
    ensures HasSuffix(s, p) ==> |p| <= |s| && s[|s| - |p| + i] == p[i]
  {
    assert HasSuffix(s, p) ==> s[|s| - |p|..][i] == s[|s| - |p| + i];
  }

  /** A string lacking the `i`-th character of `p` does not start with `p`. */
  lemma NoPrefixLacking(s: string, p: string, i: nat)
    requires i < |p| && p[i] !in s
    ensures !HasPrefix(s, p)
  {
    PrefixAgrees(s, p, i);
  }

  /** Characters that never take part in a repository URL's host, owner or name here. */
  predicate Plain(s: string) {
    ':' !in s && '@' !in s
  }

  /** A plain repository path is left alone by the scheme and user trimming. */
  lemma PlainKeepsNoUser(rest: string)
    requires Plain(rest)
    ensures !HasPrefix(rest, "http://") && !HasPrefix(rest, "git@")
  {
    NoPrefixLacking(rest, "http://", 4);
    NoPrefixLacking(rest, "git@", 3);
  }

  /** A `.git` suffix of a path must lie inside its last piece. */
  lemma NoSuffixAcrossSlash(head: string, name: string, p: string)
    requires '/' !in p && !HasSuffix(name, p)
    ensures !HasSuffix(head + "/" + name, p)
  {
    var t := head + "/" + name;
    if |p| <= |name| {
      assert t[|t| - |p|..] == name[|name| - |p|..];
    } else {
      var j := |p| - |name| - 1;
      SuffixAgrees(t, p, j);
      assert |p| <= |t| ==> t[|t| - |p| + j] == t[|head|] == '/';
    }
  }

  /** An HTTPS URL `https://<host>/<owner>/<name>` without `.git` gives `/tmp/<owner>/<name>`. */
  lemma HttpsUrlWorkspace(host: string, owner: string, name: string)
    requires Plain(host) && Plain(owner) && Plain(name)
    requires Paths.NormalSegment(owner) && Paths.NormalSegment(name)
    requires !HasSuffix(name, ".git")
    ensures DeriveWorkspace("https://" + host + "/" + owner + "/" + name) == "/tmp/" + owner + "/" + name
  {
    var rest := host + "/" + owner + "/" + name;
    var url := "https://" + rest;
    assert url == "https://" + host + "/" + owner + "/" + name;
    assert TrimPrefix(url, "https://") == rest by { assert url[..8] == "https://"; }
    assert Plain(rest);
    PlainKeepsNoUser(rest);
    ReplaceAbsent(rest, ':', '/');
    NoSuffixAcrossSlash(host + "/" + owner, name, ".git");
    assert RepoPath(url) == rest;
    WorkspaceOfOwnerAndName(host, owner, name);
  }

  /** The same URL with a `.git` suffix gives the same workspace. */
  lemma HttpsGitUrlWorkspace(host: string, owner: string, name: string)
    requires Plain(host) && Plain(owner) && Plain(name)
    requires Paths.NormalSegment(owner) && Paths.NormalSegment(name)
    ensures DeriveWorkspace("https://" + host + "/" + owner + "/" + name + ".git")
            == "/tmp/" + owner + "/" + name
  {
    var path := host + "/" + owner + "/" + name;
    var rest := path + ".git";
    var url := "https://" + rest;
    assert url == "https://" + host + "/" + owner + "/" + name + ".git";
    assert TrimPrefix(url, "https://") == rest by { assert url[..8] == "https://"; }
    assert Plain(rest);
    PlainKeepsNoUser(rest);
    ReplaceAbsent(rest, ':', '/');
    TrimSuffixAppended(path, ".git");
    assert RepoPath(url) == path;
    WorkspaceOfOwnerAndName(host, owner, name);
  }

  /** An SSH URL `git@<host>:<owner>/<name>.git` gives `/tmp/<owner>/<name>`. */
  lemma SshUrlWorkspace(host: string, owner: string, name: string)
    requires ':' !in host && ':' !in owner && ':' !in name
    requires Paths.NormalSegment(owner) && Paths.NormalSegment(name)
    ensures DeriveWorkspace("git@" + host + ":" + owner + "/" + name + ".git")
            == "/tmp/" + owner + "/" + name
  {
    SshUrlPath(host, owner, name);
    WorkspaceOfOwnerAndName(host, owner, name);
  }

  /** The repository path of an SSH URL: the user dropped, the `:` made a `/`, and `.git` removed. */
  lemma SshUrlPath(host: string, owner: string, name: string)
    requires ':' !in host && ':' !in owner && ':' !in name
    ensures RepoPath("git@" + host + ":" + owner + "/" + name + ".git") == host + "/" + owner + "/" + name
  {
    var tail := owner + "/" + name + ".git";
    var rest := host + ":" + tail;
    var url := "git@" + rest;
    assert url == "git@" + host + ":" + owner + "/" + name + ".git";
    assert url[0] == 'g';
    PrefixAgrees(url, "https://", 0);
    PrefixAgrees(url, "http://", 0);
    var u := TrimPrefix(TrimPrefix(url, "https://"), "http://");
    assert u == url;
    assert TrimPrefix(u, "git@") == rest by { assert url[..4] == "git@"; }
    assert ':' !in tail;
    ReplaceSole(host, tail, ':', '/');
    var path := host + "/" + owner + "/" + name;
    assert host + "/" + tail == path + ".git";
    TrimSuffixAppended(path, ".git");
  }

  /** A URL with neither `/` nor `:` names no owner, so the fallback workspace is used. */
  lemma NoSeparatorFallsBack(repoURL: string)
    requires '/' !in repoURL && ':' !in repoURL
    ensures DeriveWorkspace(repoURL) == FallbackWorkspace
  {
    var u1 := TrimPrefix(repoURL, "https://");
    var u2 := TrimPrefix(u1, "http://");
    var u3 := TrimPrefix(u2, "git@");
    assert '/' !in u3 && ':' !in u3;
    ReplaceAbsent(u3, ':', '/');
    assert '/' !in RepoPath(repoURL);
  }

  /** The documented HTTPS example. */
  lemma HttpsExample()
    ensures DeriveWorkspace("https://" + "github.com" + "/" + "wapsol" + "/" + "magnetiq2")
            == "/tmp/" + "wapsol" + "/" + "magnetiq2"
  {
    assert !HasSuffix("magnetiq2", ".git") by { assert "magnetiq2"[8] != 't'; }
    HttpsUrlWorkspace("github.com", "wapsol", "magnetiq2");
  }

  /** The documented SSH example. */
  lemma SshExample()
    ensures DeriveWorkspace("git@" + "github.com" + ":" + "user" + "/" + "project" + ".git")
            == "/tmp/" + "user" + "/" + "project"
  {
    SshUrlWorkspace("github.com", "user", "project");
  }

  // ---------------------------------------------------------------------
  // Errors and confirmation
  // ---------------------------------------------------------------------

  /** An error decorated with the hint to run `m2deploy <command> --help`. */
  datatype HelpError<E> = WithHelpHint(cause: E, command: string)

  /** `formatError`: no error stays no error; any error gets the help hint. */
  function FormatError<E>(command: string, err: Option<E>): (r: Option<HelpError<E>>)
    ensures r.None? <==> err.None?
    ensures r.Some? ==> r.value.cause == err.value && r.value.command == command
  {
    if err.None? then None else Some(WithHelpHint(err.value, command))
  }

  /** The base error of a failed prerequisite check. */
  datatype PrereqFailure = PrerequisiteCheckFailed

  /** `formatPrereqError`: always an error, carrying the help hint for the command. */
  function FormatPrereqError(command: string): (r: Option<HelpError<PrereqFailure>>)
    ensures r == Some(WithHelpHint(PrerequisiteCheckFailed, command))
  {
    FormatError(command, Some(PrerequisiteCheckFailed))
  }

  /**
   * `promptForConfirmation`, given the line read (or the read error):
   * only `yes`, ignoring surrounding white space and letter case, confirms.
   */
  function Confirmed(line: Result<string, string>): (r: bool)
    ensures r <==> line.Ok? && YesInAnyCase(TrimSpace(line.value))
  {
    if line.Ok? then
      var t := TrimSpace(line.value);
      assert YesInAnyCase(t) ==> ToLower(t) == "yes";
      ToLower(t) == "yes"
    else
      false
  }

  /** Three letters spelling `yes`, each in either case. */
  predicate YesInAnyCase(t: string) {
    && |t| == 3
    && (t[0] == 'y' || t[0] == 'Y')
    && (t[1] == 'e' || t[1] == 'E')
    && (t[2] == 's' || t[2] == 'S')
  }

  /** A shouted answer followed by a newline confirms. */
  lemma ShoutedYesConfirms()
    ensures Confirmed(Ok("YES\n"))
  {
    TrimSpaceOfPadded("YES", "\n");
    assert "YES" + "\n" == "YES\n";
    assert ToLower("YES") == "yes";
  }
}

=== FILE: config.dfy ===
/**
 * Application configuration: the local image name of a component, the
 * precedence rules that pick an image tag, and the sudo decision. The
 * file system, `git` and the effective user id are oracles.
 */
module Config {
  import opened Base
  import opened Text
  import Paths

  /** The settings shared by every command. */
  datatype Config = Config(
    repoURL: string,
    workDir: string,
    namespace: string,
    kubeconfig: string,
    dryRun: bool,
    verbose: bool,
    localImageTag: string,
    imagePrefix: string)

  /** `<prefix>/<component>:<tag>`, the name a locally built image is tagged with. */
  function LocalImageName(c: Config, component: string): (r: string)
    ensures var p := |c.imagePrefix|; var n := |component|;
            && |r| == p + n + |c.localImageTag| + 2
            && r[..p] == c.imagePrefix && r[p] == '/'
            && r[p + 1..p + 1 + n] == component
            && r[p + 1 + n] == ':' && r[p + n + 2..] == c.localImageTag
  {
    c.imagePrefix + "/" + component + ":" + c.localImageTag
  }

  /**
   * When neither the component nor the tag contains `/`, the last
   * `/`-separated piece of the image name is `<component>:<tag>` and the
   * pieces before it are exactly those of the prefix.
   */
  lemma LocalImageNamePieces(c: Config, component: string)
    requires '/' !in component && '/' !in c.localImageTag
    ensures Split(LocalImageName(c, component), '/')
            == Split(c.imagePrefix, '/') + [component + ":" + c.localImageTag]
  {
    var last := component + ":" + c.localImageTag;
    assert '/' !in last by {
      forall k | 0 <= k < |last| ensures last[k] != '/' {
        if k < |component| {
          assert last[k] == component[k];
        } else if k > |component| {
          assert last[k] == c.localImageTag[k - |component| - 1];
        }
      }
    }
    assert LocalImageName(c, component) == c.imagePrefix + ['/'] + last;
    Paths.SplitSnoc(c.imagePrefix, last, '/');
  }

  /**
   * With no prefix configured the name starts with a bare `/`; the
   * package's own table test expects `magnetiq/backend:latest` here.
   */
  lemma UnsetPrefixGivesLeadingSlash(c: Config)
    requires c.imagePrefix == "" && c.localImageTag == "latest"
    ensures LocalImageName(c, "backend") == "/backend:latest"
    ensures LocalImageName(c, "backend") != "magnetiq/backend:latest"
  {
    assert LocalImageName(c, "backend")[0] == '/';
  }

  /**
   * `ResolveImageTag`: a command-line tag wins; then a global tag other
   * than `latest`; then the short commit hash of `workDir`, when it has a
   * `.git` entry and `git` prints a non-empty hash; otherwise `latest`.
   * `pathExists` says whether a path exists; `gitHead` is what
   * `git rev-parse --short HEAD` printed, or its error.
   */
  function ResolveImageTag(c: Config, commandTag: string, workDir: string,
                           pathExists: string -> bool,
                           gitHead: string -> Result<string, string>): (r: string)
    ensures r != ""
    ensures commandTag != "" ==> r == commandTag
    ensures commandTag == "" && c.localImageTag != "" && c.localImageTag != "latest"
            ==> r == c.localImageTag
    ensures r == commandTag || r == c.localImageTag || r == "latest"
            || (gitHead(workDir).Ok? && r == TrimSpace(gitHead(workDir).value))
    ensures commandTag == "" && (c.localImageTag == "" || c.localImageTag == "latest")
            ==> r == (if GitTag(workDir, pathExists, gitHead).Some?
                      then GitTag(workDir, pathExists, gitHead).value else "latest")
  {
    if commandTag != "" then commandTag
    else if c.localImageTag != "" && c.localImageTag != "latest" then c.localImageTag
    else
      var g := GitTag(workDir, pathExists, gitHead);
      if g.Some? then g.value else "latest"
  }

  /** The commit tag, when `workDir` is a repository and its hash could be read. */
  function GitTag(workDir: string, pathExists: string -> bool,
                  gitHead: string -> Result<string, string>): (r: Option<string>)
    ensures r.Some? <==> workDir != "" && pathExists(Paths.JoinPath([workDir, ".git"]))
                         && gitHead(workDir).Ok? && TrimSpace(gitHead(workDir).value) != ""
    ensures r.Some? ==> r.value == TrimSpace(gitHead(workDir).value)
  {
    if workDir == "" || !pathExists(Paths.JoinPath([workDir, ".git"])) then None
    else
      var out := gitHead(workDir);
      if out.Err? then None
      else
        var sha := TrimSpace(out.value);
        if sha == "" then None else Some(sha)
  }

  /** Resolving again with the resolved tag as the command tag changes nothing. */
  lemma ResolveImageTagIdempotent(c: Config, commandTag: string, workDir: string,
                                  pathExists: string -> bool,
                                  gitHead: string -> Result<string, string>)
    ensures var t := ResolveImageTag(c, commandTag, workDir, pathExists, gitHead);
            ResolveImageTag(c, t, workDir, pathExists, gitHead) == t
  {
  }

  /** Without a command tag, a `latest` global tag falls through to the repository's commit. */
  lemma LatestFallsThroughToCommit(c: Config, workDir: string, pathExists: string -> bool,
                                   gitHead: string -> Result<string, string>, sha: string)
    requires c.localImageTag == "latest"
    requires workDir != "" && pathExists(Paths.JoinPath([workDir, ".git"]))
    requires gitHead(workDir) == Ok(sha) && TrimSpace(sha) != ""
    ensures ResolveImageTag(c, "", workDir, pathExists, gitHead) == TrimSpace(sha)
  {
  }

  /**
   * `ShouldUseSudo`: an explicitly set flag is obeyed; otherwise sudo is
   * used exactly when the process runs as root.
   */
  function ShouldUseSudo(explicitFlag: bool, flagWasSet: bool, runningAsRoot: bool): (r: bool)
    ensures flagWasSet ==> r == explicitFlag
    ensures !flagWasSet ==> r == runningAsRoot
  {
    if flagWasSet then explicitFlag
    else if runningAsRoot then true
    else false
  }
}

=== FILE: constants.dfy ===
/**
 * Literal values shared by the commands and packages (the command layer
 * re-declares the same component names and prefixes with equal values).
 */
module Constants {
  const ComponentBackend: string := "backend"
  const ComponentFrontend: string := "frontend"
  const ComponentBoth: string := "both"

  const TestContainerPrefix: string := "m2deploy-test-"
  const DeploymentPrefix: string := "magnetiq-"

  const DefaultTag: string := "latest"
  const DefaultBackupRetention: nat := 5

  /** Remote distribution defaults. */
  const DefaultWorkerTempDir: string := "/tmp"
  const DefaultParallelWorkers: nat := 3
  const DefaultRetryCount: nat := 3

  /** The containerd namespace that Kubernetes images live in. */
  const ContainerdNamespace: string := "k8s.io"
}

=== FILE: database.dfy ===
/**
 * Database maintenance through the backend pod: locating the pod, the
 * backup and restore file names, migrations, and the retention rule that
 * deletes the oldest backups. Commands, the clock, `stat`, `glob` and file
 * removal are oracles; `kubectl` is invoked as the Kubernetes client does.
 */
module Database {
  import opened Base
  import opened Text
  import Paths
  import Kube

  /** Every backup file name starts with this. */
  const BackupStem: string := "magnetiq-db-"

  /** The database file inside the backend container. */
  const PodDatabase: string := "/app/data/magnetiq.db"

  /** The file-name pattern that selects backups for retention. */
  const BackupPattern: string := "magnetiq-db-*.db*"

  /** Why no backend pod was found. */
  datatype PodError = PodQueryFailed(cause: string) | NoBackendPod

  /** The errors of the database operations. */
  datatype DbError =
    | PodNotFound(pod: PodError)
    | MkdirFailed(cause: string)
    | BackupCopyFailed(cause: string)
    | BackupNotFound(file: string)
    | TempCreateFailed(cause: string)
    | DecompressFailed(cause: string)
    | RestoreCopyFailed(cause: string)
    | MigrationFailed(cause: string)
    | StatusFailed(cause: string)
    | ListFailed(cause: string)

  /**
   * The outside world: what a command prints on success or its error,
   * `MkdirAll`, whether a file is missing, and creating a file.
   */
  datatype Env = Env(run: seq<string> -> Result<string, string>,
                     mkdirAll: string -> Option<string>,
                     missing: string -> bool,
                     create: string -> Option<string>)

  // ---------------------------------------------------------------------
  // The backend pod
  // ---------------------------------------------------------------------

  /** `get pods -l app=magnetiq-backend`, printing the first pod's name. */
  function PodQueryArgv(k: Kube.Client): seq<string> {
    Kube.KubectlArgv(k, ["-n", k.namespace, "get", "pods", "-l", "app=magnetiq-backend",
                         "-o", "jsonpath={.items[0].metadata.name}"])
  }

  /** `getBackendPod`: the trimmed output of the pod query, which must not be empty. */
  function GetBackendPod(k: Kube.Client, env: Env): (r: Result<string, PodError>)
    ensures env.run(PodQueryArgv(k)).Err? ==> r == Err(PodQueryFailed(env.run(PodQueryArgv(k)).error))
    ensures r == Err(NoBackendPod) <==>
              env.run(PodQueryArgv(k)).Ok? && TrimSpace(env.run(PodQueryArgv(k)).value) == ""
    ensures r.Ok? ==> r.value != "" && r.value == TrimSpace(env.run(PodQueryArgv(k)).value)
  {
    var out := env.run(PodQueryArgv(k));
    if out.Err? then Err(PodQueryFailed(out.error))
    else
      var pod := TrimSpace(out.value);
      if pod == "" then Err(NoBackendPod) else Ok(pod)
  }

  /** A pod name printed with trailing white space is found without it. */
  lemma PaddedPodName(k: Kube.Client, env: Env, name: string, pad: string)
    requires |name| > 0 && !IsSpace(name[0]) && !IsSpace(name[|name| - 1])
    requires forall i :: 0 <= i < |pad| ==> IsSpace(pad[i])
    requires env.run(PodQueryArgv(k)) == Ok(name + pad)
    ensures GetBackendPod(k, env) == Ok(name)
  {
    TrimSpaceOfPadded(name, pad);
  }

  // ---------------------------------------------------------------------
  // Backup and restore
  // ---------------------------------------------------------------------

  /** `magnetiq-db-<timestamp>.db`. */
  function BackupName(timestamp: string): string {
    BackupStem + timestamp + ".db"
  }

  /** Where a backup taken at `timestamp` is written. */
  function BackupFile(backupPath: string, timestamp: string): string {
    Paths.JoinPath([backupPath, BackupName(timestamp)])
  }

  /** `cp <pod>:/app/data/magnetiq.db <file>`. */
  function CopyFromPodArgv(k: Kube.Client, pod: string, file: string): seq<string> {
    Kube.KubectlArgv(k, ["-n", k.namespace, "cp", pod + ":" + PodDatabase, file])
  }

  /** `cp <file> <pod>:/app/data/magnetiq.db`. */
  function CopyToPodArgv(k: Kube.Client, file: string, pod: string): seq<string> {
    Kube.KubectlArgv(k, ["-n", k.namespace, "cp", file, pod + ":" + PodDatabase])
  }

  /**
   * `Backup`: nothing in a dry run; otherwise find the pod, create the
   * directory, copy the database out, and gzip it when asked. The result
   * is the file written, with `.gz` only when compression succeeded; a
   * failed compression leaves the plain copy and is not an error.
   */
  function Backup(k: Kube.Client, backupPath: string, compress: bool, timestamp: string, env: Env)
    : (r: Result<Option<string>, DbError>)
    ensures k.dryRun ==> r == Ok(None)
    ensures !k.dryRun && GetBackendPod(k, env).Err? ==> r == Err(PodNotFound(GetBackendPod(k, env).error))
    ensures !k.dryRun && r.Ok? ==>
              && GetBackendPod(k, env).Ok?
              && env.mkdirAll(backupPath).None?
              && env.run(CopyFromPodArgv(k, GetBackendPod(k, env).value, BackupFile(backupPath, timestamp))).Ok?
              && r.value.Some?
    ensures !k.dryRun ==>
              (r.Ok? <==>
                 && GetBackendPod(k, env).Ok?
                 && env.mkdirAll(backupPath).None?
                 && env.run(CopyFromPodArgv(k, GetBackendPod(k, env).value, BackupFile(backupPath, timestamp))).Ok?)
    ensures !k.dryRun && GetBackendPod(k, env).Ok? && env.mkdirAll(backupPath).Some? ==>
              r == Err(MkdirFailed(env.mkdirAll(backupPath).value))
    ensures r.Ok? && r.value.Some? ==>
              r.value.value == BackupFile(backupPath, timestamp)
                               + (if compress && env.run(["gzip", BackupFile(backupPath, timestamp)]).Ok?
                                  then ".gz" else "")
  {
    if k.dryRun then Ok(None)
    else
      var pod := GetBackendPod(k, env);
      if pod.Err? then Err(PodNotFound(pod.error))
      else if env.mkdirAll(backupPath).Some? then Err(MkdirFailed(env.mkdirAll(backupPath).value))
      else
        var file := BackupFile(backupPath, timestamp);
        var copy := env.run(CopyFromPodArgv(k, pod.value, file));
        if copy.Err? then Err(BackupCopyFailed(copy.error))
        else if compress && env.run(["gzip", file]).Ok? then Ok(Some(file + ".gz"))
        else Ok(Some(file))
  }

  /** The file actually uploaded on restore: a `.gz` backup is first decompressed next to itself. */
  function RestoreSource(backupFile: string): string {
    TrimSuffix(backupFile, ".gz")
  }

  /**
   * `Restore`: nothing in a dry run; a missing file is an error; a `.gz`
   * file is decompressed into the name without `.gz`; then the pod is
   * found and the file copied in.
   */
  function Restore(k: Kube.Client, backupFile: string, env: Env): (err: Option<DbError>)
    ensures k.dryRun ==> err.None?
    ensures !k.dryRun && env.missing(backupFile) ==> err == Some(BackupNotFound(backupFile))
    ensures !k.dryRun && !env.missing(backupFile) && HasSuffix(backupFile, ".gz")
            && env.create(RestoreSource(backupFile)).Some?
            ==> err == Some(TempCreateFailed(env.create(RestoreSource(backupFile)).value))
    ensures !k.dryRun && err.None? ==>
              && !env.missing(backupFile)
              && GetBackendPod(k, env).Ok?
              && env.run(CopyToPodArgv(k, RestoreSource(backupFile), GetBackendPod(k, env).value)).Ok?
    ensures !k.dryRun && !env.missing(backupFile) && !HasSuffix(backupFile, ".gz") ==>
              (err.None? <==> GetBackendPod(k, env).Ok?
                              && env.run(CopyToPodArgv(k, backupFile, GetBackendPod(k, env).value)).Ok?)
    ensures !k.dryRun && !env.missing(backupFile) && HasSuffix(backupFile, ".gz") ==>
              (err.None? <==>
                 && env.create(RestoreSource(backupFile)).None?
                 && env.run(["gunzip", "-c", backupFile]).Ok?
                 && GetBackendPod(k, env).Ok?
                 && env.run(CopyToPodArgv(k, RestoreSource(backupFile), GetBackendPod(k, env).value)).Ok?)
    ensures !k.dryRun && !env.missing(backupFile) && HasSuffix(backupFile, ".gz")
            && env.create(RestoreSource(backupFile)).None? && env.run(["gunzip", "-c", backupFile]).Err?
            ==> err == Some(DecompressFailed(env.run(["gunzip", "-c", backupFile]).error))
  {
    if k.dryRun then None
    else if env.missing(backupFile) then Some(BackupNotFound(backupFile))
    else
      var unpacked := Unpack(backupFile, env);
      if unpacked.Some? then unpacked
      else Upload(k, RestoreSource(backupFile), env)
  }

  /** Decompresses a `.gz` backup into the name without `.gz`; other files need nothing. */
  function Unpack(backupFile: string, env: Env): (err: Option<DbError>)
    ensures !HasSuffix(backupFile, ".gz") ==> err.None?
    ensures HasSuffix(backupFile, ".gz") ==>
              (err.None? <==> env.create(RestoreSource(backupFile)).None?
                              && env.run(["gunzip", "-c", backupFile]).Ok?)
    ensures HasSuffix(backupFile, ".gz") && env.create(RestoreSource(backupFile)).Some? ==>
              err == Some(TempCreateFailed(env.create(RestoreSource(backupFile)).value))
    ensures HasSuffix(backupFile, ".gz") && env.create(RestoreSource(backupFile)).None?
            && env.run(["gunzip", "-c", backupFile]).Err? ==>
              err == Some(DecompressFailed(env.run(["gunzip", "-c", backupFile]).error))
  {
    var temp := RestoreSource(backupFile);
    if !HasSuffix(backupFile, ".gz") then None
    else if env.create(temp).Some? then Some(TempCreateFailed(env.create(temp).value))
    else if env.run(["gunzip", "-c", backupFile]).Err? then
      Some(DecompressFailed(env.run(["gunzip", "-c", backupFile]).error))
    else None
  }

  /** Finds the pod and copies `source` into it. */
  function Upload(k: Kube.Client, source: string, env: Env): (err: Option<DbError>)
    ensures err.None? <==> GetBackendPod(k, env).Ok?
                           && env.run(CopyToPodArgv(k, source, GetBackendPod(k, env).value)).Ok?
  {
    var pod := GetBackendPod(k, env);
    if pod.Err? then Some(PodNotFound(pod.error))
    else
      var copy := env.run(CopyToPodArgv(k, source, pod.value));
      if copy.Err? then Some(RestoreCopyFailed(copy.error)) else None
  }

  /** A backup file ends in `.db`, whichever directory it is in. */
  lemma BackupFileEndsInDb(backupPath: string, timestamp: string)
    requires '/' !in timestamp
    ensures HasSuffix(BackupFile(backupPath, timestamp), ".db")
  {
    var name := BackupName(timestamp);
    assert '/' !in name;
    Paths.JoinPathEndsWith(backupPath, name);
    var f := BackupFile(backupPath, timestamp);
    assert f[|f| - 3..] == f[|f| - |name|..][|name| - 3..];
  }

  /** Restoring what `Backup` wrote uploads the uncompressed backup file, compressed or not. */
  lemma RestoreSourceOfBackup(backupPath: string, timestamp: string, compressed: bool)
    requires '/' !in timestamp
    ensures RestoreSource(BackupFile(backupPath, timestamp) + (if compressed then ".gz" else ""))
            == BackupFile(backupPath, timestamp)
  {
    var f := BackupFile(backupPath, timestamp);
    if compressed {
      TrimSuffixAppended(f, ".gz");
    } else {
      BackupFileEndsInDb(backupPath, timestamp);
      assert f + "" == f;
      assert f[|f| - 2] == 'd';
    }
  }

  /** `magnetiq-db-*.db*` on a file name: the stem, then later `.db`, and no separator. */
  predicate MatchesBackupPattern(name: string) {
    '/' !in name && HasPrefix(name, BackupStem) && Contains(name[|BackupStem|..], ".db")
  }

  /** Every backup name, compressed or not, is selected by the retention pattern. */
  lemma BackupNamesMatchPattern(timestamp: string, compressed: bool)
    requires '/' !in timestamp
    ensures MatchesBackupPattern(BackupName(timestamp) + (if compressed then ".gz" else ""))
  {
    var name := BackupName(timestamp) + (if compressed then ".gz" else "");
    var rest := name[|BackupStem|..];
    assert rest == timestamp + ".db" + (if compressed then ".gz" else "");
    assert OccursAt(rest, ".db", |timestamp|);
  }

  // ---------------------------------------------------------------------
  // Migrations
  // ---------------------------------------------------------------------

  /** `exec <pod> -- python -m alembic <args>`. */
  function AlembicArgv(k: Kube.Client, pod: string, args: seq<string>): seq<string> {
    Kube.KubectlArgv(k, ["-n", k.namespace, "exec", pod, "--", "python", "-m", "alembic"] + args)
  }

  /** `Migrate`: nothing in a dry run; otherwise `alembic upgrade head` in the backend pod. */
  function Migrate(k: Kube.Client, env: Env): (err: Option<DbError>)
    ensures k.dryRun ==> err.None?
    ensures !k.dryRun ==>
              (err.None? <==> GetBackendPod(k, env).Ok?
                              && env.run(AlembicArgv(k, GetBackendPod(k, env).value, ["upgrade", "head"])).Ok?)
  {
    if k.dryRun then None
    else
      var pod := GetBackendPod(k, env);
      if pod.Err? then Some(PodNotFound(pod.error))
      else
        var out := env.run(AlembicArgv(k, pod.value, ["upgrade", "head"]));
        if out.Err? then Some(MigrationFailed(out.error)) else None
  }

  /** `Status`: `alembic current` in the backend pod; it has no dry-run branch. */
  function Status(k: Kube.Client, env: Env): (err: Option<DbError>)
    ensures err.None? <==> GetBackendPod(k, env).Ok?
                           && env.run(AlembicArgv(k, GetBackendPod(k, env).value, ["current"])).Ok?
  {
    var pod := GetBackendPod(k, env);
    if pod.Err? then Some(PodNotFound(pod.error))
    else
      var out := env.run(AlembicArgv(k, pod.value, ["current"]));
      if out.Err? then Some(StatusFailed(out.error)) else None
  }

  /** Dry run does not stop `Status` from querying the cluster. */
  lemma StatusIgnoresDryRun(k: Kube.Client, env: Env)
    ensures Status(k, env) == Status(k.(dryRun := !k.dryRun), env)
  {
  }

  // ---------------------------------------------------------------------
  // Retention
  // ---------------------------------------------------------------------

  /** A backup file and its modification time. */
  datatype BackupEntry = BackupEntry(path: string, modTime: int)

  /** Oldest first. */
  predicate SortedByAge(fs: seq<BackupEntry>) {
    forall i, j :: 0 <= i < j < |fs| ==> fs[i].modTime <= fs[j].modTime
  }

  /** Every element of a multiset-sum with a lower bound on both parts has that lower bound. */
  lemma LowerBoundOfMerge(t: int, r: seq<BackupEntry>, fs: seq<BackupEntry>, e: BackupEntry)
    requires multiset(r) == multiset(fs) + multiset{e}
    requires t <= e.modTime
    requires forall i :: 0 <= i < |fs| ==> t <= fs[i].modTime
    ensures forall i :: 0 <= i < |r| ==> t <= r[i].modTime
  {
    forall i | 0 <= i < |r|
      ensures t <= r[i].modTime
    {
      assert r[i] in multiset(r);
      if r[i] != e {
        assert r[i] in multiset(fs);
        var j :| 0 <= j < |fs| && fs[j] == r[i];
      }
    }
  }

  /** An entry no later than every entry of an oldest-first list can go in front of it. */
  lemma SortedCons(x: BackupEntry, s: seq<BackupEntry>)
    requires SortedByAge(s)
    requires forall i :: 0 <= i < |s| ==> x.modTime <= s[i].modTime
    ensures SortedByAge([x] + s)
  {
    var t := [x] + s;
    forall i, j | 0 <= i < j < |t| ensures t[i].modTime <= t[j].modTime {
      assert t[j] == s[j - 1];
      if i > 0 {
        assert t[i] == s[i - 1];
      }
    }
  }

  /** Inserts `e` into an oldest-first list before the first entry that is not older. */
  function Insert(e: BackupEntry, fs: seq<BackupEntry>): (r: seq<BackupEntry>)
    requires SortedByAge(fs)
    ensures SortedByAge(r)
    ensures multiset(r) == multiset(fs) + multiset{e}
    decreases |fs|
  {
    if |fs| == 0 || e.modTime <= fs[0].modTime then
      SortedCons(e, fs);
      [e] + fs
    else
      var tail := fs[1..];
      var rest := Insert(e, tail);
      assert fs == [fs[0]] + tail;
      assert multiset(fs) == multiset{fs[0]} + multiset(tail);
      assert forall i :: 0 <= i < |tail| ==> fs[0].modTime <= tail[i].modTime by {
        forall i | 0 <= i < |tail| ensures fs[0].modTime <= tail[i].modTime {
          assert tail[i] == fs[i + 1];
        }
      }
      LowerBoundOfMerge(fs[0].modTime, rest, tail, e);
      SortedCons(fs[0], rest);
      [fs[0]] + rest
  }

  /** `sort.Slice` by modification time, oldest first. */
  function SortByAge(fs: seq<BackupEntry>): (r: seq<BackupEntry>)
    ensures SortedByAge(r)
    ensures multiset(r) == multiset(fs)
    decreases |fs|
  {
    if |fs| == 0 then []
    else
      assert fs == [fs[0]] + fs[1..];
      Insert(fs[0], SortByAge(fs[1..]))
  }

  /** The matches whose `stat` succeeded, in order, with their modification times. */
  function Stated(matches: seq<string>, stat: string -> Option<int>): (fs: seq<BackupEntry>)
    ensures |fs| <= |matches|
    ensures forall i :: 0 <= i < |fs| ==> fs[i].path in matches && stat(fs[i].path) == Some(fs[i].modTime)
    ensures forall m :: m in matches && stat(m).Some? ==> BackupEntry(m, stat(m).value) in fs
    decreases |matches|
  {
    if |matches| == 0 then []
    else
      var rest := Stated(matches[1..], stat);
      assert forall m :: m in matches[1..] ==> m in matches;
      assert forall m :: m in matches ==> m == matches[0] || m in matches[1..];
      if stat(matches[0]).Some? then [BackupEntry(matches[0], stat(matches[0]).value)] + rest
      else rest
  }

  /** The paths of some entries. */
  function PathsOf(fs: seq<BackupEntry>): (ps: seq<string>)
    ensures |ps| == |fs| && forall i :: 0 <= i < |fs| ==> ps[i] == fs[i].path
  {
    seq(|fs|, i requires 0 <= i < |fs| => fs[i].path)
  }

  /** The paths whose removal succeeded, in order. */
  function Removed(paths: seq<string>, remove: string -> Option<string>): (removed: seq<string>)
    ensures |removed| <= |paths|
    ensures forall p :: p in removed <==> p in paths && remove(p).None?
    decreases |paths|
  {
    if |paths| == 0 then []
    else
      var rest := Removed(paths[1..], remove);
      assert forall p :: p in paths <==> p == paths[0] || p in paths[1..];
      if remove(paths[0]).None? then [paths[0]] + rest else rest
  }

  /**
   * What a cleaning did: the error, the backups it tried to delete, the
   * ones it kept, and the paths actually removed.
   */
  datatype CleanReport = CleanReport(err: Option<DbError>, attempted: seq<BackupEntry>,
                                     kept: seq<BackupEntry>, removed: seq<string>)

  /** The glob pattern under the backup directory. */
  function PatternIn(backupPath: string): string {
    Paths.JoinPath([backupPath, BackupPattern])
  }

  /** Splitting an oldest-first list puts every entry before the cut no later than every entry after it. */
  lemma SortedCut(s: seq<BackupEntry>, n: nat)
    requires SortedByAge(s) && n <= |s|
    ensures forall i, j :: 0 <= i < n && 0 <= j < |s| - n ==> s[..n][i].modTime <= s[n..][j].modTime
  {
    forall i, j | 0 <= i < n && 0 <= j < |s| - n
      ensures s[..n][i].modTime <= s[n..][j].modTime
    {
      assert s[..n][i] == s[i] && s[n..][j] == s[n + j];
    }
  }

  /** Cutting a sorted permutation of `files`: the two parts make up `files`, the first older than the second. */
  lemma PruneCut(files: seq<BackupEntry>, sorted: seq<BackupEntry>, n: nat)
    requires SortedByAge(sorted) && multiset(sorted) == multiset(files) && n <= |sorted|
    ensures multiset(sorted[..n] + sorted[n..]) == multiset(files)
    ensures forall i, j :: 0 <= i < n && 0 <= j < |sorted| - n ==> sorted[..n][i].modTime <= sorted[n..][j].modTime
    ensures forall i :: 0 <= i < n ==> sorted[..n][i] in files
  {
    assert sorted[..n] + sorted[n..] == sorted;
    SortedCut(sorted, n);
    forall i | 0 <= i < n ensures sorted[..n][i] in files {
      assert sorted[..n][i] == sorted[i];
      assert sorted[i] in multiset(sorted);
    }
  }

  /**
   * The deletion step: sort the stat'ed backups oldest first, try to delete
   * all but the newest `retention`, and record which deletions succeeded.
   */
  function Prune(files: seq<BackupEntry>, retention: nat, remove: string -> Option<string>): (r: CleanReport)
    ensures r.err.None?
    ensures multiset(r.attempted + r.kept) == multiset(files)
    ensures |r.kept| == (if |files| < retention then |files| else retention)
    ensures forall i, j :: 0 <= i < |r.attempted| && 0 <= j < |r.kept|
                           ==> r.attempted[i].modTime <= r.kept[j].modTime
    ensures forall i :: 0 <= i < |r.attempted| ==> r.attempted[i] in files
    ensures forall p :: p in r.removed <==> p in PathsOf(r.attempted) && remove(p).None?
  {
    var sorted := SortByAge(files);
    var toRemove := if |sorted| > retention then |sorted| - retention else 0;
    PruneCut(files, sorted, toRemove);
    assert |sorted| == |multiset(sorted)| == |multiset(files)| == |files|;
    CleanReport(None, sorted[..toRemove], sorted[toRemove..], Removed(PathsOf(sorted[..toRemove]), remove))
  }

  /**
   * `CleanOldBackups`: when more backups match than `retention`, the
   * matches that could be stat'ed are sorted oldest first and all but the
   * newest `retention` are deleted; a failed deletion is skipped and the
   * result is still success. Only listing the backups can fail.
   */
  function CleanOldBackups(k: Kube.Client, backupPath: string, retention: int,
                           glob: string -> Result<seq<string>, string>,
                           stat: string -> Option<int>,
                           remove: string -> Option<string>): (r: CleanReport)
    requires retention >= 0
    ensures k.dryRun ==> r == CleanReport(None, [], [], [])
    ensures r.err.Some? <==> !k.dryRun && glob(PatternIn(backupPath)).Err?
    ensures r.err.Some? ==> r.err.value == ListFailed(glob(PatternIn(backupPath)).error)
    ensures !k.dryRun && glob(PatternIn(backupPath)).Ok? && |glob(PatternIn(backupPath)).value| <= retention
            ==> r.attempted == [] && r.removed == []
    ensures !k.dryRun && glob(PatternIn(backupPath)).Ok? && |glob(PatternIn(backupPath)).value| > retention
            ==> r == Prune(Stated(glob(PatternIn(backupPath)).value, stat), retention, remove)
    ensures forall i :: 0 <= i < |r.attempted| ==> stat(r.attempted[i].path) == Some(r.attempted[i].modTime)
    ensures forall p :: p in r.removed <==> p in PathsOf(r.attempted) && remove(p).None?
  {
    if k.dryRun then CleanReport(None, [], [], [])
    else
      var listed := glob(PatternIn(backupPath));
      if listed.Err? then CleanReport(Some(ListFailed(listed.error)), [], [], [])
      else if |listed.value| <= retention then CleanReport(None, [], [], [])
      else Prune(Stated(listed.value, stat), retention, remove)
  }

  /** With no retention at all, every stat'ed backup is a deletion candidate. */
  lemma ZeroRetentionAttemptsAll(k: Kube.Client, backupPath: string,
                                 glob: string -> Result<seq<string>, string>,
                                 stat: string -> Option<int>, remove: string -> Option<string>)
    requires !k.dryRun && glob(PatternIn(backupPath)).Ok? && |glob(PatternIn(backupPath)).value| > 0
    ensures var r := CleanOldBackups(k, backupPath, 0, glob, stat, remove);
            r.kept == [] && multiset(r.attempted) == multiset(Stated(glob(PatternIn(backupPath)).value, stat))
  {
    var r := CleanOldBackups(k, backupPath, 0, glob, stat, remove);
    assert r.attempted + [] == r.attempted;
  }

  /** A backup whose `stat` fails is never deleted. */
  lemma UnstatableBackupSurvives(k: Kube.Client, backupPath: string, retention: int,
                                 glob: string -> Result<seq<string>, string>,
                                 stat: string -> Option<int>, remove: string -> Option<string>,
                                 p: string)
    requires retention >= 0 && stat(p).None?
    ensures p !in CleanOldBackups(k, backupPath, retention, glob, stat, remove).removed
  {
  }
}

=== FILE: distribute.dfy ===
/**
 * Distribution of an image tarball to the worker nodes of the cluster.
 *
 * Every remote step (the `hostname` probe, the copy, `stat`, the
 * containerd import, the image listing, the cleanup) goes over SSH; the
 * transport is replaced by a `Probe`, which fixes what each step replies
 * on one attempt at one node. The per-node pipeline, the retry loop,
 * the size check, the error classification and the quorum verdict are
 * modelled exactly. Nodes are handled one after another: each node's
 * task writes only its own result slot, so the outcome does not depend
 * on how the concurrent tasks interleave.
 */
module Distribute {
  import opened Base
  import opened Text
  import Paths
  import Retry
  import Constants
  import Config

  // ---------------------------------------------------------------------
  // Configuration and worker nodes
  // ---------------------------------------------------------------------

  /** SSH connection parameters (timeout in seconds). */
  datatype SshConfig = SshConfig(user: string, keyPath: string, port: int, timeout: int,
                                 workerTempDir: string)

  /** How a distribution is run. `minWorkers == 0` means every worker is required. */
  datatype Distributor = Distributor(
    ssh: SshConfig,
    parallel: int,
    retryCount: int,
    minWorkers: int,
    keepTarballs: bool,
    workerIPs: seq<string>)

  /** `NewDistributor`: 3 tasks at a time, 3 attempts per worker, all workers required. */
  function NewDistributor(ssh: SshConfig): (d: Distributor)
    ensures d.ssh == ssh && d.workerIPs == [] && !d.keepTarballs
    ensures d.parallel == Constants.DefaultParallelWorkers
    ensures d.retryCount == Constants.DefaultRetryCount
    ensures d.minWorkers == 0
    ensures forall total: nat :: MinRequired(d.minWorkers, total) == total
  {
    Distributor(ssh, 3, 3, 0, false, [])
  }

  /** A worker node; `lastError` is the error of its last failed probe, if any. */
  datatype WorkerNode = WorkerNode(name: string, ip: string, reachable: bool,
                                   lastError: Option<string>)

  /** What the cluster answered when asked for the worker addresses. */
  datatype Discovery =
    | NoIPGetter                              // the client cannot list worker addresses
    | Discovered(ips: Result<seq<string>, string>)

  datatype NodesError = ClientCannotDiscover | DiscoveryFailed(cause: string) | NoWorkersFound

  /** The name of the `i`-th (0-based) manually listed worker: `worker-<i+1>`. */
  function ManualName(i: nat): string {
    "worker-" + NatToString(i + 1)
  }

  /**
   * `GetWorkerNodes`: a manual address list wins and yields one node per
   * address named by position; otherwise the discovered addresses are used,
   * each node named after its address, and an empty discovery is an error.
   */
  function GetWorkerNodes(d: Distributor, discovery: Discovery): (r: Result<seq<WorkerNode>, NodesError>)
    ensures |d.workerIPs| > 0 ==>
              r.Ok? && |r.value| == |d.workerIPs|
              && forall i :: 0 <= i < |d.workerIPs| ==>
                   r.value[i] == WorkerNode(ManualName(i), d.workerIPs[i], false, None)
    ensures |d.workerIPs| == 0 && discovery.NoIPGetter? ==> r == Err(ClientCannotDiscover)
    ensures |d.workerIPs| == 0 && discovery.Discovered? && discovery.ips.Err? ==>
              r == Err(DiscoveryFailed(discovery.ips.error))
    ensures |d.workerIPs| == 0 && discovery == Discovered(Ok([])) ==> r == Err(NoWorkersFound)
    ensures |d.workerIPs| == 0 && r.Ok? ==>
              discovery.Discovered? && discovery.ips.Ok? && |discovery.ips.value| > 0
              && |r.value| == |discovery.ips.value|
              && forall i :: 0 <= i < |r.value| ==>
                   r.value[i] == WorkerNode("worker-" + discovery.ips.value[i], discovery.ips.value[i], false, None)
  {
    if |d.workerIPs| > 0 then
      Ok(seq(|d.workerIPs|, i requires 0 <= i < |d.workerIPs| =>
             WorkerNode(ManualName(i), d.workerIPs[i], false, None)))
    else if discovery.NoIPGetter? then Err(ClientCannotDiscover)
    else if discovery.ips.Err? then Err(DiscoveryFailed(discovery.ips.error))
    else
      var ips := discovery.ips.value;
      if |ips| == 0 then Err(NoWorkersFound)
      else Ok(seq(|ips|, i requires 0 <= i < |ips| => WorkerNode("worker-" + ips[i], ips[i], false, None)))
  }

  /** Manually listed workers get pairwise distinct names, even when addresses repeat. */
  lemma ManualNamesDistinct(d: Distributor, discovery: Discovery, i: nat, j: nat)
    requires i < j < |d.workerIPs|
    ensures GetWorkerNodes(d, discovery).value[i].name != GetWorkerNodes(d, discovery).value[j].name
  {
    var ws := GetWorkerNodes(d, discovery).value;
    if ws[i].name == ws[j].name {
      var p := "worker-";
      assert (p + NatToString(i + 1))[|p|..] == NatToString(i + 1);
      assert (p + NatToString(j + 1))[|p|..] == NatToString(j + 1);
      NatToStringInjective(i + 1, j + 1);
    }
  }

  /** A manual address list makes discovery irrelevant. */
  lemma ManualListIgnoresDiscovery(d: Distributor, x: Discovery, y: Discovery)
    requires |d.workerIPs| > 0
    ensures GetWorkerNodes(d, x) == GetWorkerNodes(d, y)
  {
  }

  // ---------------------------------------------------------------------
  // Connectivity
  // ---------------------------------------------------------------------

  /** A worker after its `hostname` probe answered `err` (`None` on success). */
  function Probed(w: WorkerNode, err: Option<string>): WorkerNode {
    if err.Some? then w.(reachable := false, lastError := err) else w.(reachable := true)
  }

  /** The line reporting one unreachable worker: `<name> (<ip>): <error>`. */
  function FailureLine(w: WorkerNode, err: string): string {
    w.name + " (" + w.ip + "): " + err
  }

  /**
   * The failure lines for the first `n` workers, in worker order;
   * `hostname(i)` is the error of probing worker `i`.
   */
  function FailuresUpTo(workers: seq<WorkerNode>, hostname: nat -> Option<string>, n: nat): (r: seq<string>)
    requires n <= |workers|
    ensures |r| <= n
    ensures |r| == 0 <==> forall i :: 0 <= i < n ==> hostname(i).None?
    decreases n
  {
    if n == 0 then []
    else
      var e := hostname(n - 1);
      FailuresUpTo(workers, hostname, n - 1)
      + (if e.Some? then [FailureLine(workers[n - 1], e.value)] else [])
  }

  /** The error of a connectivity test: every failure line and the SSH user to give a hint for. */
  datatype ConnectivityError = ConnectivityFailed(failures: seq<string>, user: string)

  /** The probing loop of `TestConnectivity`: every worker is probed, in order, and none is skipped. */
  method ProbeAll(workers: seq<WorkerNode>, hostname: nat -> Option<string>)
    returns (updated: seq<WorkerNode>, failures: seq<string>)
    ensures |updated| == |workers|
    ensures forall i :: 0 <= i < |workers| ==> updated[i] == Probed(workers[i], hostname(i))
    ensures failures == FailuresUpTo(workers, hostname, |workers|)
  {
    updated := [];
    failures := [];
    var i := 0;
    while i < |workers|
      invariant 0 <= i <= |workers|
      invariant |updated| == i
      invariant forall k :: 0 <= k < i ==> updated[k] == Probed(workers[k], hostname(k))
      invariant failures == FailuresUpTo(workers, hostname, i)
    {
      var e := hostname(i);
      updated := updated + [Probed(workers[i], e)];
      if e.Some? {
        failures := failures + [FailureLine(workers[i], e.value)];
      }
      i := i + 1;
    }
  }

  /**
   * `TestConnectivity`: probes every worker, without stopping at a
   * failure, records reachability, and fails iff some probe failed,
   * listing every failure.
   */
  method TestConnectivity(d: Distributor, workers: seq<WorkerNode>, hostname: nat -> Option<string>)
    returns (updated: seq<WorkerNode>, err: Option<ConnectivityError>)
    ensures |updated| == |workers|
    ensures forall i :: 0 <= i < |workers| ==> updated[i] == Probed(workers[i], hostname(i))
    ensures err.None? <==> forall i :: 0 <= i < |workers| ==> hostname(i).None?
    ensures err.Some? ==> err.value == ConnectivityFailed(FailuresUpTo(workers, hostname, |workers|), d.ssh.user)
  {
    var failures;
    updated, failures := ProbeAll(workers, hostname);
    if |failures| > 0 {
      err := Some(ConnectivityFailed(failures, d.ssh.user));
    } else {
      err := None;
    }
  }

  // ---------------------------------------------------------------------
  // Remote steps
  // ---------------------------------------------------------------------

  /** What a remote command printed (standard output and error together) and its error, if any. */
  datatype Reply = Reply(output: string, err: Option<string>)

  /** The local tarball: unreadable, or its bytes. */
  datatype LocalFile = Missing(cause: string) | File(data: seq<byte>)

  /**
   * What every step answers on one attempt at one node: the local file,
   * the error of opening it for reading or of connecting (dialling,
   * opening the session and its input pipe), the error of the copy stream (starting `scp -t`, sending,
   * waiting), and the replies to `stat`, the import, the listing and the
   * removal.
   */
  datatype Probe = Probe(
    local: LocalFile,
    connect: Option<string>,
    stream: Option<string>,
    sizeReply: Reply,
    importReply: Reply,
    listReply: Reply,
    cleanupReply: Reply)

  /** The remote commands, in the order a successful attempt issues them. */
  datatype Command =
    | ScpSink(path: string, header: string, body: seq<byte>, terminator: byte)  // `scp -t <path>` and what it is sent
    | StatSize(path: string)                           // `stat -c%s <path>`
    | ImportImage(baseName: string, path: string)      // `sudo ctr -n k8s.io images import --base-name <base> <path>`
    | ListImages                                       // `sudo ctr -n k8s.io images list`
    | RemoveFile(path: string)                         // `rm -f <path>`

  /** The header line of a single-file copy: `C0644 <size> <name>\n`. */
  function ScpHeader(size: nat, name: string): string {
    "C0644 " + NatToString(size) + " " + name + "\n"
  }

  /** How a copy receiver reads a header line back: the size and the file name. */
  function ParseScpHeader(h: string): Option<(nat, string)>
  {
    if |h| < 7 || h[..6] != "C0644 " || h[|h| - 1] != '\n' then None
    else
      var line := h[6..|h| - 1];
      if '\n' in line then None
      else
        var parts := Split(line, ' ');
        if |parts| < 2 || parts[0] == "" || !AllDigits(parts[0]) then None
        else Some((DigitsValue(parts[0]), Join(parts[1..], ' ')))
  }

  /** A receiver recovers the size and name that were sent (names with spaces included). */
  lemma ScpHeaderRoundTrip(size: nat, name: string)
    requires '\n' !in name
    ensures ParseScpHeader(ScpHeader(size, name)) == Some((size, name))
  {
    var digits := NatToString(size);
    ScpHeaderLine(digits, name);
    SplitDigitsThenName(digits, name);
    var parts := Split(digits + " " + name, ' ');
    assert parts[0] == digits && parts[1..] == Split(name, ' ');
    JoinSplit(name, ' ');
    NatToStringValue(size);
  }

  /** The header's frame: the fixed prefix, the closing newline, and in between the size and the name. */
  lemma ScpHeaderLine(digits: string, name: string)
    requires AllDigits(digits) && '\n' !in name
    ensures var h := "C0644 " + digits + " " + name + "\n";
            var line := digits + " " + name;
            && |h| >= 7 && h[..6] == "C0644 " && h[|h| - 1] == '\n' && h[6..|h| - 1] == line
            && '\n' !in line
  {
    var line := digits + " " + name;
    var h := "C0644 " + digits + " " + name + "\n";
    assert h == "C0644 " + line + "\n";
    assert h[6..|h| - 1] == line;
    forall k | 0 <= k < |line| ensures line[k] != '\n' {
      if k < |digits| {
        assert IsDigit(digits[k]);
      } else if k > |digits| {
        assert line[k] == name[k - |digits| - 1];
      }
    }
  }

  /** Splitting digits, a space and a name at spaces gives the digits, then the name's pieces. */
  lemma SplitDigitsThenName(digits: string, name: string)
    requires AllDigits(digits)
    ensures Split(digits + " " + name, ' ') == [digits] + Split(name, ' ')
  {
    assert ' ' !in digits by {
      forall k | 0 <= k < |digits| ensures digits[k] != ' ' {
        assert IsDigit(digits[k]);
      }
    }
    var t := " " + name;
    assert digits + " " + name == digits + t;
    assert Split(t, ' ') == [""] + Split(name, ' ') by {
      assert t[0] == ' ' && t[1..] == name;
    }
    SplitFreePrefix(digits, t, ' ');
    assert digits + "" == digits;
  }

  /** The file size `stat` printed, as the code reads it: trimmed, parsed, and 0 when unparsable. */
  function RemoteSize(statOutput: string): int {
    ParseInt64(TrimSpace(statOutput)).value
  }

  /** A size printed by `stat`, followed by a newline or other white space, reads back exactly. */
  lemma RemoteSizeOfStat(n: nat, pad: string)
    requires n <= MaxInt64
    requires forall k :: 0 <= k < |pad| ==> IsSpace(pad[k])
    ensures RemoteSize(NatToString(n) + pad) == n
  {
    var s := NatToString(n);
    DigitNotSpace(s[0]);
    DigitNotSpace(s[|s| - 1]);
    TrimSpaceOfPadded(s, pad);
    ParseFormatted(n);
  }

  /** Unparsable `stat` output counts as size 0, so it only passes for an empty tarball. */
  lemma UnparsableSizeIsZero(statOutput: string)
    requires !WellFormedInt(TrimSpace(statOutput))
    ensures RemoteSize(statOutput) == 0
  {
  }

  datatype TransferFault =
    | ConnectFailed(cause: string)
    | StreamFailed(cause: string)
    | RemoteStatFailed(cause: string)
    | SizeMismatch(local: nat, remote: int)

  /** What copying did: the commands issued, and the fault that stopped it, if any. */
  datatype Transfer = Transfer(fault: Option<TransferFault>, commands: seq<Command>)

  /**
   * `scpToWorker`: connects, streams header, bytes and a NUL terminator
   * to `scp -t`, then asks `stat` for the remote size, which must equal
   * the local size. A failed connection issues no remote command.
   */
  function ScpToWorker(localPath: string, data: seq<byte>, remotePath: string, p: Probe): (r: Transfer)
    ensures r.fault.None? <==>
              && p.connect.None? && p.stream.None? && p.sizeReply.err.None?
              && RemoteSize(p.sizeReply.output) == |data|
    ensures p.connect.Some? ==> r.fault == Some(ConnectFailed(p.connect.value))
    ensures p.connect.None? && p.stream.Some? ==> r.fault == Some(StreamFailed(p.stream.value))
    ensures p.connect.None? && p.stream.None? && p.sizeReply.err.Some? ==>
              r.fault == Some(RemoteStatFailed(p.sizeReply.err.value))
    ensures p.connect.None? && p.stream.None? && p.sizeReply.err.None?
            && RemoteSize(p.sizeReply.output) != |data| ==>
              r.fault == Some(SizeMismatch(|data|, RemoteSize(p.sizeReply.output)))
    ensures |r.commands| == (if p.connect.Some? then 0 else if p.stream.Some? then 1 else 2)
    ensures r.commands <= [ScpSink(remotePath, ScpHeader(|data|, Paths.Base(localPath)), data, 0),
                           StatSize(remotePath)]
  {
    var sink := ScpSink(remotePath, ScpHeader(|data|, Paths.Base(localPath)), data, 0);
    if p.connect.Some? then Transfer(Some(ConnectFailed(p.connect.value)), [])
    else if p.stream.Some? then Transfer(Some(StreamFailed(p.stream.value)), [sink])
    else
      var cmds := [sink, StatSize(remotePath)];
      if p.sizeReply.err.Some? then Transfer(Some(RemoteStatFailed(p.sizeReply.err.value)), cmds)
      else
        var remote := RemoteSize(p.sizeReply.output);
        if remote != |data| then Transfer(Some(SizeMismatch(|data|, remote)), cmds)
        else Transfer(None, cmds)
  }

  /** A clean stream and a `stat` that prints the true size make the copy succeed. */
  lemma CopySucceedsOnTrueSize(localPath: string, data: seq<byte>, remotePath: string, p: Probe, pad: string)
    requires |data| <= MaxInt64
    requires forall k :: 0 <= k < |pad| ==> IsSpace(pad[k])
    requires p.connect.None? && p.stream.None? && p.sizeReply == Reply(NatToString(|data|) + pad, None)
    ensures ScpToWorker(localPath, data, remotePath, p).fault.None?
  {
    RemoteSizeOfStat(|data|, pad);
  }

  /**
   * The `--base-name` given to the import: the image name without its last
   * `/`-separated piece, and empty when the name has no `/`.
   */
  function BaseName(imageName: string): (r: string)
    ensures '/' !in imageName ==> r == ""
    ensures '/' in imageName ==>
              |r| < |imageName| && imageName[..|r|] == r && imageName[|r|] == '/'
              && '/' !in imageName[|r| + 1..]
  {
    var parts := Split(imageName, '/');
    BaseNameShape(imageName);
    Join(parts[..|parts| - 1], '/')
  }

  lemma BaseNameShape(name: string)
    ensures var parts := Split(name, '/');
            var r := Join(parts[..|parts| - 1], '/');
            && ('/' !in name ==> r == "")
            && ('/' in name ==> |r| < |name| && name[..|r|] == r && name[|r|] == '/'
                                && '/' !in name[|r| + 1..])
  {
    var parts := Split(name, '/');
    var r := Join(parts[..|parts| - 1], '/');
    SplitSingleton(name, '/');
    if '/' in name {
      assert |parts| >= 2;
      var last := parts[|parts| - 1];
      JoinSplit(name, '/');
      JoinSnoc(parts, '/');
      assert name == r + ['/'] + last;
      assert '/' !in last;
      SlashBetween(name, r, last);
    } else {
      assert parts[..0] == [];
    }
  }

  /** Where `name` is `r/last`, the slash sits right after `r` and `last` follows it. */
  lemma SlashBetween(name: string, r: string, last: string)
    requires name == r + ['/'] + last && '/' !in last
    ensures |r| < |name| && name[..|r|] == r && name[|r|] == '/' && '/' !in name[|r| + 1..]
  {
    assert name[|r| + 1..] == last;
  }

  /** Removing the last piece of `prefix/last` gives back `prefix`. */
  lemma BaseNameOfAppended(prefix: string, last: string)
    requires '/' !in last
    ensures BaseName(prefix + "/" + last) == prefix
  {
    var name := prefix + "/" + last;
    assert name == prefix + ['/'] + last;
    Paths.SplitSnoc(prefix, last, '/');
    var parts := Split(name, '/');
    assert parts[..|parts| - 1] == Split(prefix, '/');
    JoinSplit(prefix, '/');
  }

  /** The documented example: `crepo.re-cloud.io/magnetiq/v2/backend:latest` imports under `crepo.re-cloud.io/magnetiq/v2`. */
  lemma BaseNameExample()
    ensures BaseName("crepo.re-cloud.io/magnetiq/v2/backend:latest") == "crepo.re-cloud.io/magnetiq/v2"
  {
    assert "crepo.re-cloud.io/magnetiq/v2/backend:latest"
        == "crepo.re-cloud.io/magnetiq/v2" + "/" + "backend:latest";
    BaseNameOfAppended("crepo.re-cloud.io/magnetiq/v2", "backend:latest");
  }

  /** A locally built image is imported under its configured prefix. */
  lemma ImportBaseIsImagePrefix(c: Config.Config, component: string)
    requires '/' !in component && '/' !in c.localImageTag
    ensures BaseName(Config.LocalImageName(c, component)) == c.imagePrefix
  {
    var last := component + ":" + c.localImageTag;
    Config.LocalImageNamePieces(c, component);
    assert '/' !in last by {
      var pieces := Split(Config.LocalImageName(c, component), '/');
      assert pieces[|pieces| - 1] == last;
    }
    assert Config.LocalImageName(c, component) == c.imagePrefix + "/" + last;
    BaseNameOfAppended(c.imagePrefix, last);
  }

  datatype ImportFault = DiskFull | SudoRequired | ContainerdNotRunning | ImportCommandFailed(cause: string)

  /**
   * How a failed import is reported: by the first of "no space left",
   * "permission denied" and "connection refused" that occurs in the
   * lower-cased output, else as a generic failure.
   */
  function ClassifyImport(reply: Reply): (r: Option<ImportFault>)
    ensures r.None? <==> reply.err.None?
    ensures reply.err.Some? ==>
              var out := ToLower(reply.output);
              && (r == Some(DiskFull) <==> Contains(out, "no space left"))
              && (r == Some(SudoRequired) <==>
                    !Contains(out, "no space left") && Contains(out, "permission denied"))
              && (r == Some(ContainerdNotRunning) <==>
                    !Contains(out, "no space left") && !Contains(out, "permission denied")
                    && Contains(out, "connection refused"))
              && (r.value.ImportCommandFailed? ==> r.value.cause == reply.err.value)
  {
    if reply.err.None? then None
    else
      var out := ToLower(reply.output);
      if Contains(out, "no space left") then Some(DiskFull)
      else if Contains(out, "permission denied") then Some(SudoRequired)
      else if Contains(out, "connection refused") then Some(ContainerdNotRunning)
      else Some(ImportCommandFailed(reply.err.value))
  }

  /** Lower-casing twice is lower-casing once. */
  lemma ToLowerIdempotent(s: string)
    ensures ToLower(ToLower(s)) == ToLower(s)
  {
    var t := ToLower(s);
    assert forall i :: 0 <= i < |s| ==> LowerChar(t[i]) == t[i];
  }

  /** The classification ignores letter case in the output. */
  lemma ClassifyIgnoresCase(output: string, err: Option<string>)
    ensures ClassifyImport(Reply(output, err)) == ClassifyImport(Reply(ToLower(output), err))
  {
    ToLowerIdempotent(output);
  }

  datatype VerifyFault = ListFailed(cause: string) | ImageNotFound(image: string)

  /** `VerifyImportOnWorker`: the listing must succeed and mention the image name. */
  function VerifyImport(reply: Reply, imageName: string): (r: Option<VerifyFault>)
    ensures r.None? <==> reply.err.None? && Contains(reply.output, imageName)
    ensures r.Some? && reply.err.Some? ==> r.value == ListFailed(reply.err.value)
    ensures r.Some? && reply.err.None? ==> r.value == ImageNotFound(imageName)
  {
    if reply.err.Some? then Some(ListFailed(reply.err.value))
    else if !Contains(reply.output, imageName) then Some(ImageNotFound(imageName))
    else None
  }

  /** A listing line naming the image anywhere verifies it. */
  lemma ListedImageVerifies(pre: string, imageName: string, post: string)
    ensures VerifyImport(Reply(pre + imageName + post, None), imageName).None?
  {
    assert OccursAt(imageName, imageName, 0);
    ContainsInfix(pre, imageName, post, imageName);
  }

  // ---------------------------------------------------------------------
  // One attempt at one worker
  // ---------------------------------------------------------------------

  datatype Fault =
    | TarballStatFailed(cause: string)
    | CopyFailed(transfer: TransferFault)
    | ImportFailed(importFault: ImportFault)
    | VerifyFailed(verifyFault: VerifyFault)

  /**
   * A result's error: `Annotated` is the error an attempt records, with
   * the step named ("SCP failed: ..."); `Bare` is the raw last error that
   * the retry loop stores once every attempt failed.
   */
  datatype ResultError = Annotated(fault: Fault) | Bare(fault: Fault)

  datatype DistributionResult = DistributionResult(worker: WorkerNode, component: string,
                                                   success: bool, error: Option<ResultError>)

  /** One attempt: the result it records, the raw error it returns, and the remote commands it issued. */
  datatype Attempt = Attempt(result: DistributionResult, err: Option<Fault>, commands: seq<Command>)

  /** Where the tarball is put on a worker: the temporary directory joined with the tarball's base name. */
  function RemoteTarball(d: Distributor, tarballPath: string): string {
    Paths.JoinPath([d.ssh.workerTempDir, Paths.Base(tarballPath)])
  }

  /** Every remote command of a successful attempt without `--keep-tarballs`, in order. */
  function Pipeline(d: Distributor, tarballPath: string, imageName: string, data: seq<byte>): seq<Command> {
    var remote := RemoteTarball(d, tarballPath);
    [ScpSink(remote, ScpHeader(|data|, Paths.Base(tarballPath)), data, 0), StatSize(remote),
     ImportImage(BaseName(imageName), remote), ListImages, RemoveFile(remote)]
  }

  function Failed(w: WorkerNode, component: string, f: Fault, cmds: seq<Command>): Attempt {
    Attempt(DistributionResult(w, component, false, Some(Annotated(f))), Some(f), cmds)
  }

  /**
   * How far copying, import and verification get once the tarball has
   * been read, given what each step reported: the fault that stops them,
   * if any, and how many commands of the pipeline were issued by then.
   */
  function Progress(keepTarballs: bool, t: Transfer, imp: Option<ImportFault>, ver: Option<VerifyFault>)
    : (r: (Option<Fault>, nat))
    requires |t.commands| <= 2
    ensures r.1 <= 5
    ensures r.0.None? <==> t.fault.None? && imp.None? && ver.None?
    ensures t.fault.Some? ==> r.0 == Some(CopyFailed(t.fault.value))
    ensures t.fault.None? && imp.Some? ==> r.0 == Some(ImportFailed(imp.value))
    ensures t.fault.None? && imp.None? && ver.Some? ==> r.0 == Some(VerifyFailed(ver.value))
    ensures r.0.Some? && r.0.value.CopyFailed? ==> r.1 == |t.commands| <= 2
    ensures r.0.Some? && r.0.value.ImportFailed? ==> r.1 == 3
    ensures r.0.Some? && r.0.value.VerifyFailed? ==> r.1 == 4
    ensures r.0.None? ==> r.1 == (if keepTarballs then 4 else 5)
  {
    if t.fault.Some? then (Some(CopyFailed(t.fault.value)), |t.commands|)
    else if imp.Some? then (Some(ImportFailed(imp.value)), 3)
    else if ver.Some? then (Some(VerifyFailed(ver.value)), 4)
    else (None, if keepTarballs then 4 else 5)
  }

  /** The step reports of an attempt that has read its tarball. */
  function StepsOf(d: Distributor, tarballPath: string, imageName: string, data: seq<byte>, p: Probe)
    : (r: (Option<Fault>, nat))
  {
    Progress(d.keepTarballs, ScpToWorker(tarballPath, data, RemoteTarball(d, tarballPath), p),
             ClassifyImport(p.importReply), VerifyImport(p.listReply, imageName))
  }

  /**
   * `DistributeToWorker`: stat the tarball, copy, import, verify, and
   * clean up unless tarballs are kept. The first failing step ends the
   * attempt; a failed cleanup is ignored.
   */
  function DistributeToWorker(d: Distributor, w: WorkerNode, tarballPath: string, component: string,
                              imageName: string, p: Probe): (r: Attempt)
    ensures r.result.worker == w && r.result.component == component
    ensures r.result.success <==> r.err.None?
    ensures r.result.error == (if r.err.Some? then Some(Annotated(r.err.value)) else None)
    ensures r.err.None? <==>
              && p.local.File?
              && p.connect.None? && p.stream.None? && p.sizeReply.err.None?
              && RemoteSize(p.sizeReply.output) == |p.local.data|
              && p.importReply.err.None?
              && p.listReply.err.None? && Contains(p.listReply.output, imageName)
    ensures p.local.Missing? ==> r.err == Some(TarballStatFailed(p.local.cause)) && r.commands == []
    ensures p.local.File? ==>
              var t := ScpToWorker(tarballPath, p.local.data, RemoteTarball(d, tarballPath), p);
              var imp := ClassifyImport(p.importReply);
              var ver := VerifyImport(p.listReply, imageName);
              && (t.fault.Some? ==> r.err == Some(CopyFailed(t.fault.value)) && |r.commands| == |t.commands|)
              && (t.fault.None? && imp.Some? ==> r.err == Some(ImportFailed(imp.value)) && |r.commands| == 3)
              && (t.fault.None? && imp.None? && ver.Some? ==>
                    r.err == Some(VerifyFailed(ver.value)) && |r.commands| == 4)
  {
    if p.local.Missing? then Failed(w, component, TarballStatFailed(p.local.cause), [])
    else
      var full := Pipeline(d, tarballPath, imageName, p.local.data);
      var progress := StepsOf(d, tarballPath, imageName, p.local.data, p);
      var err := progress.0;
      Attempt(DistributionResult(w, component, err.None?, if err.Some? then Some(Annotated(err.value)) else None),
              err, full[..progress.1])
  }

  /**
   * An attempt issues a prefix of the pipeline, and the step that failed
   * fixes how long it is: a failed copy issues at most two commands and
   * none when the connection failed, a failed import three, a failed
   * verification four.
   */
  lemma AttemptCommands(d: Distributor, w: WorkerNode, tarballPath: string, component: string,
                        imageName: string, p: Probe)
    ensures var r := DistributeToWorker(d, w, tarballPath, component, imageName, p);
            && (p.local.File? ==>
                  r.commands == Pipeline(d, tarballPath, imageName, p.local.data)[..|r.commands|])
            && (r.err.Some? && r.err.value.CopyFailed? ==> |r.commands| <= 2)
            && (p.local.File? && p.connect.Some? ==> r.commands == [])
            && (r.err.Some? && r.err.value.ImportFailed? ==> |r.commands| == 3)
            && (r.err.Some? && r.err.value.VerifyFailed? ==> |r.commands| == 4)
            && (r.err.None? ==> |r.commands| == (if d.keepTarballs then 4 else 5))
  {
    var r := DistributeToWorker(d, w, tarballPath, component, imageName, p);
    if p.local.File? {
      var full := Pipeline(d, tarballPath, imageName, p.local.data);
      var progress := StepsOf(d, tarballPath, imageName, p.local.data, p);
      assert |full| == 5;
      assert r.err == progress.0;
      assert r.commands == full[..progress.1];
    }
  }

  /**
   * The import runs exactly when the copy succeeded, and the tarball is
   * removed exactly when the attempt succeeded and tarballs are not kept.
   */
  lemma AttemptImportAndCleanup(d: Distributor, w: WorkerNode, tarballPath: string, component: string,
                                imageName: string, p: Probe)
    requires p.local.File?
    ensures var r := DistributeToWorker(d, w, tarballPath, component, imageName, p);
            var full := Pipeline(d, tarballPath, imageName, p.local.data);
            && (full[2] in r.commands <==>
                  r.err.None? || r.err.value.ImportFailed? || r.err.value.VerifyFailed?)
            && (full[2] in r.commands <==>
                  ScpToWorker(tarballPath, p.local.data, RemoteTarball(d, tarballPath), p).fault.None?)
            && (full[4] in r.commands <==> r.err.None? && !d.keepTarballs)
  {
    var r := DistributeToWorker(d, w, tarballPath, component, imageName, p);
    var full := Pipeline(d, tarballPath, imageName, p.local.data);
    var progress := StepsOf(d, tarballPath, imageName, p.local.data, p);
    assert r.err == progress.0;
    assert r.commands == full[..progress.1];
    PipelinePrefixes(full, progress.1);
  }

  /** In the pipeline the import is third and the removal last, and neither occurs earlier. */
  lemma PipelinePrefixes(full: seq<Command>, k: nat)
    requires |full| == 5 && k <= 5
    requires full[0].ScpSink? && full[1].StatSize? && full[2].ImportImage? && full[3].ListImages?
    requires full[4].RemoveFile?
    ensures full[2] in full[..k] <==> k >= 3
    ensures full[4] in full[..k] <==> k == 5
  {
    if k >= 3 {
      assert full[..k][2] == full[2];
    }
    if k == 5 {
      assert full[..k][4] == full[4];
    }
  }

  /** The cleanup reply never changes an attempt's outcome. */
  lemma CleanupIgnored(d: Distributor, w: WorkerNode, tarballPath: string, component: string,
                       imageName: string, p: Probe, cleanup: Reply)
    ensures DistributeToWorker(d, w, tarballPath, component, imageName, p.(cleanupReply := cleanup))
            == DistributeToWorker(d, w, tarballPath, component, imageName, p)
  {
  }

  // ---------------------------------------------------------------------
  // Retries at one worker
  // ---------------------------------------------------------------------

  function BareOf(e: Option<Fault>): Option<ResultError> {
    if e.Some? then Some(Bare(e.value)) else None
  }

  /** A worker's final result and how many attempts were made. */
  datatype NodeRun = NodeRun(result: DistributionResult, attempts: nat)

  /**
   * The retry loop of one worker task, where `attempt(a)` is what attempt
   * `a` does: attempts `1..retryCount` stop at the first success; once all
   * fail the result carries the last error, unannotated, and with no
   * attempts at all it carries none.
   */
  function RunNode(w: WorkerNode, component: string, retryCount: int, attempt: nat -> Attempt): (r: NodeRun)
    requires forall a: nat :: attempt(a).result.success <==> attempt(a).err.None?
    ensures r.result.success <==> exists a: nat :: 1 <= a <= retryCount && attempt(a).err.None?
    ensures r.result.success ==>
              && 1 <= r.attempts <= retryCount
              && r.result == attempt(r.attempts).result
              && forall a: nat :: 1 <= a < r.attempts ==> attempt(a).err.Some?
    ensures !r.result.success ==>
              && r.attempts == (if retryCount >= 1 then retryCount else 0)
              && r.result == DistributionResult(w, component, false,
                                                if retryCount >= 1 then BareOf(attempt(retryCount).err) else None)
  {
    var op := (a: nat) => attempt(a).err;
    assert forall a: nat :: op(a) == attempt(a).err;
    var run := Retry.Attempts(op, retryCount, 1);
    if run.succeeded then NodeRun(attempt(run.calls).result, run.calls)
    else NodeRun(DistributionResult(w, component, false, BareOf(run.lastErr)), run.calls)
  }

  /** A failed worker's stored error names the fault of its last attempt. */
  lemma FailedNodeKeepsLastFault(w: WorkerNode, component: string, retryCount: int, attempt: nat -> Attempt)
    requires forall a: nat :: attempt(a).result.success <==> attempt(a).err.None?
    requires retryCount >= 1
    requires !RunNode(w, component, retryCount, attempt).result.success
    ensures attempt(retryCount).err.Some?
    ensures RunNode(w, component, retryCount, attempt).result.error == Some(Bare(attempt(retryCount).err.value))
  {
  }

  /** Two attempt sequences that agree give the same final result and attempt count. */
  lemma SameAttemptsSameRun(w: WorkerNode, component: string, retryCount: int,
                            f: nat -> Attempt, g: nat -> Attempt)
    requires forall a: nat :: f(a).result.success <==> f(a).err.None?
    requires forall a: nat :: f(a) == g(a)
    ensures RunNode(w, component, retryCount, f) == RunNode(w, component, retryCount, g)
  {
    var r1 := RunNode(w, component, retryCount, f);
    var r2 := RunNode(w, component, retryCount, g);
    if r1.result.success {
      assert r2.result.success;
    }
  }

  /** Attempt `a` at worker number `i`; `probe(i, a)` says how its steps answer. */
  function Attempts(d: Distributor, i: nat, w: WorkerNode, tarballPath: string, component: string,
                    imageName: string, probe: (nat, nat) -> Probe): (attempt: nat -> Attempt)
    ensures forall a: nat :: attempt(a).result.success <==> attempt(a).err.None?
    ensures forall a: nat :: attempt(a).result.worker == w && attempt(a).result.component == component
  {
    var f := (a: nat) => DistributeToWorker(d, w, tarballPath, component, imageName, probe(i, a));
    assert forall a: nat :: f(a) == DistributeToWorker(d, w, tarballPath, component, imageName, probe(i, a));
    f
  }

  /** The retry loop of worker number `i`. */
  function NodeRunOf(d: Distributor, i: nat, w: WorkerNode, tarballPath: string, component: string,
                     imageName: string, probe: (nat, nat) -> Probe): (r: NodeRun)
    ensures r.result.worker == w && r.result.component == component
  {
    RunNode(w, component, d.retryCount, Attempts(d, i, w, tarballPath, component, imageName, probe))
  }

  // ---------------------------------------------------------------------
  // All workers and the quorum
  // ---------------------------------------------------------------------

  /** The number of successful results. */
  function SuccessCount(results: seq<DistributionResult>): (n: nat)
    ensures n <= |results|
    ensures n == |results| <==> forall i :: 0 <= i < |results| ==> results[i].success
    ensures n == 0 <==> forall i :: 0 <= i < |results| ==> !results[i].success
    decreases |results|
  {
    if |results| == 0 then 0
    else
      var rest := SuccessCount(results[..|results| - 1]);
      assert forall i :: 0 <= i < |results| - 1 ==> results[..|results| - 1][i] == results[i];
      rest + (if results[|results| - 1].success then 1 else 0)
  }

  /** Exactly one failure among the results leaves one success fewer than results. */
  lemma {:induction false} SuccessCountOneFailure(results: seq<DistributionResult>, j: nat)
    requires j < |results| && !results[j].success
    requires forall i :: 0 <= i < |results| && i != j ==> results[i].success
    ensures SuccessCount(results) == |results| - 1
    decreases |results|
  {
    var n := |results|;
    var front := results[..n - 1];
    if j == n - 1 {
      assert forall i :: 0 <= i < n - 1 ==> front[i].success;
    } else {
      assert forall i :: 0 <= i < n - 1 && i != j ==> front[i].success;
      SuccessCountOneFailure(front, j);
    }
  }

  /** The number of successes required: `minWorkers`, or every worker when it is 0. */
  function MinRequired(minWorkers: int, total: nat): (r: int)
    ensures minWorkers == 0 ==> r == total
    ensures minWorkers != 0 ==> r == minWorkers
  {
    if minWorkers == 0 then total else minWorkers
  }

  /** How a distribution ended. `QuorumNotMet` is the one outcome that is an error. */
  datatype Verdict =
    | AllReceived
    | Degraded(successes: nat, total: nat)
    | QuorumNotMet(successes: nat, total: nat, minimum: int)

  /** The verdict for `successes` out of `total` workers. */
  function Judge(successes: nat, total: nat, minWorkers: int): (v: Verdict)
    ensures v.QuorumNotMet? <==> successes < MinRequired(minWorkers, total)
    ensures v.QuorumNotMet? ==> v == QuorumNotMet(successes, total, MinRequired(minWorkers, total))
    ensures v.Degraded? <==> MinRequired(minWorkers, total) <= successes < total
    ensures v.Degraded? ==> v == Degraded(successes, total)
  {
    var minimum := MinRequired(minWorkers, total);
    if successes < minimum then QuorumNotMet(successes, total, minimum)
    else if successes < total then Degraded(successes, total)
    else AllReceived
  }

  /** The outcome of distributing to all workers: a result per worker, attempts per worker, and the verdict. */
  datatype Distribution = Distribution(results: seq<DistributionResult>, attempts: seq<nat>, verdict: Verdict)

  /**
   * `DistributeToAllWorkers`: every worker runs its own retry loop and
   * fills its own result slot; then the successes are counted against the
   * quorum. At least one task must be allowed at a time.
   */
  function DistributeToAllWorkers(d: Distributor, workers: seq<WorkerNode>, tarballPath: string,
                                  component: string, imageName: string,
                                  probe: (nat, nat) -> Probe): (r: Distribution)
    requires d.parallel >= 1
    ensures |r.results| == |workers| && |r.attempts| == |workers|
    ensures forall i :: 0 <= i < |workers| ==>
              var run := NodeRunOf(d, i, workers[i], tarballPath, component, imageName, probe);
              r.results[i] == run.result && r.attempts[i] == run.attempts
    ensures forall i :: 0 <= i < |workers| ==>
              r.results[i].worker == workers[i] && r.results[i].component == component
    ensures SuccessCount(r.results) <= |workers|
    ensures r.verdict == Judge(SuccessCount(r.results), |workers|, d.minWorkers)
    ensures r.verdict.QuorumNotMet? <==> SuccessCount(r.results) < MinRequired(d.minWorkers, |workers|)
  {
    var results := seq(|workers|, i requires 0 <= i < |workers| =>
                       NodeRunOf(d, i, workers[i], tarballPath, component, imageName, probe).result);
    var attempts := seq(|workers|, i requires 0 <= i < |workers| =>
                        NodeRunOf(d, i, workers[i], tarballPath, component, imageName, probe).attempts);
    Distribution(results, attempts, Judge(SuccessCount(results), |workers|, d.minWorkers))
  }

  /** With the default quorum the call fails iff some worker did not receive the image. */
  lemma DefaultQuorumNeedsEveryWorker(d: Distributor, workers: seq<WorkerNode>, tarballPath: string,
                                      component: string, imageName: string, probe: (nat, nat) -> Probe)
    requires d.parallel >= 1 && d.minWorkers == 0
    ensures var r := DistributeToAllWorkers(d, workers, tarballPath, component, imageName, probe);
            r.verdict.QuorumNotMet? <==> exists i :: 0 <= i < |workers| && !r.results[i].success
  {
    var r := DistributeToAllWorkers(d, workers, tarballPath, component, imageName, probe);
    assert SuccessCount(r.results) == |workers| <==> forall i :: 0 <= i < |r.results| ==> r.results[i].success;
  }

  /**
   * A single worker that fails every attempt is tolerated when the quorum
   * asks for no more than the rest: the call succeeds, reporting a
   * degraded distribution.
   */
  lemma OneLostWorkerTolerated(d: Distributor, workers: seq<WorkerNode>, tarballPath: string,
                               component: string, imageName: string, probe: (nat, nat) -> Probe, j: nat)
    requires d.parallel >= 1
    requires j < |workers|
    requires 1 <= d.minWorkers <= |workers| - 1
    requires !NodeRunOf(d, j, workers[j], tarballPath, component, imageName, probe).result.success
    requires forall i :: 0 <= i < |workers| && i != j ==>
               NodeRunOf(d, i, workers[i], tarballPath, component, imageName, probe).result.success
    ensures DistributeToAllWorkers(d, workers, tarballPath, component, imageName, probe).verdict
            == Degraded(|workers| - 1, |workers|)
  {
    var r := DistributeToAllWorkers(d, workers, tarballPath, component, imageName, probe);
    SuccessCountOneFailure(r.results, j);
  }

  /** With no attempt budget no worker is ever tried, and no result carries an error. */
  lemma NoBudgetNoSuccess(d: Distributor, workers: seq<WorkerNode>, tarballPath: string,
                          component: string, imageName: string, probe: (nat, nat) -> Probe)
    requires d.parallel >= 1 && d.retryCount <= 0
    ensures var r := DistributeToAllWorkers(d, workers, tarballPath, component, imageName, probe);
            && SuccessCount(r.results) == 0
            && forall i :: 0 <= i < |workers| ==>
                 !r.results[i].success && r.results[i].error.None? && r.attempts[i] == 0
  {
  }

  /** A worker's result depends only on the answers at that worker. */
  lemma ResultsArePerWorker(d: Distributor, workers: seq<WorkerNode>, tarballPath: string,
                            component: string, imageName: string,
                            probe: (nat, nat) -> Probe, other: (nat, nat) -> Probe, i: nat)
    requires d.parallel >= 1 && i < |workers|
    requires forall a: nat :: probe(i, a) == other(i, a)
    ensures DistributeToAllWorkers(d, workers, tarballPath, component, imageName, probe).results[i]
            == DistributeToAllWorkers(d, workers, tarballPath, component, imageName, other).results[i]
  {
    var f := Attempts(d, i, workers[i], tarballPath, component, imageName, probe);
    var g := Attempts(d, i, workers[i], tarballPath, component, imageName, other);
    assert forall a: nat :: f(a) == g(a);
    SameAttemptsSameRun(workers[i], component, d.retryCount, f, g);
  }
}

=== FILE: kube.dfy ===
/**
 * The cluster client: how `kubectl` is invoked through k0s, which nodes
 * count as workers and which address each contributes, the order in
 * which manifests are applied and deleted, and the pod-phase health
 * rule. Command execution, the file system and JSON decoding are
 * oracles: a manifest's absence, the error of each command, and the
 * already decoded node list are inputs.
 */
module Kube {
  import opened Base
  import opened Text
  import Paths

  /** The client settings that decide behaviour. */
  datatype Client = Client(dryRun: bool, namespace: string, kubeconfig: string, useSudo: bool)

  // ---------------------------------------------------------------------
  // Command line
  // ---------------------------------------------------------------------

  /** How many words come before the caller's arguments. */
  function PrefixLength(c: Client): nat {
    2 + (if c.useSudo then 1 else 0) + (if c.kubeconfig != "" then 2 else 0)
  }

  /**
   * `buildKubectlCmd`: `k0s kubectl`, then `--kubeconfig <file>` when a
   * kubeconfig is set, then the arguments, all behind `sudo` when sudo is
   * used.
   */
  function KubectlArgv(c: Client, args: seq<string>): (argv: seq<string>)
    ensures |argv| == PrefixLength(c) + |args|
    ensures argv[PrefixLength(c)..] == args
    ensures argv[0] == "sudo" <==> c.useSudo
    ensures "--kubeconfig" in argv[..PrefixLength(c)] <==> c.kubeconfig != ""
    ensures c.kubeconfig != "" ==> argv[PrefixLength(c) - 1] == c.kubeconfig
    ensures argv[PrefixLength(c) - (if c.kubeconfig != "" then 4 else 2)..][..2] == ["k0s", "kubectl"]
  {
    var base := if c.kubeconfig != "" then ["k0s", "kubectl", "--kubeconfig", c.kubeconfig]
                else ["k0s", "kubectl"];
    var sudo := if c.useSudo then ["sudo"] else [];
    var argv := if c.useSudo then ["sudo"] + (base + args) else base + args;
    assert argv == (sudo + base) + args;
    assert argv[..PrefixLength(c)] == sudo + base;
    argv
  }

  // ---------------------------------------------------------------------
  // Worker discovery
  // ---------------------------------------------------------------------

  /** One address of a node, e.g. of kind `InternalIP`. */
  datatype Address = Address(kind: string, address: string)

  /** A node of the decoded node list. */
  datatype KubeNode = KubeNode(name: string, labels: map<string, string>, addresses: seq<Address>)

  /** A label key that marks a control-plane node. */
  predicate MarksControlPlane(key: string) {
    Contains(key, "control-plane") || Contains(key, "master")
  }

  /** A node is a control-plane node when some label key mentions `control-plane` or `master`. */
  predicate ControlPlaneLabelled(n: KubeNode) {
    exists key :: key in n.labels && MarksControlPlane(key)
  }

  /**
   * The label scan of `GetWorkerIPs`: visits the label keys in any order
   * and stops at the first one that marks a control-plane node.
   */
  method IsControlPlane(n: KubeNode) returns (r: bool)
    ensures r <==> ControlPlaneLabelled(n)
  {
    var keys := n.labels.Keys;
    while keys != {}
      invariant keys <= n.labels.Keys
      invariant forall key :: key in n.labels && key !in keys ==> !MarksControlPlane(key)
      decreases |keys|
    {
      var key :| key in keys;
      if MarksControlPlane(key) {
        return true;
      }
      keys := keys - {key};
    }
    return false;
  }

  /** The first address of kind `InternalIP`, if any. */
  function FirstInternalIP(addrs: seq<Address>): (r: Option<string>)
    ensures r.None? <==> forall k :: 0 <= k < |addrs| ==> addrs[k].kind != "InternalIP"
    ensures r.Some? ==> exists k :: 0 <= k < |addrs| && addrs[k] == Address("InternalIP", r.value)
                                    && forall j :: 0 <= j < k ==> addrs[j].kind != "InternalIP"
    decreases |addrs|
  {
    if |addrs| == 0 then None
    else if addrs[0].kind == "InternalIP" then Some(addrs[0].address)
    else
      FirstInternalIP(addrs[1..])
  }

  /** What a node contributes: its first internal address, unless it is a control-plane node. */
  function Contribution(n: KubeNode): Option<string> {
    if ControlPlaneLabelled(n) then None else FirstInternalIP(n.addresses)
  }

  /** The worker addresses of a node list, in node order. */
  function WorkerAddresses(nodes: seq<KubeNode>): (r: seq<string>)
    ensures |r| <= |nodes|
    decreases |nodes|
  {
    if |nodes| == 0 then []
    else
      var c := Contribution(nodes[|nodes| - 1]);
      WorkerAddresses(nodes[..|nodes| - 1]) + (if c.Some? then [c.value] else [])
  }

  /** Every collected address is the contribution of some node. */
  lemma {:induction false} WorkerAddressesSound(nodes: seq<KubeNode>, ip: string)
    requires ip in WorkerAddresses(nodes)
    ensures exists k :: 0 <= k < |nodes| && Contribution(nodes[k]) == Some(ip)
    decreases |nodes|
  {
    var n := |nodes|;
    var front := nodes[..n - 1];
    var c := Contribution(nodes[n - 1]);
    assert WorkerAddresses(nodes) == WorkerAddresses(front) + (if c.Some? then [c.value] else []);
    if ip in WorkerAddresses(front) {
      WorkerAddressesSound(front, ip);
      var k :| 0 <= k < |front| && Contribution(front[k]) == Some(ip);
      assert front[k] == nodes[k];
    } else {
      assert Contribution(nodes[n - 1]) == Some(ip);
    }
  }

  /** Addresses are collected node by node: the list for a concatenation is the concatenation of the lists. */
  lemma {:induction false} WorkerAddressesAppend(a: seq<KubeNode>, b: seq<KubeNode>)
    ensures WorkerAddresses(a + b) == WorkerAddresses(a) + WorkerAddresses(b)
    decreases |b|
  {
    if |b| == 0 {
      assert a + b == a;
    } else {
      var ab := a + b;
      var front := b[..|b| - 1];
      var last := Contribution(b[|b| - 1]);
      var tail := if last.Some? then [last.value] else [];
      assert ab[..|ab| - 1] == a + front;
      assert ab[|ab| - 1] == b[|b| - 1];
      assert WorkerAddresses(ab) == WorkerAddresses(a + front) + tail;
      assert WorkerAddresses(b) == WorkerAddresses(front) + tail;
      WorkerAddressesAppend(a, front);
    }
  }

  /** Every node that is not a control-plane node and has an internal address contributes it. */
  lemma {:induction false} WorkerAddressesComplete(nodes: seq<KubeNode>, k: nat)
    requires k < |nodes| && Contribution(nodes[k]).Some?
    ensures Contribution(nodes[k]).value in WorkerAddresses(nodes)
    decreases |nodes|
  {
    var n := |nodes|;
    var front := nodes[..n - 1];
    var c := Contribution(nodes[n - 1]);
    assert WorkerAddresses(nodes) == WorkerAddresses(front) + (if c.Some? then [c.value] else []);
    if k < n - 1 {
      assert front[k] == nodes[k];
      WorkerAddressesComplete(front, k);
    }
  }

  /** The outcome of `kubectl get nodes -o json`. */
  datatype NodeQuery =
    | QueryFailed(cause: string, output: string)
    | Undecodable(cause: string)
    | Decoded(nodes: seq<KubeNode>)

  datatype WorkerIPsError = GetNodesFailed(cause: string) | ParseFailed(cause: string) | NoWorkerNodes

  /** `GetWorkerIPs`: the worker addresses, or an error when the query fails or finds none. */
  function GetWorkerIPs(q: NodeQuery): (r: Result<seq<string>, WorkerIPsError>)
    ensures q.QueryFailed? ==> r == Err(GetNodesFailed(q.cause))
    ensures q.Undecodable? ==> r == Err(ParseFailed(q.cause))
    ensures q.Decoded? ==> (r.Ok? <==> |WorkerAddresses(q.nodes)| > 0)
    ensures r.Ok? ==> q.Decoded? && r.value == WorkerAddresses(q.nodes) && |r.value| > 0
  {
    match q
    case QueryFailed(cause, _) => Err(GetNodesFailed(cause))
    case Undecodable(cause) => Err(ParseFailed(cause))
    case Decoded(nodes) =>
      var ips := WorkerAddresses(nodes);
      if |ips| == 0 then Err(NoWorkerNodes) else Ok(ips)
  }

  /** A cluster of control-plane nodes only has no workers. */
  lemma ControlPlaneOnlyHasNoWorkers(nodes: seq<KubeNode>)
    requires forall k :: 0 <= k < |nodes| ==> ControlPlaneLabelled(nodes[k])
    ensures GetWorkerIPs(Decoded(nodes)) == Err(NoWorkerNodes)
  {
    if |WorkerAddresses(nodes)| > 0 {
      WorkerAddressesSound(nodes, WorkerAddresses(nodes)[0]);
    }
  }

  // ---------------------------------------------------------------------
  // Manifests
  // ---------------------------------------------------------------------

  /** A manifest of the deployment order; `optional` only changes how a missing file is logged. */
  datatype Manifest = Manifest(path: string, optional: bool)

  /** The order in which manifests are applied. */
  const DeployOrder: seq<Manifest> := [
    Manifest("namespace.yaml", false),
    Manifest("rbac.yaml", false),
    Manifest("storage.yaml", false),
    Manifest("backend/pvc.yaml", false),
    Manifest("configmap.yaml", false),
    Manifest("secrets.yaml", false),
    Manifest("backend/service.yaml", false),
    Manifest("frontend/service.yaml", false),
    Manifest("backend/deployment.yaml", false),
    Manifest("frontend/deployment.yaml", false),
    Manifest("network-policy.yaml", true),
    Manifest("hpa.yaml", true),
    Manifest("ingress.yaml", false)
  ]

  function DeployPaths(): seq<string> {
    seq(|DeployOrder|, i requires 0 <= i < |DeployOrder| => DeployOrder[i].path)
  }

  /** The manifests deleted first, whatever is kept. */
  const DeletionHead: seq<string> := [
    "ingress.yaml", "hpa.yaml", "network-policy.yaml",
    "frontend/deployment.yaml", "backend/deployment.yaml",
    "frontend/service.yaml", "backend/service.yaml",
    "secrets.yaml", "configmap.yaml"
  ]

  /**
   * The order in which `Undeploy` deletes: the fixed head, then the
   * volume claim and storage unless kept, then the RBAC rules, then the
   * namespace unless kept.
   */
  function UndeployOrder(keepNamespace: bool, keepPVCs: bool): (r: seq<string>)
    ensures |r| == 10 + (if keepPVCs then 0 else 2) + (if keepNamespace then 0 else 1)
    ensures r[..9] == DeletionHead
    ensures "rbac.yaml" in r
    ensures "backend/pvc.yaml" in r <==> !keepPVCs
    ensures "storage.yaml" in r <==> !keepPVCs
    ensures "namespace.yaml" in r <==> !keepNamespace
    ensures !keepNamespace ==> r[|r| - 1] == "namespace.yaml"
    ensures r[|r| - (if keepNamespace then 1 else 2)] == "rbac.yaml"
    ensures !keepPVCs ==> r[9] == "backend/pvc.yaml" && r[10] == "storage.yaml"
  {
    var withPVCs := if keepPVCs then DeletionHead else DeletionHead + ["backend/pvc.yaml", "storage.yaml"];
    var withRbac := withPVCs + ["rbac.yaml"];
    var r := if keepNamespace then withRbac else withRbac + ["namespace.yaml"];
    assert r[|withPVCs|] == "rbac.yaml";
    r
  }

  function Reverse<T>(s: seq<T>): (r: seq<T>)
    ensures |r| == |s|
    ensures forall i :: 0 <= i < |s| ==> r[i] == s[|s| - 1 - i]
  {
    seq(|s|, i requires 0 <= i < |s| => s[|s| - 1 - i])
  }

  /** Deleting everything goes through the deployment order backwards. */
  lemma UndeployReversesDeploy()
    ensures UndeployOrder(false, false) == Reverse(DeployPaths())
  {
    FullTeardownIsUndeployOrder();
    FullTeardownReversesDeploy();
  }

  /** Every manifest, from the ingress back to the namespace. */
  const FullTeardown: seq<string> := DeletionHead + ["backend/pvc.yaml", "storage.yaml", "rbac.yaml", "namespace.yaml"]

  /** Deleting everything deletes exactly the full teardown list. */
  lemma FullTeardownIsUndeployOrder()
    ensures UndeployOrder(false, false) == FullTeardown
  {
    assert DeletionHead + ["backend/pvc.yaml", "storage.yaml"] + ["rbac.yaml"] + ["namespace.yaml"] == FullTeardown;
  }

  /** The full teardown list is the deployment paths backwards. */
  lemma FullTeardownReversesDeploy()
    ensures Reverse(DeployPaths()) == FullTeardown
  {
    var d := Reverse(DeployPaths());
    forall i | 0 <= i < 13 ensures d[i] == FullTeardown[i] {
      assert d[i] == DeployOrder[12 - i].path;
    }
  }

  /** Where a manifest lives: `<workDir>/k8s/<path>`. */
  function ManifestPath(workDir: string, entry: string): string {
    Paths.JoinPath([Paths.JoinPath([workDir, "k8s"]), entry])
  }

  /** What a loop over manifests did: which succeeded, which failed, which were missing. */
  datatype Sweep = Sweep(done: seq<string>, failed: seq<string>, skipped: seq<string>)

  /**
   * Deletes each present manifest in turn; a missing one is skipped and a
   * failed deletion is only logged, so the loop always runs to the end.
   * `missing(p)` says the file `p` does not exist; `step(p)` is the error
   * of deleting it.
   */
  function DeleteAll(entries: seq<string>, workDir: string, missing: string -> bool,
                     step: string -> Option<string>): (r: Sweep)
    ensures |r.done| + |r.failed| + |r.skipped| == |entries|
    ensures forall e :: e in r.skipped <==> e in entries && missing(ManifestPath(workDir, e))
    ensures forall e :: e in r.failed <==>
              e in entries && !missing(ManifestPath(workDir, e)) && step(ManifestPath(workDir, e)).Some?
    ensures forall e :: e in r.done <==>
              e in entries && !missing(ManifestPath(workDir, e)) && step(ManifestPath(workDir, e)).None?
    ensures Subsequence(r.done, entries) && Subsequence(r.failed, entries) && Subsequence(r.skipped, entries)
    decreases |entries|
  {
    if |entries| == 0 then Sweep([], [], [])
    else
      var rest := DeleteAll(entries[1..], workDir, missing, step);
      var e := entries[0];
      var p := ManifestPath(workDir, e);
      assert forall x :: x in entries <==> x == e || x in entries[1..];
      SubsequenceOfTail(rest.done, entries);
      SubsequenceOfTail(rest.failed, entries);
      SubsequenceOfTail(rest.skipped, entries);
      if missing(p) then
        assert ([e] + rest.skipped)[1..] == rest.skipped;
        rest.(skipped := [e] + rest.skipped)
      else if step(p).Some? then
        assert ([e] + rest.failed)[1..] == rest.failed;
        rest.(failed := [e] + rest.failed)
      else
        assert ([e] + rest.done)[1..] == rest.done;
        rest.(done := [e] + rest.done)
  }

  /** What keeps the order of a sequence's tail keeps the order of the whole. */
  lemma SubsequenceOfTail<T>(b: seq<T>, a: seq<T>)
    requires |a| > 0 && Subsequence(b, a[1..])
    ensures Subsequence(b, a)
  {
  }

  /** What `Undeploy` did; its error is always nil. */
  datatype UndeployReport = UndeployReport(sweep: Sweep, err: Option<string>)

  /** `Undeploy`: deletes in `UndeployOrder`; in dry-run mode no deletion can fail. */
  function Undeploy(c: Client, workDir: string, keepNamespace: bool, keepPVCs: bool,
                    missing: string -> bool, deleteErr: string -> Option<string>): (r: UndeployReport)
    ensures r.err.None?
    ensures var order := UndeployOrder(keepNamespace, keepPVCs);
            |r.sweep.done| + |r.sweep.failed| + |r.sweep.skipped| == |order|
    ensures c.dryRun ==> r.sweep.failed == []
    ensures var order := UndeployOrder(keepNamespace, keepPVCs);
            Subsequence(r.sweep.done, order) && Subsequence(r.sweep.failed, order)
            && Subsequence(r.sweep.skipped, order)
    ensures forall e :: e in r.sweep.skipped <==>
              e in UndeployOrder(keepNamespace, keepPVCs) && missing(ManifestPath(workDir, e))
    ensures forall e :: e in r.sweep.failed <==>
              && e in UndeployOrder(keepNamespace, keepPVCs) && !missing(ManifestPath(workDir, e))
              && !c.dryRun && deleteErr(ManifestPath(workDir, e)).Some?
    ensures forall e :: e in r.sweep.done <==>
              && e in UndeployOrder(keepNamespace, keepPVCs) && !missing(ManifestPath(workDir, e))
              && (c.dryRun || deleteErr(ManifestPath(workDir, e)).None?)
  {
    var step := (p: string) => if c.dryRun then None else deleteErr(p);
    assert forall p :: step(p) == if c.dryRun then None else deleteErr(p);
    var sweep := DeleteAll(UndeployOrder(keepNamespace, keepPVCs), workDir, missing, step);
    NonEmptyHasMember(sweep.failed);
    UndeployReport(sweep, None)
  }

  lemma NonEmptyHasMember<T>(s: seq<T>)
    ensures s != [] ==> s[0] in s
  {
  }

  /** Kept volumes and namespace are never deleted. */
  lemma KeptResourcesSurvive(c: Client, workDir: string, missing: string -> bool,
                             deleteErr: string -> Option<string>)
    ensures var r := Undeploy(c, workDir, true, true, missing, deleteErr);
            "namespace.yaml" !in r.sweep.done && "backend/pvc.yaml" !in r.sweep.done
            && "storage.yaml" !in r.sweep.done
  {
  }

  /** The manifests of `entries` that exist, in order. */
  function Present(entries: seq<string>, workDir: string, missing: string -> bool): (r: seq<string>)
    ensures |r| <= |entries|
    ensures forall e :: e in r <==> e in entries && !missing(ManifestPath(workDir, e))
    decreases |entries|
  {
    if |entries| == 0 then []
    else
      var rest := Present(entries[1..], workDir, missing);
      assert forall x :: x in entries <==> x == entries[0] || x in entries[1..];
      if missing(ManifestPath(workDir, entries[0])) then rest else [entries[0]] + rest
  }

  /** Where a run of steps stopped: the manifest and its error. */
  datatype StepFailure = StepFailure(entry: string, cause: string)

  /** Runs `step` over `entries` until the first failure; `done` are those that succeeded. */
  function UntilFailure(entries: seq<string>, step: string -> Option<string>)
    : (r: (seq<string>, Option<StepFailure>))
    ensures r.0 <= entries
    ensures forall i :: 0 <= i < |r.0| ==> step(entries[i]).None?
    ensures r.1.None? <==> r.0 == entries
    ensures r.1.Some? ==>
              |r.0| < |entries| && r.1.value.entry == entries[|r.0|]
              && step(entries[|r.0|]) == Some(r.1.value.cause)
    decreases |entries|
  {
    if |entries| == 0 then ([], None)
    else
      var e := step(entries[0]);
      if e.Some? then ([], Some(StepFailure(entries[0], e.value)))
      else
        var tail := entries[1..];
        var rest := UntilFailure(tail, step);
        var done := [entries[0]] + rest.0;
        assert entries == [entries[0]] + tail;
        assert forall i :: 0 < i < |done| ==> done[i] == rest.0[i - 1] && entries[i] == tail[i - 1];
        assert rest.1.Some? ==> entries[|done|] == tail[|rest.0|];
        (done, rest.1)
  }

  datatype DeployError = ValidationFailed(failure: StepFailure) | ApplyFailed(failure: StepFailure)

  /** What `DeployWithOptions` did: the manifests validated and applied, and its error. */
  datatype DeployOutcome = DeployOutcome(validated: seq<string>, applied: seq<string>, err: Option<DeployError>)

  /**
   * `DeployWithOptions`: when asked, validates every present manifest in
   * deployment order, stopping at the first invalid one; then applies
   * every present manifest in order, stopping at the first failure.
   * Missing manifests are skipped; in dry-run mode applying cannot fail.
   * Waiting for the rollout only logs, so it is not an input.
   */
  function DeployWithOptions(c: Client, workDir: string, validate: bool, missing: string -> bool,
                             validateErr: string -> Option<string>,
                             applyErr: string -> Option<string>): (r: DeployOutcome)
    ensures var present := Present(DeployPaths(), workDir, missing);
            && r.validated <= present && r.applied <= present
            && (!validate ==> r.validated == [])
            && (validate && !(r.err.Some? && r.err.value.ValidationFailed?) ==> r.validated == present)
            && (r.err.None? ==> r.applied == present)
            && (r.err.Some? && r.err.value.ValidationFailed? ==> validate && r.applied == [])
    ensures r.err.None? <==>
              && (validate ==> forall e :: e in Present(DeployPaths(), workDir, missing) ==>
                                             validateErr(ManifestPath(workDir, e)).None?)
              && (!c.dryRun ==> forall e :: e in Present(DeployPaths(), workDir, missing) ==>
                                              applyErr(ManifestPath(workDir, e)).None?)
    ensures forall i :: 0 <= i < |r.validated| ==> validateErr(ManifestPath(workDir, r.validated[i])).None?
    ensures forall i :: 0 <= i < |r.applied| ==>
              c.dryRun || applyErr(ManifestPath(workDir, r.applied[i])).None?
    ensures r.err.Some? && r.err.value.ValidationFailed? ==>
              var present := Present(DeployPaths(), workDir, missing);
              var f := r.err.value.failure;
              && |r.validated| < |present| && f.entry == present[|r.validated|]
              && validateErr(ManifestPath(workDir, f.entry)) == Some(f.cause)
    ensures r.err.Some? && r.err.value.ApplyFailed? ==>
              var present := Present(DeployPaths(), workDir, missing);
              var f := r.err.value.failure;
              && |r.applied| < |present| && f.entry == present[|r.applied|]
              && !c.dryRun && applyErr(ManifestPath(workDir, f.entry)) == Some(f.cause)
  {
    var present := Present(DeployPaths(), workDir, missing);
    var v := if validate then ManifestRun(present, workDir, validateErr) else ([], None);
    if v.1.Some? then
      DeployOutcome(v.0, [], Some(ValidationFailed(v.1.value)))
    else
      var a := ManifestRun(present, workDir, if c.dryRun then (p: string) => None else applyErr);
      DeployOutcome(v.0, a.0, if a.1.Some? then Some(ApplyFailed(a.1.value)) else None)
  }

  /** One phase of `DeployWithOptions`: `stepErr` on each manifest's path until the first error. */
  function ManifestRun(present: seq<string>, workDir: string, stepErr: string -> Option<string>)
    : (r: (seq<string>, Option<StepFailure>))
    ensures r.0 <= present
    ensures forall i :: 0 <= i < |r.0| ==> stepErr(ManifestPath(workDir, r.0[i])).None?
    ensures r.1.None? <==> r.0 == present
    ensures r.1.None? <==> forall e :: e in present ==> stepErr(ManifestPath(workDir, e)).None?
    ensures r.1.Some? ==>
              |r.0| < |present| && r.1.value.entry == present[|r.0|]
              && stepErr(ManifestPath(workDir, r.1.value.entry)) == Some(r.1.value.cause)
  {
    var step := (e: string) => stepErr(ManifestPath(workDir, e));
    assert forall e :: step(e) == stepErr(ManifestPath(workDir, e));
    NoFailureMeansAll(present, step);
    UntilFailure(present, step)
  }

  /**
   * With validation on, an invalid manifest stops the deployment before
   * anything is applied, and the error names the first invalid manifest
   * in deployment order.
   */
  lemma InvalidManifestBlocksApply(c: Client, workDir: string, missing: string -> bool,
                                   validateErr: string -> Option<string>,
                                   applyErr: string -> Option<string>, k: nat)
    requires var present := Present(DeployPaths(), workDir, missing);
             k < |present| && validateErr(ManifestPath(workDir, present[k])).Some?
    ensures var r := DeployWithOptions(c, workDir, true, missing, validateErr, applyErr);
            && r.applied == [] && r.err.Some? && r.err.value.ValidationFailed?
            && |r.validated| <= k
            && validateErr(ManifestPath(workDir, r.err.value.failure.entry)).Some?
  {
  }

  /** A run stops early exactly when some entry fails. */
  lemma NoFailureMeansAll(entries: seq<string>, step: string -> Option<string>)
    ensures UntilFailure(entries, step).1.None? <==> forall e :: e in entries ==> step(e).None?
  {
    var r := UntilFailure(entries, step);
    if r.1.None? {
      forall e | e in entries ensures step(e).None? {
        var i :| 0 <= i < |entries| && entries[i] == e;
        assert r.0[i] == entries[i];
      }
    } else {
      assert entries[|r.0|] in entries;
    }
  }

  // ---------------------------------------------------------------------
  // Pod health
  // ---------------------------------------------------------------------

  predicate Healthy(phase: string) {
    phase == "Running" || phase == "Succeeded"
  }

  /** The first phase that is neither `Running` nor `Succeeded`. */
  function FirstUnhealthy(phases: seq<string>): (r: Option<string>)
    ensures r.None? <==> forall i :: 0 <= i < |phases| ==> Healthy(phases[i])
    ensures r.Some? ==> r.value in phases && !Healthy(r.value)
    ensures r.Some? ==> exists k :: 0 <= k < |phases| && phases[k] == r.value
                                    && forall j :: 0 <= j < k ==> Healthy(phases[j])
    decreases |phases|
  {
    if |phases| == 0 then None
    else if !Healthy(phases[0]) then Some(phases[0])
    else
      var rest := FirstUnhealthy(phases[1..]);
      assert forall i :: 1 <= i < |phases| ==> phases[i] == phases[1..][i - 1];
      if rest.Some? then
        var k :| 0 <= k < |phases[1..]| && phases[1..][k] == rest.value
                 && forall j :: 0 <= j < k ==> Healthy(phases[1..][j]);
        assert phases[k + 1] == rest.value;
        rest
      else
        rest
  }

  datatype HealthError = HealthQueryFailed(cause: string) | PodNotHealthy(phase: string)

  /**
   * `CheckPodHealth`: reads the pod phases, separated by white space, and
   * fails on the first phase that is neither `Running` nor `Succeeded`.
   */
  function CheckPodHealth(output: Result<string, string>): (r: Option<HealthError>)
    ensures output.Err? ==> r == Some(HealthQueryFailed(output.error))
    ensures output.Ok? && r.None? ==> forall i :: 0 <= i < |Fields(output.value)| ==> Healthy(Fields(output.value)[i])
    ensures output.Ok? && r.Some? ==> exists i :: 0 <= i < |Fields(output.value)| && !Healthy(Fields(output.value)[i])
    ensures output.Ok? && r.Some? ==>
              r.value.PodNotHealthy? && r.value.phase in Fields(output.value) && !Healthy(r.value.phase)
    ensures output.Ok? && r.Some? ==>
              var phases := Fields(output.value);
              exists k :: 0 <= k < |phases| && phases[k] == r.value.phase
                          && forall j :: 0 <= j < k ==> Healthy(phases[j])
  {
    if output.Err? then Some(HealthQueryFailed(output.error))
    else
      var phases := Fields(output.value);
      var bad := FirstUnhealthy(phases);
      if bad.Some? then Some(PodNotHealthy(bad.value)) else None
  }

  /** No pods at all is healthy. */
  lemma NoPodsIsHealthy()
    ensures CheckPodHealth(Ok("")) == None
  {
  }

  /** Phases printed separated by spaces are judged one by one. */
  lemma HealthOfPrintedPhases(phases: seq<string>)
    requires forall k :: 0 <= k < |phases| ==> |phases[k]| > 0 && NoSpace(phases[k])
    ensures CheckPodHealth(Ok(Join(phases, ' '))).None? <==> forall k :: 0 <= k < |phases| ==> Healthy(phases[k])
  {
    FieldsOfJoin(phases);
  }
}

=== FILE: paths.dfy ===
/**
 * Go's `path/filepath` on a Unix host: `Base`, `Clean` and `Join`. A
 * path is split on `/`; cleaning drops empty and `.` elements, lets `..`
 * cancel the element before it, and drops `..` at the root.
 */
module Paths {
  import opened Text

  /** A path element that cleaning leaves alone: non-empty, no `/`, not `.` or `..`. */
  predicate NormalSegment(s: string) {
    |s| > 0 && '/' !in s && s != "." && s != ".."
  }

  /** Removes every trailing `/`. */
  function StripTrailingSlashes(p: string): (r: string)
    ensures |r| <= |p| && r == p[..|r|]
    ensures |r| > 0 ==> r[|r| - 1] != '/'
    ensures forall k :: |r| <= k < |p| ==> p[k] == '/'
    decreases |p|
  {
    if |p| > 0 && p[|p| - 1] == '/' then StripTrailingSlashes(p[..|p| - 1]) else p
  }

  /** A string that does not end in the separator has a non-empty last piece. */
  lemma {:induction false} LastPieceNonEmpty(q: string)
    requires |q| > 0 && q[|q| - 1] != '/'
    ensures var parts := Split(q, '/'); parts[|parts| - 1] != ""
    decreases |q|
  {
    if |q| > 1 {
      assert q[1..][|q| - 2] == q[|q| - 1];
      LastPieceNonEmpty(q[1..]);
    }
  }

  /**
   * `filepath.Base`: the last element of the path after trailing slashes
   * are removed; `"."` for the empty path and `"/"` for a path of slashes.
   */
  function Base(p: string): (r: string)
    ensures r != ""
    ensures r == "/" || '/' !in r
  {
    if p == "" then "."
    else
      var q := StripTrailingSlashes(p);
      if q == "" then "/"
      else
        var parts := Split(q, '/');
        LastPieceNonEmpty(q);
        parts[|parts| - 1]
  }

  /** One step of cleaning: how the element `part` changes the stack of kept elements. */
  function CleanStep(stack: seq<string>, part: string, rooted: bool): seq<string>
  {
    if part == "" || part == "." then stack
    else if part == ".." then
      if |stack| > 0 && stack[|stack| - 1] != ".." then stack[..|stack| - 1]
      else if rooted then stack
      else stack + [".."]
    else stack + [part]
  }

  /** The elements kept by cleaning, processing `parts` from left to right. */
  function CleanSegs(parts: seq<string>, rooted: bool): (r: seq<string>)
    ensures forall k :: 0 <= k < |r| ==> r[k] in parts && r[k] != "" && r[k] != "."
    decreases |parts|
  {
    if |parts| == 0 then []
    else CleanStep(CleanSegs(parts[..|parts| - 1], rooted), parts[|parts| - 1], rooted)
  }

  /** `filepath.Clean`: the shortest equivalent path, by purely lexical processing. */
  function Clean(p: string): (r: string)
    ensures r != ""
  {
    if p == "" then "."
    else
      var rooted := p[0] == '/';
      var body := Join(CleanSegs(Split(p, '/'), rooted), '/');
      if rooted then "/" + body
      else if body == "" then "."
      else body
  }

  /** `filepath.Join`: joins the elements from the first non-empty one on, then cleans. */
  function JoinPath(elems: seq<string>): string
    decreases |elems|
  {
    if |elems| == 0 then ""
    else if elems[0] == "" then JoinPath(elems[1..])
    else Clean(Join(elems, '/'))
  }

  /** Normal elements after a prefix are all kept, in order. */
  lemma {:induction false} CleanSegsNormal(pre: seq<string>, segs: seq<string>, rooted: bool)
    requires forall k :: 0 <= k < |segs| ==> NormalSegment(segs[k])
    ensures CleanSegs(pre + segs, rooted) == CleanSegs(pre, rooted) + segs
    decreases |segs|
  {
    if |segs| == 0 {
      assert pre + segs == pre;
    } else {
      var n := |segs|;
      var all := pre + segs;
      assert all[..|all| - 1] == pre + segs[..n - 1];
      assert all[|all| - 1] == segs[n - 1];
      CleanSegsNormal(pre, segs[..n - 1], rooted);
      assert segs[..n - 1] + [segs[n - 1]] == segs;
    }
  }

  /** Appending a separator-free piece after a separator adds one piece to a split. */
  lemma SplitSnoc(x: string, y: string, sep: char)
    requires sep !in y
    ensures Split(x + [sep] + y, sep) == Split(x, sep) + [y]
  {
    var p := Split(x, sep);
    var q := p + [y];
    JoinSplit(x, sep);
    JoinSnoc(q, sep);
    assert q[..|q| - 1] == p;
    SplitJoin(q, sep);
  }

  /** A separator followed by a joined list splits into an empty piece and the list. */
  lemma SplitRooted(l: seq<string>, sep: char)
    requires |l| >= 1
    requires forall k :: 0 <= k < |l| ==> sep !in l[k]
    ensures Split([sep] + Join(l, sep), sep) == [""] + l
  {
    var q := [""] + l;
    assert q[1..] == l;
    assert Join(q, sep) == "" + [sep] + Join(l, sep);
    assert "" + [sep] + Join(l, sep) == [sep] + Join(l, sep);
    SplitJoin(q, sep);
  }

  /** A joined list whose last piece is `name` ends with `name`. */
  lemma JoinEndsWith(l: seq<string>, sep: char)
    requires |l| >= 1
    ensures var j := Join(l, sep); var name := l[|l| - 1];
            |name| <= |j| && j[|j| - |name|..] == name
  {
    if |l| >= 2 {
      JoinSnoc(l, sep);
    }
  }

  /** The base of a path whose pieces are `pieces`, the last one non-empty, is that last piece. */
  lemma BaseOfPieces(x: string, pieces: seq<string>)
    requires |pieces| >= 1 && Split(x, '/') == pieces
    requires pieces[|pieces| - 1] != ""
    ensures Base(x) == pieces[|pieces| - 1]
  {
    var name := pieces[|pieces| - 1];
    JoinSplit(x, '/');
    JoinEndsWith(pieces, '/');
    assert x[|x| - 1] == name[|name| - 1];
    assert '/' !in name;
    assert x != "";
    assert StripTrailingSlashes(x) == x;
  }

  /** An empty directory is skipped: joining it with a name cleans the name. */
  lemma JoinPathAfterEmpty(name: string)
    requires name != ""
    ensures JoinPath(["", name]) == Clean(name)
  {
    assert ["", name][1..] == [name];
    assert JoinPath(["", name]) == JoinPath([name]);
    assert Join([name], '/') == name;
  }

  /**
   * Joining a non-empty directory and a normal name cleans the directory's
   * elements and appends the name.
   */
  lemma JoinPathSnoc(dir: string, name: string)
    requires dir != "" && NormalSegment(name)
    ensures var l := CleanSegs(Split(dir, '/'), dir[0] == '/') + [name];
            JoinPath([dir, name]) == if dir[0] == '/' then "/" + Join(l, '/') else Join(l, '/')
  {
    var p := dir + "/" + name;
    assert Join([dir, name], '/') == p;
    assert JoinPath([dir, name]) == Clean(p);
    assert p[0] == dir[0];
    var rooted := dir[0] == '/';
    SplitSnoc(dir, name, '/');
    var pre := Split(dir, '/');
    CleanSegsNormal(pre, [name], rooted);
    var l := CleanSegs(pre, rooted) + [name];
    assert CleanSegs(Split(p, '/'), rooted) == l;
    JoinEndsWith(l, '/');
    assert Join(l, '/') != "";
  }

  /** A normal name on its own is already clean. */
  lemma CleanNormal(name: string)
    requires NormalSegment(name)
    ensures Clean(name) == name
  {
    SplitJoin([name], '/');
    assert Split(name, '/') == [name];
    CleanSegsNormal([], [name], false);
    assert [] + [name] == [name];
    assert CleanSegs([name], false) == [name];
  }

  /** Joining a directory and a normal file name yields a path whose base is that name. */
  lemma BaseOfJoinPath(dir: string, name: string)
    requires NormalSegment(name)
    ensures Base(JoinPath([dir, name])) == name
  {
    if dir == "" {
      JoinPathAfterEmpty(name);
      CleanNormal(name);
      SplitJoin([name], '/');
      BaseOfPieces(name, [name]);
    } else {
      JoinPathSnoc(dir, name);
      var l := CleanSegs(Split(dir, '/'), dir[0] == '/') + [name];
      assert forall k :: 0 <= k < |l| ==> '/' !in l[k];
      var body := Join(l, '/');
      JoinEndsWith(l, '/');
      if dir[0] == '/' {
        SplitRooted(l, '/');
        assert "/" + body == ['/'] + body;
        BaseOfPieces("/" + body, [""] + l);
      } else {
        SplitJoin(l, '/');
        BaseOfPieces(body, l);
      }
    }
  }

  /** Joining a directory and a normal file name yields a path that ends with that name. */
  lemma JoinPathEndsWith(dir: string, name: string)
    requires NormalSegment(name)
    ensures HasSuffix(JoinPath([dir, name]), name)
  {
    if dir == "" {
      JoinPathAfterEmpty(name);
      CleanNormal(name);
    } else {
      JoinPathSnoc(dir, name);
      var l := CleanSegs(Split(dir, '/'), dir[0] == '/') + [name];
      var body := Join(l, '/');
      JoinEndsWith(l, '/');
      assert body[|body| - |name|..] == name;
      if dir[0] == '/' {
        assert ("/" + body)[|"/" + body| - |name|..] == body[|body| - |name|..];
      }
    }
  }

  /** A rooted path of normal elements is already clean. */
  lemma CleanRootedNormal(segs: seq<string>)
    requires |segs| >= 1
    requires forall k :: 0 <= k < |segs| ==> NormalSegment(segs[k])
    ensures Clean("/" + Join(segs, '/')) == "/" + Join(segs, '/')
  {
    var p := "/" + Join(segs, '/');
    assert p == ['/'] + Join(segs, '/');
    SplitRooted(segs, '/');
    CleanSegsNormal([""], segs, true);
    assert CleanSegs([""], true) == [];
    assert [] + segs == segs;
  }

  /** Joining a rooted directory of normal elements with normal names is plain concatenation. */
  lemma JoinPathUnderRoot(dirSegs: seq<string>, names: seq<string>)
    requires |dirSegs| >= 1 && |names| >= 1
    requires forall k :: 0 <= k < |dirSegs| ==> NormalSegment(dirSegs[k])
    requires forall k :: 0 <= k < |names| ==> NormalSegment(names[k])
    ensures JoinPath(["/" + Join(dirSegs, '/')] + names) == "/" + Join(dirSegs + names, '/')
  {
    var all := dirSegs + names;
    var elems := ["/" + Join(dirSegs, '/')] + names;
    assert elems[0] != "";
    JoinPrefixed("/", dirSegs, names);
    assert Join(elems, '/') == "/" + Join(all, '/');
    CleanRootedNormal(all);
  }

  /** Joining lists is joining their joins, and a common prefix of the first piece factors out. */
  lemma {:induction false} JoinPrefixed(pre: string, a: seq<string>, b: seq<string>)
    requires |a| >= 1 && |b| >= 1
    ensures Join([pre + Join(a, '/')] + b, '/') == pre + Join(a + b, '/')
    decreases |a|
  {
    var e := [pre + Join(a, '/')] + b;
    assert e[1..] == b;
    assert Join(e, '/') == pre + Join(a, '/') + ['/'] + Join(b, '/');
    JoinConcat(a, b);
  }

  lemma {:induction false} JoinConcat(a: seq<string>, b: seq<string>)
    requires |a| >= 1 && |b| >= 1
    ensures Join(a + b, '/') == Join(a, '/') + ['/'] + Join(b, '/')
    decreases |a|
  {
    if |a| == 1 {
      assert (a + b)[1..] == b;
    } else {
      assert (a + b)[1..] == a[1..] + b;
      JoinConcat(a[1..], b);
    }
  }
}

=== FILE: payload.dfy ===
/**
 * Validation of an application payload checked out in a work directory:
 * the quick structure check that the build relies on, and the full check
 * that lists every problem. The file system is an oracle from paths to
 * what `os.Stat` reports.
 */
module Payload {
  import opened Base
  import Paths

  /** What `os.Stat` reports for a path. */
  datatype Stat = NotFound | StatFailed(cause: string) | Found(isDir: bool, mode: bv32)

  /** The permission bits `0111`: executable by someone. */
  const ExecBits: bv32 := 0x49

  /** A file mode with at least one execute bit. */
  predicate Executable(mode: bv32) {
    mode & ExecBits != 0
  }

  /** The result of code that may dereference a nil `FileInfo`. */
  datatype Outcome<T> = Returned(value: T) | Panicked

  /** The entries the structure check requires, in the order it reports them. */
  const StructureEntries: seq<string> := ["backend", "frontend", "k8s", "scripts/build.sh"]

  /** The build script, relative to the work directory. */
  const BuildScript: string := "scripts/build.sh"

  /** The entries whose `stat` says they do not exist, in order; other `stat` errors do not count. */
  function MissingAmong(entries: seq<string>, workDir: string, fs: string -> Stat): (r: seq<string>)
    ensures Subsequence(r, entries)
    ensures forall p :: p in r <==> p in entries && fs(Paths.JoinPath([workDir, p])) == NotFound
    decreases |entries|
  {
    if |entries| == 0 then []
    else
      var rest := MissingAmong(entries[1..], workDir, fs);
      assert forall p :: p in entries <==> p == entries[0] || p in entries[1..];
      if fs(Paths.JoinPath([workDir, entries[0]])) == NotFound then [entries[0]] + rest
      else rest
  }

  // ---------------------------------------------------------------------
  // Structure check
  // ---------------------------------------------------------------------

  /**
   * What the structure check did: the missing entries it reported (the
   * error), and whether it tried to `chmod 0755` the build script. A
   * failed `chmod` only warns, so its result does not matter.
   */
  datatype StructureReport = StructureReport(missing: Option<seq<string>>, chmodAttempted: bool)

  /**
   * `ValidateStructure` as written: after the presence check, the build
   * script is stat'ed again with the error ignored, and its mode is read
   * even when that `stat` failed.
   */
  function ValidateStructureAsWritten(workDir: string, fs: string -> Stat): (r: Outcome<StructureReport>)
    ensures r.Panicked? <==>
              MissingAmong(StructureEntries, workDir, fs) == []
              && fs(Paths.JoinPath([workDir, BuildScript])).StatFailed?
  {
    var missing := MissingAmong(StructureEntries, workDir, fs);
    if |missing| > 0 then Returned(StructureReport(Some(missing), false))
    else
      var st := fs(Paths.JoinPath([workDir, BuildScript]));
      if !st.Found? then Panicked
      else Returned(StructureReport(None, !Executable(st.mode)))
  }

  /** An unreadable build script crashes the structure check. */
  lemma StructureCheckCrashes(workDir: string, fs: string -> Stat)
    requires forall p :: p in StructureEntries[..3] ==> fs(Paths.JoinPath([workDir, p])).Found?
    requires fs(Paths.JoinPath([workDir, BuildScript])) == StatFailed("permission denied")
    ensures ValidateStructureAsWritten(workDir, fs) == Panicked
  {
    var missing := MissingAmong(StructureEntries, workDir, fs);
    assert forall p :: p in StructureEntries ==> p in StructureEntries[..3] || p == BuildScript;
    assert forall p :: p !in missing;
  }

  /**
   * `ValidateStructure` with the mode read only when the second `stat`
   * succeeded: an error listing the missing entries in order, or success,
   * with a `chmod` attempted exactly when the script has no execute bit.
   */
  function ValidateStructure(workDir: string, fs: string -> Stat): (r: StructureReport)
    ensures r.missing.Some? <==> exists p :: p in StructureEntries && fs(Paths.JoinPath([workDir, p])) == NotFound
    ensures r.missing.Some? ==> |r.missing.value| > 0 && Subsequence(r.missing.value, StructureEntries)
    ensures r.missing.Some? ==> forall p :: p in r.missing.value <==>
                                             p in StructureEntries && fs(Paths.JoinPath([workDir, p])) == NotFound
    ensures r.chmodAttempted <==>
              r.missing.None? && fs(Paths.JoinPath([workDir, BuildScript])).Found?
              && !Executable(fs(Paths.JoinPath([workDir, BuildScript])).mode)
  {
    var missing := MissingAmong(StructureEntries, workDir, fs);
    if |missing| > 0 then
      assert missing[0] in missing;
      StructureReport(Some(missing), false)
    else
      var st := fs(Paths.JoinPath([workDir, BuildScript]));
      StructureReport(None, st.Found? && !Executable(st.mode))
  }

  /** Where the written check returns, the corrected one returns the same report. */
  lemma StructureCorrectionAgrees(workDir: string, fs: string -> Stat)
    requires ValidateStructureAsWritten(workDir, fs).Returned?
    ensures ValidateStructureAsWritten(workDir, fs).value == ValidateStructure(workDir, fs)
  {
  }

  // ---------------------------------------------------------------------
  // Full validation
  // ---------------------------------------------------------------------

  /** What is wrong with a required entry; each carries the entry's description. */
  datatype Issue = MissingDirectory(desc: string) | NotADirectory(desc: string)
                 | MissingFile(desc: string) | NotExecutable

  /** `ValidationError`: the entry, relative to the work directory, and what is wrong with it. */
  datatype ValidationError = ValidationError(path: string, issue: Issue)

  /** The required directories and their descriptions. */
  const RequiredDirs: seq<(string, string)> := [
    ("backend", "Backend application code"),
    ("frontend", "Frontend application code"),
    ("k8s", "Kubernetes manifests"),
    ("scripts", "Build and deployment scripts")]

  /** The required files and their descriptions. */
  const RequiredFiles: seq<(string, string)> := [
    ("scripts/build.sh", "Build script for external builder"),
    ("backend/Dockerfile", "Backend Dockerfile"),
    ("frontend/Dockerfile", "Frontend Dockerfile"),
    ("k8s/namespace.yaml", "Kubernetes namespace manifest"),
    ("k8s/backend/deployment.yaml", "Backend deployment manifest"),
    ("k8s/frontend/deployment.yaml", "Frontend deployment manifest"),
    ("k8s/backend/service.yaml", "Backend service manifest"),
    ("k8s/frontend/service.yaml", "Frontend service manifest")]

  /** No element occurs twice. */
  predicate NoDuplicates<T(==)>(s: seq<T>) {
    forall i, j :: 0 <= i < j < |s| ==> s[i] != s[j]
  }

  /** No entry path is listed twice. */
  predicate DistinctEntries(entries: seq<(string, string)>) {
    forall i, j :: 0 <= i < j < |entries| ==> entries[i].0 != entries[j].0
  }

  /** Two duplicate-free sequences with no common element concatenate to a duplicate-free one. */
  lemma NoDuplicatesAppend<T>(a: seq<T>, b: seq<T>)
    requires NoDuplicates(a) && NoDuplicates(b)
    requires forall e :: e in a ==> e !in b
    ensures NoDuplicates(a + b)
  {
    forall i, j | 0 <= i < j < |a + b| ensures (a + b)[i] != (a + b)[j] {
      if i < |a| && j >= |a| {
        assert (a + b)[i] in a && (a + b)[j] == b[j - |a|];
      }
    }
  }

  /** `stat` of an entry under the work directory. */
  function StatOf(workDir: string, fs: string -> Stat, entry: string): Stat {
    fs(Paths.JoinPath([workDir, entry]))
  }

  /** The directory check finds fault with an entry: it is missing, or it is there and not a directory. */
  predicate DirFaulty(workDir: string, fs: string -> Stat, entry: string) {
    StatOf(workDir, fs, entry).NotFound? || (StatOf(workDir, fs, entry).Found? && !StatOf(workDir, fs, entry).isDir)
  }

  /** The issue the directory check reports for a faulty entry. */
  function DirIssue(workDir: string, fs: string -> Stat, d: (string, string)): ValidationError
    requires DirFaulty(workDir, fs, d.0)
  {
    if StatOf(workDir, fs, d.0).NotFound? then ValidationError(d.0, MissingDirectory(d.1))
    else ValidationError(d.0, NotADirectory(d.1))
  }

  /**
   * The directory checks as written: a missing entry, or one that exists
   * but is not a directory; when `stat` failed otherwise, the nil result
   * is dereferenced.
   */
  function DirIssuesAsWritten(dirs: seq<(string, string)>, workDir: string, fs: string -> Stat)
    : (r: Outcome<seq<ValidationError>>)
    ensures r.Panicked? <==> exists i :: 0 <= i < |dirs| && StatOf(workDir, fs, dirs[i].0).StatFailed?
    decreases |dirs|
  {
    if |dirs| == 0 then Returned([])
    else
      var st := StatOf(workDir, fs, dirs[0].0);
      var rest := DirIssuesAsWritten(dirs[1..], workDir, fs);
      assert forall i :: 0 < i < |dirs| ==> dirs[i] == dirs[1..][i - 1];
      if st.StatFailed? then Panicked
      else if rest.Panicked? then
        assert StatOf(workDir, fs, dirs[1..][0].0).StatFailed? || exists i :: 0 <= i < |dirs[1..]| && StatOf(workDir, fs, dirs[1..][i].0).StatFailed?;
        Panicked
      else if st.NotFound? then Returned([ValidationError(dirs[0].0, MissingDirectory(dirs[0].1))] + rest.value)
      else if !st.isDir then Returned([ValidationError(dirs[0].0, NotADirectory(dirs[0].1))] + rest.value)
      else rest
  }

  /**
   * The directory checks with the entry inspected only when `stat`
   * succeeded: one issue per faulty entry, in order.
   */
  function DirIssues(dirs: seq<(string, string)>, workDir: string, fs: string -> Stat)
    : (r: seq<ValidationError>)
    ensures |r| <= |dirs|
    ensures forall i :: 0 <= i < |dirs| && DirFaulty(workDir, fs, dirs[i].0) ==> DirIssue(workDir, fs, dirs[i]) in r
    ensures forall e :: e in r ==> exists i :: 0 <= i < |dirs| && DirFaulty(workDir, fs, dirs[i].0)
                                             && e == DirIssue(workDir, fs, dirs[i])
    decreases |dirs|
  {
    if |dirs| == 0 then []
    else
      var rest := DirIssues(dirs[1..], workDir, fs);
      assert forall i :: 0 < i < |dirs| ==> dirs[i] == dirs[1..][i - 1];
      if DirFaulty(workDir, fs, dirs[0].0) then [DirIssue(workDir, fs, dirs[0])] + rest
      else rest
  }

  /** Directories listed once each get at most one issue each. */
  lemma {:induction false} DirIssuesNoDuplicates(dirs: seq<(string, string)>, workDir: string, fs: string -> Stat)
    requires DistinctEntries(dirs)
    ensures NoDuplicates(DirIssues(dirs, workDir, fs))
    decreases |dirs|
  {
    if |dirs| > 0 {
      var rest := DirIssues(dirs[1..], workDir, fs);
      DistinctTail(dirs);
      DirIssuesNoDuplicates(dirs[1..], workDir, fs);
      if DirFaulty(workDir, fs, dirs[0].0) {
        var e := DirIssue(workDir, fs, dirs[0]);
        forall x | x in rest ensures x != e {
          var i :| 0 <= i < |dirs[1..]| && DirFaulty(workDir, fs, dirs[1..][i].0)
                   && x == DirIssue(workDir, fs, dirs[1..][i]);
          assert x.path == dirs[i + 1].0;
        }
        NoDuplicatesAppend([e], rest);
      }
    }
  }

  /** One issue per missing file, in order. */
  function FileIssues(files: seq<(string, string)>, workDir: string, fs: string -> Stat)
    : (r: seq<ValidationError>)
    ensures |r| <= |files|
    ensures forall i :: 0 <= i < |files| && StatOf(workDir, fs, files[i].0).NotFound?
                        ==> ValidationError(files[i].0, MissingFile(files[i].1)) in r
    ensures forall e :: e in r ==> exists i :: 0 <= i < |files| && StatOf(workDir, fs, files[i].0).NotFound?
                                             && e == ValidationError(files[i].0, MissingFile(files[i].1))
    decreases |files|
  {
    if |files| == 0 then []
    else
      var rest := FileIssues(files[1..], workDir, fs);
      assert forall i :: 0 < i < |files| ==> files[i] == files[1..][i - 1];
      if StatOf(workDir, fs, files[0].0).NotFound? then
        [ValidationError(files[0].0, MissingFile(files[0].1))] + rest
      else rest
  }

  /** Files listed once each get at most one issue each. */
  lemma {:induction false} FileIssuesNoDuplicates(files: seq<(string, string)>, workDir: string, fs: string -> Stat)
    requires DistinctEntries(files)
    ensures NoDuplicates(FileIssues(files, workDir, fs))
    decreases |files|
  {
    if |files| > 0 {
      var rest := FileIssues(files[1..], workDir, fs);
      DistinctTail(files);
      FileIssuesNoDuplicates(files[1..], workDir, fs);
      if StatOf(workDir, fs, files[0].0).NotFound? {
        var e := ValidationError(files[0].0, MissingFile(files[0].1));
        forall x | x in rest ensures x != e {
          var i :| 0 <= i < |files[1..]| && StatOf(workDir, fs, files[1..][i].0).NotFound?
                   && x == ValidationError(files[1..][i].0, MissingFile(files[1..][i].1));
          assert x.path == files[i + 1].0;
        }
        NoDuplicatesAppend([e], rest);
      }
    }
  }

  lemma DistinctTail(entries: seq<(string, string)>)
    requires |entries| > 0 && DistinctEntries(entries)
    ensures DistinctEntries(entries[1..])
  {
    forall i, j | 0 <= i < j < |entries[1..]| ensures entries[1..][i].0 != entries[1..][j].0 {
      assert entries[1..][i] == entries[i + 1] && entries[1..][j] == entries[j + 1];
    }
  }

  /** The executable check: only a build script that exists and has no execute bit is reported. */
  function ExecIssue(workDir: string, fs: string -> Stat): (r: seq<ValidationError>)
    ensures |r| <= 1
    ensures r != [] <==> StatOf(workDir, fs, BuildScript).Found? && !Executable(StatOf(workDir, fs, BuildScript).mode)
    ensures forall e :: e in r ==> e == ValidationError(BuildScript, NotExecutable)
  {
    var st := StatOf(workDir, fs, BuildScript);
    if st.Found? && !Executable(st.mode) then [ValidationError(BuildScript, NotExecutable)] else []
  }

  /**
   * `ValidatePayload` as written: the directory checks may dereference a
   * nil result; otherwise the issues of all three checks.
   */
  function ValidatePayloadAsWritten(workDir: string, fs: string -> Stat): (r: Outcome<seq<ValidationError>>)
    ensures r.Panicked? <==> exists i :: 0 <= i < |RequiredDirs| && StatOf(workDir, fs, RequiredDirs[i].0).StatFailed?
  {
    var dirs := DirIssuesAsWritten(RequiredDirs, workDir, fs);
    if dirs.Panicked? then Panicked
    else Returned(dirs.value + FileIssues(RequiredFiles, workDir, fs) + ExecIssue(workDir, fs))
  }

  /** An unreadable `k8s` directory crashes the full validation. */
  lemma PayloadCheckCrashes(workDir: string, fs: string -> Stat)
    requires StatOf(workDir, fs, "k8s") == StatFailed("permission denied")
    ensures ValidatePayloadAsWritten(workDir, fs) == Panicked
  {
    assert RequiredDirs[2].0 == "k8s";
  }

  /**
   * `ValidatePayload` with entries inspected only when `stat` succeeded.
   * The source iterates over Go maps, so the order of the issues is not
   * specified: the contract speaks only of which issues occur.
   */
  function ValidatePayload(workDir: string, fs: string -> Stat): (r: seq<ValidationError>)
    ensures forall i :: 0 <= i < |RequiredDirs| && DirFaulty(workDir, fs, RequiredDirs[i].0)
                        ==> DirIssue(workDir, fs, RequiredDirs[i]) in r
    ensures forall i :: 0 <= i < |RequiredFiles| && StatOf(workDir, fs, RequiredFiles[i].0).NotFound?
                        ==> ValidationError(RequiredFiles[i].0, MissingFile(RequiredFiles[i].1)) in r
    ensures StatOf(workDir, fs, BuildScript).Found? && !Executable(StatOf(workDir, fs, BuildScript).mode)
            ==> ValidationError(BuildScript, NotExecutable) in r
    ensures forall e :: e in r ==>
              (exists i :: 0 <= i < |RequiredDirs| && DirFaulty(workDir, fs, RequiredDirs[i].0)
                           && e == DirIssue(workDir, fs, RequiredDirs[i]))
              || (exists i :: 0 <= i < |RequiredFiles| && StatOf(workDir, fs, RequiredFiles[i].0).NotFound?
                              && e == ValidationError(RequiredFiles[i].0, MissingFile(RequiredFiles[i].1)))
              || (e == ValidationError(BuildScript, NotExecutable)
                  && StatOf(workDir, fs, BuildScript).Found? && !Executable(StatOf(workDir, fs, BuildScript).mode))
    ensures |r| <= |RequiredDirs| + |RequiredFiles| + 1
    ensures NoDuplicates(r)
  {
    var d := DirIssues(RequiredDirs, workDir, fs);
    var f := FileIssues(RequiredFiles, workDir, fs);
    var x := ExecIssue(workDir, fs);
    assert forall e :: e in d + f + x <==> e in d || e in f || e in x;
    RequiredEntriesDistinct();
    DirIssuesNoDuplicates(RequiredDirs, workDir, fs);
    FileIssuesNoDuplicates(RequiredFiles, workDir, fs);
    IssueGroupsNoDuplicates(d, f, x);
    d + f + x
  }

  /** Directory, file and permission issues never coincide, so their concatenation repeats none. */
  lemma IssueGroupsNoDuplicates(d: seq<ValidationError>, f: seq<ValidationError>, x: seq<ValidationError>)
    requires NoDuplicates(d) && NoDuplicates(f) && |x| <= 1
    requires forall e :: e in d ==> e.issue.MissingDirectory? || e.issue.NotADirectory?
    requires forall e :: e in f ==> e.issue.MissingFile?
    requires forall e :: e in x ==> e.issue.NotExecutable?
    ensures NoDuplicates(d + f + x)
  {
    NoDuplicatesAppend(d, f);
    assert forall e :: e in d + f ==> e in d || e in f;
    NoDuplicatesAppend(d + f, x);
  }

  /** No required directory or file is listed twice. */
  lemma RequiredEntriesDistinct()
    ensures DistinctEntries(RequiredDirs) && DistinctEntries(RequiredFiles)
  {
  }

  /** The full validation reports nothing exactly when every check passes. */
  lemma ValidatePayloadEmptyIff(workDir: string, fs: string -> Stat)
    ensures ValidatePayload(workDir, fs) == [] <==>
              && (forall i :: 0 <= i < |RequiredDirs| ==> !DirFaulty(workDir, fs, RequiredDirs[i].0))
              && (forall i :: 0 <= i < |RequiredFiles| ==> !StatOf(workDir, fs, RequiredFiles[i].0).NotFound?)
              && !(StatOf(workDir, fs, BuildScript).Found? && !Executable(StatOf(workDir, fs, BuildScript).mode))
  {
    var r := ValidatePayload(workDir, fs);
    if r != [] {
      assert r[0] in r;
    }
  }

  /** Where the written validation returns, the corrected one returns the same issues. */
  lemma PayloadCorrectionAgrees(workDir: string, fs: string -> Stat)
    requires ValidatePayloadAsWritten(workDir, fs).Returned?
    ensures ValidatePayloadAsWritten(workDir, fs).value == ValidatePayload(workDir, fs)
  {
    DirsAgree(RequiredDirs, workDir, fs);
  }

  /** Without failed `stat`s the two directory checks coincide. */
  lemma {:induction false} DirsAgree(dirs: seq<(string, string)>, workDir: string, fs: string -> Stat)
    requires DirIssuesAsWritten(dirs, workDir, fs).Returned?
    ensures DirIssuesAsWritten(dirs, workDir, fs).value == DirIssues(dirs, workDir, fs)
    decreases |dirs|
  {
    if |dirs| > 0 {
      DirsAgree(dirs[1..], workDir, fs);
    }
  }
}

=== FILE: prereq.dfy ===
/**
 * Prerequisite checks: the results they record, the failure aggregate,
 * the hand-written substring test that classifies a failed command's
 * output, the free-space arithmetic, the per-tool checks with the
 * command line each one runs, and the check plans of the commands.
 * Running a command, `statfs` and `stat` are oracles.
 */
module Prereq {
  import opened Base
  import opened Text

  // ---------------------------------------------------------------------
  // Results
  // ---------------------------------------------------------------------

  /** `"pass"`, `"fail"` or `"warning"`. */
  datatype Status = Pass | Fail | Warning

  /** The message of a result, by kind (the guidance text around it is not modelled). */
  datatype Message =
    | DockerRunning | DockerPermissionDenied | DockerDaemonDown | DockerNotInstalled
    | DockerInaccessible(cause: string)
    | K0sRunning | K0sPermissionDenied | K0sNotInstalled | K0sNotRunning(cause: string)
    | KubectlVerified | KubectlPermissionOrTimeout | ApiServerUnreachable
    | ClusterInaccessible(cause: string)
    | NamespaceExists(namespace: string) | NamespaceMissing(namespace: string)
    | GitInstalled | GitMissing
    | DiskUnknown(cause: string) | DiskLow(availableGB: nat, recommendedGB: nat)
    | DiskAvailable(availableGB: nat)
    | WorkDirExists(dir: string) | WorkDirMissing(dir: string)
    | HostReachable(host: string) | HostUnreachable(host: string)

  /** One recorded check. */
  datatype CheckResult = CheckResult(name: string, status: Status, message: Message, required: bool)

  /** The results recorded so far, in the order the checks ran (the logger is left out). */
  datatype Checker = Checker(results: seq<CheckResult>)

  /** A result that makes the whole check fail: a required check that failed. */
  predicate Blocking(r: CheckResult) {
    r.required && r.status == Fail
  }

  /** Some recorded result is blocking. */
  predicate HasFailures(c: Checker) {
    exists i :: 0 <= i < |c.results| && Blocking(c.results[i])
  }

  /** `NewChecker`: nothing recorded, so nothing failed. */
  function NewChecker(): (c: Checker)
    ensures |c.results| == 0 && !HasFailures(c)
  {
    Checker([])
  }

  /** `HasFailures` as the source writes it: a scan that stops at the first blocking result. */
  method ScanForFailures(c: Checker) returns (failed: bool)
    ensures failed <==> HasFailures(c)
  {
    var i := 0;
    while i < |c.results|
      invariant 0 <= i <= |c.results|
      invariant forall k :: 0 <= k < i ==> !Blocking(c.results[k])
    {
      if Blocking(c.results[i]) {
        return true;
      }
      i := i + 1;
    }
    return false;
  }

  /** `after` is `before` with exactly one more result at the end. */
  predicate AddedOne(before: Checker, after: Checker) {
    |after.results| == |before.results| + 1 && after.results[..|before.results|] == before.results
  }

  /** The most recently recorded result. */
  function Last(c: Checker): CheckResult
    requires |c.results| > 0
  {
    c.results[|c.results| - 1]
  }

  /** `AddResult`: appends, keeping every earlier result in place. */
  function AddResult(c: Checker, r: CheckResult): (after: Checker)
    ensures AddedOne(c, after) && Last(after) == r
  {
    Checker(c.results + [r])
  }

  /** Adding a result fails the checker exactly when it was failed already or the new result blocks. */
  lemma AddResultFailures(c: Checker, r: CheckResult)
    ensures HasFailures(AddResult(c, r)) <==> HasFailures(c) || Blocking(r)
  {
    var after := AddResult(c, r);
    if Blocking(r) {
      assert Blocking(after.results[|c.results|]);
    }
    if HasFailures(c) {
      var i :| 0 <= i < |c.results| && Blocking(c.results[i]);
      assert after.results[i] == c.results[i];
    }
  }

  // ---------------------------------------------------------------------
  // Substring search
  // ---------------------------------------------------------------------

  /** `stringContains` from offset `i` on: tries each offset up to `|s| - |sub|` in turn. */
  function ScanFrom(s: string, sub: string, i: nat): bool
    decreases |s| - i
  {
    if i + |sub| > |s| then false
    else if s[i..i + |sub|] == sub then true
    else ScanFrom(s, sub, i + 1)
  }

  /** `contains`: a length guard and two shortcuts in front of the scan. */
  function HasSubstring(s: string, sub: string): bool {
    |s| >= |sub| && (s == sub || |sub| == 0 || (|s| > 0 && |sub| > 0 && ScanFrom(s, sub, 0)))
  }

  /** The scan from `i` finds exactly the occurrences at offsets `i` and later. */
  lemma {:induction false} ScanFromFinds(s: string, sub: string, i: nat)
    ensures ScanFrom(s, sub, i) <==> exists j :: i <= j <= |s| - |sub| && OccursAt(s, sub, j)
    decreases |s| - i
  {
    if i + |sub| > |s| {
    } else if s[i..i + |sub|] == sub {
      assert OccursAt(s, sub, i);
    } else {
      ScanFromFinds(s, sub, i + 1);
      assert !OccursAt(s, sub, i);
    }
  }

  /** The hand-written test agrees with `strings.Contains`, so the empty string is always contained. */
  lemma HasSubstringIsContains(s: string, sub: string)
    ensures HasSubstring(s, sub) <==> Contains(s, sub)
  {
    ScanFromFinds(s, sub, 0);
    if |sub| == 0 {
      ContainsEmpty(s);
    }
    if s == sub {
      assert OccursAt(s, sub, 0);
    }
  }

  // ---------------------------------------------------------------------
  // Commands
  // ---------------------------------------------------------------------

  /** What running a command gave: success, or its combined output and error. */
  datatype Run = Succeeded | Failed(output: string, cause: string)

  /** The command line, behind `sudo` when asked. */
  function Sudo(useSudo: bool, argv: seq<string>): seq<string> {
    if useSudo then ["sudo"] + argv else argv
  }

  function DockerArgv(useSudo: bool): seq<string> { Sudo(useSudo, ["docker", "info"]) }
  function K0sArgv(useSudo: bool): seq<string> { Sudo(useSudo, ["k0s", "status"]) }
  function NodesArgv(useSudo: bool): seq<string> { Sudo(useSudo, ["k0s", "kubectl", "get", "nodes"]) }
  function NamespaceArgv(useSudo: bool, namespace: string): seq<string> {
    Sudo(useSudo, ["k0s", "kubectl", "get", "namespace", namespace])
  }
  const GitArgv: seq<string> := ["git", "--version"]
  function PingArgv(host: string): seq<string> { ["ping", "-c", "1", "-W", "2", host] }

  // ---------------------------------------------------------------------
  // Tool checks
  // ---------------------------------------------------------------------

  /**
   * The diagnosis of a failed `docker info`, first match wins: a
   * permission or socket problem (only without sudo), a stopped daemon,
   * a missing binary, anything else.
   */
  function DockerFailure(useSudo: bool, output: string, cause: string): (m: Message)
    ensures m == DockerPermissionDenied <==>
              !useSudo && (Contains(output, "permission denied")
                           || Contains(output, "connect to the Docker daemon socket"))
    ensures m == DockerDaemonDown <==>
              m != DockerPermissionDenied
              && (Contains(output, "Cannot connect") || Contains(output, "Is the docker daemon running"))
    ensures m == DockerNotInstalled <==>
              m != DockerPermissionDenied && m != DockerDaemonDown
              && (Contains(output, "command not found") || Contains(output, "No such file"))
    ensures m != DockerPermissionDenied && m != DockerDaemonDown && m != DockerNotInstalled
            <==> m == DockerInaccessible(cause)
  {
    HasSubstringIsContains(output, "permission denied");
    HasSubstringIsContains(output, "connect to the Docker daemon socket");
    HasSubstringIsContains(output, "Cannot connect");
    HasSubstringIsContains(output, "Is the docker daemon running");
    HasSubstringIsContains(output, "command not found");
    HasSubstringIsContains(output, "No such file");
    if !useSudo && (HasSubstring(output, "permission denied")
                    || HasSubstring(output, "connect to the Docker daemon socket"))
    then DockerPermissionDenied
    else if HasSubstring(output, "Cannot connect") || HasSubstring(output, "Is the docker daemon running")
    then DockerDaemonDown
    else if HasSubstring(output, "command not found") || HasSubstring(output, "No such file")
    then DockerNotInstalled
    else DockerInaccessible(cause)
  }

  /** `CheckDocker`: a required check that passes exactly when `docker info` succeeds. */
  function CheckDocker(c: Checker, useSudo: bool, exec: seq<string> -> Run): (after: Checker)
    ensures AddedOne(c, after)
    ensures Last(after).name == "Docker" && Last(after).required
    ensures Last(after).status == Pass <==> exec(DockerArgv(useSudo)).Succeeded?
    ensures Last(after).status != Warning
    ensures Last(after).status == Fail ==>
              Last(after).message == DockerFailure(useSudo, exec(DockerArgv(useSudo)).output,
                                                   exec(DockerArgv(useSudo)).cause)
  {
    var run := exec(DockerArgv(useSudo));
    if run.Failed? then AddResult(c, CheckResult("Docker", Fail, DockerFailure(useSudo, run.output, run.cause), true))
    else AddResult(c, CheckResult("Docker", Pass, DockerRunning, true))
  }

  /** The diagnosis of a failed `k0s status`: permission (only without sudo), missing binary, anything else. */
  function K0sFailure(useSudo: bool, output: string, cause: string): (m: Message)
    ensures m == K0sPermissionDenied <==> !useSudo && Contains(output, "permission denied")
    ensures m == K0sNotInstalled <==>
              m != K0sPermissionDenied
              && (Contains(output, "command not found") || Contains(output, "No such file"))
    ensures m != K0sPermissionDenied && m != K0sNotInstalled <==> m == K0sNotRunning(cause)
  {
    HasSubstringIsContains(output, "permission denied");
    HasSubstringIsContains(output, "command not found");
    HasSubstringIsContains(output, "No such file");
    if !useSudo && HasSubstring(output, "permission denied") then K0sPermissionDenied
    else if HasSubstring(output, "command not found") || HasSubstring(output, "No such file")
    then K0sNotInstalled
    else K0sNotRunning(cause)
  }

  /** `CheckK0s`: a required check that passes exactly when `k0s status` succeeds. */
  function CheckK0s(c: Checker, useSudo: bool, exec: seq<string> -> Run): (after: Checker)
    ensures AddedOne(c, after)
    ensures Last(after).name == "k0s" && Last(after).required
    ensures Last(after).status == Pass <==> exec(K0sArgv(useSudo)).Succeeded?
    ensures Last(after).status != Warning
    ensures Last(after).status == Fail ==>
              Last(after).message == K0sFailure(useSudo, exec(K0sArgv(useSudo)).output,
                                                exec(K0sArgv(useSudo)).cause)
  {
    var run := exec(K0sArgv(useSudo));
    if run.Failed? then AddResult(c, CheckResult("k0s", Fail, K0sFailure(useSudo, run.output, run.cause), true))
    else AddResult(c, CheckResult("k0s", Pass, K0sRunning, true))
  }

  /**
   * The diagnosis of a failed `k0s kubectl get nodes`. Without sudo, a
   * permission problem or a dial that timed out comes first (`&&` binds
   * tighter than `||`); then a refused connection or any dial; then
   * anything else.
   */
  function KubectlFailure(useSudo: bool, output: string, cause: string): (m: Message)
    ensures m == KubectlPermissionOrTimeout <==>
              !useSudo && (Contains(output, "permission denied")
                           || (Contains(output, "dial") && Contains(output, "timeout")))
    ensures m == ApiServerUnreachable <==>
              m != KubectlPermissionOrTimeout
              && (Contains(output, "connection refused") || Contains(output, "dial"))
    ensures m != KubectlPermissionOrTimeout && m != ApiServerUnreachable <==> m == ClusterInaccessible(cause)
  {
    HasSubstringIsContains(output, "permission denied");
    HasSubstringIsContains(output, "dial");
    HasSubstringIsContains(output, "timeout");
    HasSubstringIsContains(output, "connection refused");
    if !useSudo && (HasSubstring(output, "permission denied")
                    || (HasSubstring(output, "dial") && HasSubstring(output, "timeout")))
    then KubectlPermissionOrTimeout
    else if HasSubstring(output, "connection refused") || HasSubstring(output, "dial")
    then ApiServerUnreachable
    else ClusterInaccessible(cause)
  }

  /**
   * `CheckK0sKubectl`: a required `kubectl` result; when it passes and a
   * namespace is named, an advisory `Namespace` result follows, a warning
   * when `get namespace` fails.
   */
  function CheckK0sKubectl(c: Checker, useSudo: bool, namespace: string,
                           exec: seq<string> -> Run): (after: Checker)
    ensures var n := |c.results|;
            && |after.results| == n + (if exec(NodesArgv(useSudo)).Succeeded? && namespace != "" then 2 else 1)
            && after.results[..n] == c.results
            && after.results[n].name == "kubectl" && after.results[n].required
            && (after.results[n].status == Pass <==> exec(NodesArgv(useSudo)).Succeeded?)
            && after.results[n].status != Warning
    ensures exec(NodesArgv(useSudo)).Failed? ==>
              Last(after).message == KubectlFailure(useSudo, exec(NodesArgv(useSudo)).output,
                                                    exec(NodesArgv(useSudo)).cause)
    ensures exec(NodesArgv(useSudo)).Succeeded? && namespace != "" ==>
              && Last(after).name == "Namespace" && !Last(after).required
              && (Last(after).status == Pass <==> exec(NamespaceArgv(useSudo, namespace)).Succeeded?)
              && Last(after).status != Fail
              && Last(after).message
                 == (if exec(NamespaceArgv(useSudo, namespace)).Succeeded? then NamespaceExists(namespace)
                     else NamespaceMissing(namespace))
  {
    var run := exec(NodesArgv(useSudo));
    if run.Failed? then
      AddResult(c, CheckResult("kubectl", Fail, KubectlFailure(useSudo, run.output, run.cause), true))
    else
      var c1 := AddResult(c, CheckResult("kubectl", Pass, KubectlVerified, true));
      if namespace == "" then c1
      else if exec(NamespaceArgv(useSudo, namespace)).Failed? then
        AddResult(c1, CheckResult("Namespace", Warning, NamespaceMissing(namespace), false))
      else AddResult(c1, CheckResult("Namespace", Pass, NamespaceExists(namespace), false))
  }

  /** `CheckGit`: a required check that passes exactly when `git --version` succeeds. */
  function CheckGit(c: Checker, exec: seq<string> -> Run): (after: Checker)
    ensures AddedOne(c, after)
    ensures Last(after).name == "Git" && Last(after).required
    ensures Last(after).status == Pass <==> exec(GitArgv).Succeeded?
    ensures Last(after).status != Warning
  {
    if exec(GitArgv).Failed? then AddResult(c, CheckResult("Git", Fail, GitMissing, true))
    else AddResult(c, CheckResult("Git", Pass, GitInstalled, true))
  }

  // ---------------------------------------------------------------------
  // Advisory checks
  // ---------------------------------------------------------------------

  /** What `statfs` reports: available blocks (`uint64`) and the block size (`int64`). */
  datatype FsStat = FsStat(bavail: uint64, bsize: int64)

  /** Bytes in a GiB. */
  const GiB: nat := 1024 * 1024 * 1024

  /**
   * Whole GiB available: the block count times the block size converted
   * to `uint64`, wrapping modulo 2^64, divided by 2^30 rounding down.
   */
  function AvailableGB(st: FsStat): (gb: uint64)
    ensures gb < 0x4_0000_0000
    ensures 0 <= st.bsize && st.bavail * st.bsize < Uint64Modulus ==> gb == st.bavail * st.bsize / GiB
  {
    var bytes := (st.bavail * (st.bsize % Uint64Modulus)) % Uint64Modulus;
    bytes / GiB
  }

  /** A volume of exactly `n` GiB counts as `n`; one 4 KiB block less counts as `n - 1`. */
  lemma AvailableGBRoundsDown(n: nat)
    requires 1 <= n < 0x4_0000_0000
    ensures AvailableGB(FsStat(n * 262144, 4096)) == n
    ensures AvailableGB(FsStat(n * 262144 - 1, 4096)) == n - 1
  {
    assert (n * 262144) * 4096 == n * GiB;
    assert (n * 262144 - 1) * 4096 == (n - 1) * GiB + (GiB - 4096);
  }

  /**
   * `CheckDiskSpace`: an advisory check; a warning when `statfs` fails or
   * fewer than `minGB` whole GiB are available, a pass otherwise.
   */
  function CheckDiskSpace(c: Checker, path: string, minGB: uint64,
                          statfs: string -> Result<FsStat, string>): (after: Checker)
    ensures AddedOne(c, after)
    ensures Last(after).name == "Disk Space" && !Last(after).required
    ensures Last(after).status == Warning <==> statfs(path).Err? || AvailableGB(statfs(path).value) < minGB
    ensures Last(after).status != Fail
    ensures statfs(path).Ok? ==>
              Last(after).message == (if AvailableGB(statfs(path).value) < minGB
                                      then DiskLow(AvailableGB(statfs(path).value), minGB)
                                      else DiskAvailable(AvailableGB(statfs(path).value)))
  {
    var st := statfs(path);
    if st.Err? then AddResult(c, CheckResult("Disk Space", Warning, DiskUnknown(st.error), false))
    else
      var gb := AvailableGB(st.value);
      if gb < minGB then AddResult(c, CheckResult("Disk Space", Warning, DiskLow(gb, minGB), false))
      else AddResult(c, CheckResult("Disk Space", Pass, DiskAvailable(gb), false))
  }

  /** How `os.Stat` failed: the path does not exist, or some other error. */
  datatype StatError = NotExist | OtherStatError(cause: string)

  /**
   * `CheckWorkDir`: an advisory check that warns only when the directory
   * does not exist; any other `stat` error is reported as a pass.
   */
  function CheckWorkDir(c: Checker, workDir: string, stat: string -> Option<StatError>): (after: Checker)
    ensures AddedOne(c, after)
    ensures Last(after).name == "Work Directory" && !Last(after).required
    ensures Last(after).status == Warning <==> stat(workDir) == Some(NotExist)
    ensures Last(after).status != Fail
  {
    if stat(workDir) == Some(NotExist)
    then AddResult(c, CheckResult("Work Directory", Warning, WorkDirMissing(workDir), false))
    else AddResult(c, CheckResult("Work Directory", Pass, WorkDirExists(workDir), false))
  }

  /** `CheckNetwork`: an advisory check that warns when one ping to `host` gets no answer within 2 seconds. */
  function CheckNetwork(c: Checker, host: string, exec: seq<string> -> Run): (after: Checker)
    ensures AddedOne(c, after)
    ensures Last(after).name == "Network (" + host + ")" && !Last(after).required
    ensures Last(after).status == Warning <==> exec(PingArgv(host)).Failed?
    ensures Last(after).status != Fail
  {
    if exec(PingArgv(host)).Failed?
    then AddResult(c, CheckResult("Network (" + host + ")", Warning, HostUnreachable(host), false))
    else AddResult(c, CheckResult("Network (" + host + ")", Pass, HostReachable(host), false))
  }

  // ---------------------------------------------------------------------
  // Plans
  // ---------------------------------------------------------------------

  /** One check of a plan. */
  datatype Check = GitCheck | DockerCheck | K0sCheck | KubectlCheck(namespace: string)
                 | DiskCheck(path: string, minGB: uint64) | NetworkCheck(host: string)

  /** The outside world the checks observe. */
  datatype Env = Env(exec: seq<string> -> Run, statfs: string -> Result<FsStat, string>)

  /** Runs one check. */
  function RunCheck(c: Checker, useSudo: bool, env: Env, check: Check): Checker {
    match check
    case GitCheck => CheckGit(c, env.exec)
    case DockerCheck => CheckDocker(c, useSudo, env.exec)
    case K0sCheck => CheckK0s(c, useSudo, env.exec)
    case KubectlCheck(ns) => CheckK0sKubectl(c, useSudo, ns, env.exec)
    case DiskCheck(path, minGB) => CheckDiskSpace(c, path, minGB, env.statfs)
    case NetworkCheck(host) => CheckNetwork(c, host, env.exec)
  }

  /** The check fails the checker: it is one of the required tool checks and its command failed. */
  predicate Breaks(useSudo: bool, env: Env, check: Check) {
    match check
    case GitCheck => env.exec(GitArgv).Failed?
    case DockerCheck => env.exec(DockerArgv(useSudo)).Failed?
    case K0sCheck => env.exec(K0sArgv(useSudo)).Failed?
    case KubectlCheck(_) => env.exec(NodesArgv(useSudo)).Failed?
    case DiskCheck(_, _) => false
    case NetworkCheck(_) => false
  }

  /** One check adds one or two results and fails the checker exactly when it breaks. */
  lemma RunCheckFailures(c: Checker, useSudo: bool, env: Env, check: Check)
    ensures var after := RunCheck(c, useSudo, env, check);
            && |c.results| < |after.results| && after.results[..|c.results|] == c.results
            && (HasFailures(after) <==> HasFailures(c) || Breaks(useSudo, env, check))
  {
    var after := RunCheck(c, useSudo, env, check);
    var n := |c.results|;
    match check {
      case KubectlCheck(_) =>
        ExtendedFailures(c, after);
        if |after.results| == n + 2 {
          assert after.results[n + 1] == Last(after);
        }
        if Breaks(useSudo, env, check) {
          assert Blocking(after.results[n]);
        }
      case GitCheck => OneResultFailures(c, after);
      case DockerCheck => OneResultFailures(c, after);
      case K0sCheck => OneResultFailures(c, after);
      case DiskCheck(_, _) => OneResultFailures(c, after);
      case NetworkCheck(_) => OneResultFailures(c, after);
    }
  }

  /** Adding one result fails the checker exactly when it was failed already or that result blocks. */
  lemma OneResultFailures(c: Checker, after: Checker)
    requires AddedOne(c, after)
    ensures HasFailures(after) <==> HasFailures(c) || Blocking(Last(after))
  {
    ExtendedFailures(c, after);
    assert Last(after) == after.results[|c.results|];
  }

  /** A checker that extends another fails exactly when the other did or one of the new results blocks. */
  lemma ExtendedFailures(c: Checker, after: Checker)
    requires |c.results| <= |after.results| && after.results[..|c.results|] == c.results
    ensures HasFailures(after) <==>
              HasFailures(c) || exists k :: |c.results| <= k < |after.results| && Blocking(after.results[k])
  {
    var n := |c.results|;
    assert forall i :: 0 <= i < n ==> after.results[i] == after.results[..n][i];
  }

  /** Runs the checks of a plan in order. */
  function RunChecks(c: Checker, useSudo: bool, env: Env, plan: seq<Check>): (after: Checker)
    ensures |c.results| + |plan| <= |after.results| && after.results[..|c.results|] == c.results
    ensures HasFailures(after) <==>
              HasFailures(c) || exists k :: 0 <= k < |plan| && Breaks(useSudo, env, plan[k])
    decreases |plan|
  {
    if |plan| == 0 then c
    else
      var c1 := RunCheck(c, useSudo, env, plan[0]);
      RunCheckFailures(c, useSudo, env, plan[0]);
      var after := RunChecks(c1, useSudo, env, plan[1..]);
      assert after.results[..|c.results|] == after.results[..|c1.results|][..|c.results|];
      assert forall k :: 0 < k < |plan| ==> plan[k] == plan[1..][k - 1];
      after
  }

  /** The commands whose prerequisites can be checked. */
  datatype Operation = Build | Deploy | Test | Clone | Database | All | Cleanup | Verify | Update | Rollback

  /** The checks each `Check...Prereqs` runs, in order. */
  function Plan(op: Operation, namespace: string): (r: seq<Check>)
    ensures |r| >= 1
    ensures GitCheck in r <==> op in {Build, Clone, All, Update}
    ensures DockerCheck in r <==> op in {Build, Test, All, Cleanup, Update}
    ensures K0sCheck in r <==> op in {Deploy, Database, All, Verify, Update, Rollback}
    ensures KubectlCheck(namespace) in r <==> K0sCheck in r
    ensures NetworkCheck("github.com") in r <==> op in {Clone, All}
    ensures forall k :: 0 <= k < |r| && r[k].KubectlCheck? ==> r[k].namespace == namespace
    ensures (exists k :: 0 <= k < |r| && r[k].DiskCheck?) <==> op in {Build, Deploy, Clone, All, Update}
    ensures forall k :: 0 <= k < |r| && r[k].DiskCheck? ==>
              && r[k].path == "."
              && r[k].minGB == (if op in {Build, Update} then 5 else if op == All then 10 else 2)
    ensures forall k :: 0 <= k < |r| && r[k].NetworkCheck? ==> r[k].host == "github.com"
  {
    var r :=
      match op
      case Build => [GitCheck, DockerCheck, DiskCheck(".", 5)]
      case Deploy => [K0sCheck, KubectlCheck(namespace), DiskCheck(".", 2)]
      case Test => [DockerCheck]
      case Clone => [GitCheck, NetworkCheck("github.com"), DiskCheck(".", 2)]
      case Database => [K0sCheck, KubectlCheck(namespace)]
      case All => [GitCheck, DockerCheck, K0sCheck, KubectlCheck(namespace), DiskCheck(".", 10),
                   NetworkCheck("github.com")]
      case Cleanup => [DockerCheck]
      case Verify => [K0sCheck, KubectlCheck(namespace)]
      case Update => [GitCheck, DockerCheck, K0sCheck, KubectlCheck(namespace), DiskCheck(".", 5)]
      case Rollback => [K0sCheck, KubectlCheck(namespace)];
    assert op in {Build, Deploy, Clone} ==> r[2].DiskCheck?;
    assert op in {All, Update} ==> r[4].DiskCheck?;
    r
  }

  /** The node listing is always checked right after `k0s status`. */
  lemma KubectlFollowsK0s(op: Operation, namespace: string)
    ensures var r := Plan(op, namespace);
            forall k :: 0 <= k < |r| && r[k].KubectlCheck? ==> k > 0 && r[k - 1] == K0sCheck
  {
    var r := Plan(op, namespace);
    match op
    case All => assert r[3].KubectlCheck? && r[2] == K0sCheck;
    case Update => assert r[3].KubectlCheck? && r[2] == K0sCheck;
    case _ =>
  }

  /** The checks of an operation run from a fresh checker. */
  function CheckPrereqs(op: Operation, namespace: string, useSudo: bool, env: Env): (c: Checker)
    ensures |c.results| >= |Plan(op, namespace)|
    ensures HasFailures(c) <==>
              exists k :: 0 <= k < |Plan(op, namespace)| && Breaks(useSudo, env, Plan(op, namespace)[k])
  {
    RunChecks(NewChecker(), useSudo, env, Plan(op, namespace))
  }

  /**
   * Free space and network reachability never block: a clone fails its
   * prerequisites exactly when `git --version` fails.
   */
  lemma CloneNeedsOnlyGit(namespace: string, useSudo: bool, env: Env)
    ensures HasFailures(CheckPrereqs(Clone, namespace, useSudo, env)) <==> env.exec(GitArgv).Failed?
  {
    var plan := Plan(Clone, namespace);
    assert Breaks(useSudo, env, plan[0]) <==> env.exec(GitArgv).Failed?;
  }

  /** The full pipeline's checks fail exactly when one of the four tools fails. */
  lemma AllNeedsEveryTool(namespace: string, useSudo: bool, env: Env)
    ensures HasFailures(CheckPrereqs(All, namespace, useSudo, env)) <==>
              env.exec(GitArgv).Failed? || env.exec(DockerArgv(useSudo)).Failed?
              || env.exec(K0sArgv(useSudo)).Failed? || env.exec(NodesArgv(useSudo)).Failed?
  {
    var plan := Plan(All, namespace);
    assert !Breaks(useSudo, env, plan[4]) && !Breaks(useSudo, env, plan[5]);
    if env.exec(GitArgv).Failed? {
      assert Breaks(useSudo, env, plan[0]);
    }
    if env.exec(DockerArgv(useSudo)).Failed? {
      assert Breaks(useSudo, env, plan[1]);
    }
    if env.exec(K0sArgv(useSudo)).Failed? {
      assert Breaks(useSudo, env, plan[2]);
    }
    if env.exec(NodesArgv(useSudo)).Failed? {
      assert Breaks(useSudo, env, plan[3]);
    }
  }

  // ---------------------------------------------------------------------
  // Diagnosis examples
  // ---------------------------------------------------------------------

  /**
   * Docker's "Cannot connect to the Docker daemon" output means a stopped
   * daemon under sudo; without sudo, output mentioning the daemon socket
   * is taken for a permission problem first.
   */
  lemma DockerSocketDiagnosis(pre: string, post: string, cause: string)
    ensures DockerFailure(true, pre + "Cannot connect" + post, cause) == DockerDaemonDown
    ensures DockerFailure(false, pre + "connect to the Docker daemon socket" + post, cause)
            == DockerPermissionDenied
  {
    assert Contains("Cannot connect", "Cannot connect") by {
      assert OccursAt("Cannot connect", "Cannot connect", 0);
    }
    ContainsInfix(pre, "Cannot connect", post, "Cannot connect");
    var socket := "connect to the Docker daemon socket";
    assert Contains(socket, socket) by { assert OccursAt(socket, socket, 0); }
    ContainsInfix(pre, socket, post, socket);
  }

  /** A dial that timed out is a permission-or-timeout problem without sudo, and an unreachable API server with it. */
  lemma DialTimeoutDiagnosis(output: string, cause: string)
    requires Contains(output, "dial") && Contains(output, "timeout")
    ensures KubectlFailure(false, output, cause) == KubectlPermissionOrTimeout
    ensures KubectlFailure(true, output, cause) == ApiServerUnreachable
  {
  }

  /** With sudo, a permission problem is never the diagnosis. */
  lemma SudoNeverBlamesPermission(output: string, cause: string)
    ensures DockerFailure(true, output, cause) != DockerPermissionDenied
    ensures K0sFailure(true, output, cause) != K0sPermissionDenied
    ensures KubectlFailure(true, output, cause) != KubectlPermissionOrTimeout
  {
  }
}

=== FILE: retry.dfy ===
/**
 * The retry combinator: run an operation until it succeeds or the
 * attempt budget is spent, sleeping a fixed delay between attempts.
 *
 * An operation is modelled by what it returns on each attempt: `op(k)`
 * is `None` when attempt `k` (counting from 1) succeeds and `Some(e)`
 * when it fails with error `e`. Sleeping is counted, not performed.
 */
module Retry {
  import opened Base

  /** Retry configuration (the optional logger is left out). */
  datatype Options = Options(maxRetries: int, delayMillis: int)

  /** The defaults used when no options are given: 3 attempts, 2 seconds apart. */
  const Defaults: Options := Options(3, 2000)

  /** What running the attempt loop did. */
  datatype Run<E> = Run(calls: nat, sleeps: nat, succeeded: bool, lastErr: Option<E>)

  /**
   * Attempts `from`, `from + 1`, ..., `maxRetries` in order, stopping at
   * the first success; a failed attempt that is not the last is followed
   * by one sleep.
   */
  function Attempts<E>(op: nat -> Option<E>, maxRetries: int, from: nat): (r: Run<E>)
    requires from >= 1
    ensures r.succeeded <==> exists k: nat :: from <= k <= maxRetries && op(k).None?
    ensures r.succeeded ==> r.calls >= 1 && op(from + r.calls - 1).None?
    ensures r.succeeded ==> forall j: nat :: from <= j < from + r.calls - 1 ==> op(j).Some?
    ensures !r.succeeded ==> r.calls == (if maxRetries >= from then maxRetries - from + 1 else 0)
    ensures !r.succeeded ==> r.lastErr == (if maxRetries >= from then op(maxRetries) else None)
    ensures r.sleeps == (if r.calls == 0 then 0 else r.calls - 1)
    decreases maxRetries - from
  {
    if from > maxRetries then Run(0, 0, false, None)
    else
      var e := op(from);
      if e.None? then Run(1, 0, true, None)
      else if from == maxRetries then Run(1, 0, false, e)
      else
        var rest := Attempts(op, maxRetries, from + 1);
        Run(rest.calls + 1, rest.sleeps + 1, rest.succeeded, rest.lastErr)
  }

  /** The error returned once every attempt failed: "operation failed after N attempts", wrapping the last error. */
  datatype RetryError<E> = FailedAfter(attempts: int, cause: Option<E>)

  /** The returned error, how often the operation was called, and how long the loop slept. */
  datatype Outcome<E> = Outcome(err: Option<RetryError<E>>, calls: nat, sleptMillis: int)

  /** The attempt budget that `opts` selects; a nil `opts` means the defaults. */
  function EffectiveOptions(opts: Option<Options>): Options {
    if opts.None? then Defaults else opts.value
  }

  /** `WithRetry(operation, opts)`. */
  function WithRetry<E>(op: nat -> Option<E>, opts: Option<Options>): (r: Outcome<E>)
    ensures var max := EffectiveOptions(opts).maxRetries;
            r.err.None? <==> exists k: nat :: 1 <= k <= max && op(k).None?
    ensures r.err.None? ==> r.calls >= 1 && op(r.calls).None?
                            && forall j: nat :: 1 <= j < r.calls ==> op(j).Some?
    ensures var max := EffectiveOptions(opts).maxRetries;
            r.err.Some? ==> r.calls == (if max >= 1 then max else 0)
                            && r.err.value == FailedAfter(max, if max >= 1 then op(max) else None)
    ensures r.sleptMillis == (if r.calls == 0 then 0 else r.calls - 1) * EffectiveOptions(opts).delayMillis
  {
    var o := EffectiveOptions(opts);
    var run := Attempts(op, o.maxRetries, 1);
    Outcome(if run.succeeded then None else Some(FailedAfter(o.maxRetries, run.lastErr)),
            run.calls, run.sleeps * o.delayMillis)
  }

  /** `WithRetryFunc(operation, logger)`: fixed options of 3 attempts, 2 seconds apart. */
  function WithRetryFunc<E>(op: nat -> Option<E>): (r: Outcome<E>)
    ensures r.err.None? <==> op(1).None? || op(2).None? || op(3).None?
    ensures r.err.None? ==> 1 <= r.calls <= 3 && op(r.calls).None?
                            && forall j: nat :: 1 <= j < r.calls ==> op(j).Some?
    ensures r.err.Some? ==> r.calls == 3 && r.err.value == FailedAfter(3, op(3))
    ensures r.sleptMillis == (r.calls - 1) * 2000
  {
    WithRetry(op, Some(Options(3, 2000)))
  }

  /** The convenience wrapper behaves exactly like the defaults. */
  lemma WithRetryFuncIsDefault<E>(op: nat -> Option<E>)
    ensures WithRetryFunc(op) == WithRetry(op, None)
    ensures WithRetryFunc(op) == WithRetry(op, Some(Options(3, 2000)))
  {
  }

  /** If attempt `k` is the first success within the budget, exactly `k` calls are made and no error is returned. */
  lemma FirstSuccessCalls<E>(op: nat -> Option<E>, opts: Option<Options>, k: nat)
    requires 1 <= k <= EffectiveOptions(opts).maxRetries
    requires op(k).None?
    requires forall j: nat :: 1 <= j < k ==> op(j).Some?
    ensures WithRetry(op, opts).err.None?
    ensures WithRetry(op, opts).calls == k
    ensures WithRetry(op, opts).sleptMillis == (k - 1) * EffectiveOptions(opts).delayMillis
  {
    var r := WithRetry(op, opts);
    assert r.err.None?;
    assert op(r.calls).None? && op(k).None?;
  }

  /** An operation that never succeeds is called exactly `maxRetries` times, and the error wraps the last failure. */
  lemma AlwaysFailing<E>(op: nat -> Option<E>, opts: Option<Options>)
    requires forall k: nat :: op(k).Some?
    ensures var max := EffectiveOptions(opts).maxRetries;
            && WithRetry(op, opts).err.Some?
            && WithRetry(op, opts).calls == (if max >= 1 then max else 0)
            && WithRetry(op, opts).err.value.cause == (if max >= 1 then op(max) else None)
  {
  }

  /** A non-positive budget never calls the operation yet still reports an error. */
  lemma NoBudget<E>(op: nat -> Option<E>, opts: Options)
    requires opts.maxRetries <= 0
    ensures WithRetry(op, Some(opts)) == Outcome(Some(FailedAfter(opts.maxRetries, None)), 0, 0)
  {
  }

  /** The test case "fails once, then succeeds": 2 calls and no error. */
  lemma SecondAttemptSucceeds()
    ensures var op := (k: nat) => if k < 2 then Some("temporary error") else None;
            var r := WithRetry(op, Some(Options(3, 10)));
            r.err.None? && r.calls == 2
  {
    var op := (k: nat) => if k < 2 then Some("temporary error") else None;
    FirstSuccessCalls(op, Some(Options(3, 10)), 2);
  }

  /** The test case "always fails": 3 calls and an error. */
  lemma PersistentFailure()
    ensures var op := (k: nat) => Some("persistent error");
            var r := WithRetry(op, Some(Options(3, 10)));
            r.err.Some? && r.calls == 3
  {
    var op := (k: nat) => Some("persistent error");
    AlwaysFailing(op, Some(Options(3, 10)));
  }
}

=== FILE: text.dfy ===
/**
 * The parts of Go's `strings` and `strconv` packages that the deployment
 * code relies on, over `string` = `seq<char>`: substring search, affixes,
 * splitting and joining on a one-character separator, white-space
 * trimming and fields, ASCII lower-casing, and decimal numbers.
 */
module Text {
  import opened Base

  // ---------------------------------------------------------------------
  // Substrings and affixes
  // ---------------------------------------------------------------------

  /** `sub` occurs in `s` starting at offset `i`. */
  predicate OccursAt(s: string, sub: string, i: int) {
    0 <= i && i + |sub| <= |s| && s[i..i + |sub|] == sub
  }

  /** `strings.Contains(s, sub)`: `sub` occurs contiguously somewhere in `s`. */
  predicate Contains(s: string, sub: string) {
    exists i :: 0 <= i <= |s| - |sub| && OccursAt(s, sub, i)
  }

  /** The empty string occurs in every string. */
  lemma ContainsEmpty(s: string)
    ensures Contains(s, "")
  {
    assert OccursAt(s, "", 0);
  }

  /** A string that occurs in `a` occurs in every string that has `a` as a part. */
  lemma ContainsInfix(pre: string, a: string, post: string, sub: string)
    requires Contains(a, sub)
    ensures Contains(pre + a + post, sub)
  {
    var i :| 0 <= i <= |a| - |sub| && OccursAt(a, sub, i);
    var s := pre + a + post;
    assert s[|pre| + i..|pre| + i + |sub|] == a[i..i + |sub|];
    assert OccursAt(s, sub, |pre| + i);
  }

  predicate HasPrefix(s: string, p: string) {
    |p| <= |s| && s[..|p|] == p
  }

  predicate HasSuffix(s: string, p: string) {
    |p| <= |s| && s[|s| - |p|..] == p
  }

  /** `strings.TrimPrefix`: removes one leading `p`, if present. */
  function TrimPrefix(s: string, p: string): (r: string)
    ensures HasPrefix(s, p) ==> s == p + r
    ensures !HasPrefix(s, p) ==> r == s
  {
    if HasPrefix(s, p) then s[|p|..] else s
  }

  /** `strings.TrimSuffix`: removes one trailing `p`, if present. */
  function TrimSuffix(s: string, p: string): (r: string)
    ensures HasSuffix(s, p) ==> s == r + p
    ensures !HasSuffix(s, p) ==> r == s
  {
    if HasSuffix(s, p) then s[..|s| - |p|] else s
  }

  /** Removing a suffix that was just appended gives back the original. */
  lemma TrimSuffixAppended(s: string, p: string)
    ensures TrimSuffix(s + p, p) == s
  {
    assert (s + p)[|s + p| - |p|..] == p;
  }

  // ---------------------------------------------------------------------
  // Split and Join on a one-character separator
  // ---------------------------------------------------------------------

  /**
   * `strings.Split(s, string(sep))`: the pieces of `s` between occurrences
   * of `sep`. There is always at least one piece, and `""` gives `[""]`.
   */
  function Split(s: string, sep: char): (parts: seq<string>)
    ensures |parts| >= 1
    ensures forall k :: 0 <= k < |parts| ==> sep !in parts[k]
    decreases |s|
  {
    if |s| == 0 then [""]
    else
      var rest := Split(s[1..], sep);
      if s[0] == sep then [""] + rest
      else [[s[0]] + rest[0]] + rest[1..]
  }

  /** `strings.Join(parts, string(sep))`. */
  function Join(parts: seq<string>, sep: char): string
  {
    if |parts| == 0 then ""
    else if |parts| == 1 then parts[0]
    else parts[0] + [sep] + Join(parts[1..], sep)
  }

  /** Joining the pieces of a split restores the original string. */
  lemma {:induction false} JoinSplit(s: string, sep: char)
    ensures Join(Split(s, sep), sep) == s
    decreases |s|
  {
    if |s| > 0 {
      var rest := Split(s[1..], sep);
      JoinSplit(s[1..], sep);
      assert Join(rest, sep) == s[1..];
      if s[0] == sep {
        assert Split(s, sep) == [""] + rest;
        assert ([""] + rest)[1..] == rest;
        assert Join([""] + rest, sep) == "" + [sep] + Join(rest, sep);
        assert [s[0]] + s[1..] == s;
      } else {
        var parts := [[s[0]] + rest[0]] + rest[1..];
        assert Split(s, sep) == parts;
        if |rest| == 1 {
          assert Join(parts, sep) == [s[0]] + rest[0];
          assert [s[0]] + s[1..] == s;
        } else {
          assert parts[1..] == rest[1..];
          assert Join(rest, sep) == rest[0] + [sep] + Join(rest[1..], sep);
          assert Join(parts, sep) == [s[0]] + rest[0] + [sep] + Join(rest[1..], sep);
          assert [s[0]] + s[1..] == s;
        }
      }
    }
  }

  /** Splitting a separator-free string followed by `t` extends the first piece of `t`. */
  lemma {:induction false} SplitFreePrefix(a: string, t: string, sep: char)
    requires sep !in a
    ensures Split(a + t, sep) == [a + Split(t, sep)[0]] + Split(t, sep)[1..]
    decreases |a|
  {
    if |a| > 0 {
      var st := Split(t, sep);
      assert (a + t)[1..] == a[1..] + t;
      assert (a + t)[0] == a[0];
      SplitFreePrefix(a[1..], t, sep);
      var rest := Split(a[1..] + t, sep);
      assert rest[0] == a[1..] + st[0] && rest[1..] == st[1..];
      assert Split(a + t, sep) == [[a[0]] + rest[0]] + rest[1..];
      assert [a[0]] + (a[1..] + st[0]) == a + st[0];
    } else {
      var st := Split(t, sep);
      assert a + t == t;
      assert a + st[0] == st[0];
      assert [st[0]] + st[1..] == st;
    }
  }

  /** Splitting undoes joining, when no piece contains the separator. */
  lemma {:induction false} SplitJoin(parts: seq<string>, sep: char)
    requires |parts| >= 1
    requires forall k :: 0 <= k < |parts| ==> sep !in parts[k]
    ensures Split(Join(parts, sep), sep) == parts
    decreases |parts|
  {
    if |parts| == 1 {
      SplitFreePrefix(parts[0], "", sep);
      assert parts[0] + "" == parts[0];
    } else {
      var tail := Join(parts[1..], sep);
      SplitJoin(parts[1..], sep);
      var t := [sep] + tail;
      assert Split(t, sep) == [""] + Split(tail, sep) by {
        assert t[0] == sep && t[1..] == tail;
      }
      assert Join(parts, sep) == parts[0] + t;
      SplitFreePrefix(parts[0], t, sep);
      assert Split(Join(parts, sep), sep) == [parts[0] + ""] + parts[1..];
      assert parts[0] + "" == parts[0];
      assert [parts[0]] + parts[1..] == parts;
    }
  }

  /** The last separator splits a joined list into everything before it and the last piece. */
  lemma {:induction false} JoinSnoc(parts: seq<string>, sep: char)
    requires |parts| >= 2
    ensures Join(parts, sep) == Join(parts[..|parts| - 1], sep) + [sep] + parts[|parts| - 1]
    decreases |parts|
  {
    if |parts| > 2 {
      JoinSnoc(parts[1..], sep);
      assert parts[1..][..|parts| - 2] == parts[..|parts| - 1][1..];
      assert parts[1..][|parts| - 2] == parts[|parts| - 1];
    } else {
      assert parts[..1] == [parts[0]];
    }
  }

  /** A string splits into a single piece exactly when it has no separator. */
  lemma {:induction false} SplitSingleton(s: string, sep: char)
    ensures |Split(s, sep)| == 1 <==> sep !in s
    decreases |s|
  {
    if |s| > 0 {
      SplitSingleton(s[1..], sep);
      assert s == [s[0]] + s[1..];
      assert sep in s <==> s[0] == sep || sep in s[1..];
    }
  }

  /** `strings.ReplaceAll(s, string(from), string(to))` for single characters. */
  function ReplaceChar(s: string, from: char, to: char): (r: string)
    ensures |r| == |s|
    ensures forall i :: 0 <= i < |s| ==> r[i] == (if s[i] == from then to else s[i])
  {
    seq(|s|, i requires 0 <= i < |s| => if s[i] == from then to else s[i])
  }

  // ---------------------------------------------------------------------
  // Case and white space
  // ---------------------------------------------------------------------

  /** Lower-cases an ASCII upper-case letter; every other character is kept. */
  function LowerChar(c: char): char {
    if 'A' <= c <= 'Z' then (c as int + 32) as char else c
  }

  /** `strings.ToLower`, restricted to the ASCII letters. */
  function ToLower(s: string): (r: string)
    ensures |r| == |s|
    ensures forall i :: 0 <= i < |s| ==> r[i] == LowerChar(s[i])
  {
    seq(|s|, i requires 0 <= i < |s| => LowerChar(s[i]))
  }

  /** `unicode.IsSpace`: the ASCII and Latin-1 spaces and the Unicode White_Space characters. */
  predicate IsSpace(c: char) {
    var n := c as int;
    (0x09 <= n <= 0x0D) || n == 0x20 || n == 0x85 || n == 0xA0 || n == 0x1680
    || (0x2000 <= n <= 0x200A) || n == 0x2028 || n == 0x2029 || n == 0x202F
    || n == 0x205F || n == 0x3000
  }

  predicate NoSpace(s: string) {
    forall i :: 0 <= i < |s| ==> !IsSpace(s[i])
  }

  /** Drops the leading white space. */
  function TrimLeft(s: string): (r: string)
    ensures |r| <= |s| && r == s[|s| - |r|..]
    ensures forall k :: 0 <= k < |s| - |r| ==> IsSpace(s[k])
    ensures |r| > 0 ==> !IsSpace(r[0])
    decreases |s|
  {
    if |s| > 0 && IsSpace(s[0]) then TrimLeft(s[1..]) else s
  }

  /** Drops the trailing white space. */
  function TrimRight(s: string): (r: string)
    ensures |r| <= |s| && r == s[..|r|]
    ensures forall k :: |r| <= k < |s| ==> IsSpace(s[k])
    ensures |r| > 0 ==> !IsSpace(r[|r| - 1])
    decreases |s|
  {
    if |s| > 0 && IsSpace(s[|s| - 1]) then TrimRight(s[..|s| - 1]) else s
  }

  /** `strings.TrimSpace`: drops leading and trailing white space. */
  function TrimSpace(s: string): (r: string)
    ensures |r| > 0 ==> !IsSpace(r[0]) && !IsSpace(r[|r| - 1])
  {
    TrimRight(TrimLeft(s))
  }

  /** Trailing white space after a string that neither starts nor ends with space is trimmed away. */
  lemma {:induction false} TrimSpaceOfPadded(w: string, pad: string)
    requires |w| > 0 ==> !IsSpace(w[0]) && !IsSpace(w[|w| - 1])
    requires forall k :: 0 <= k < |pad| ==> IsSpace(pad[k])
    ensures TrimSpace(w + pad) == w
    decreases |pad|
  {
    if |w| == 0 {
      TrimLeftAllSpace(pad);
      assert w + pad == pad;
    } else {
      assert TrimLeft(w + pad) == w + pad;
      TrimRightPad(w, pad);
    }
  }

  lemma {:induction false} TrimLeftAllSpace(pad: string)
    requires forall k :: 0 <= k < |pad| ==> IsSpace(pad[k])
    ensures TrimLeft(pad) == ""
  {
  }

  lemma {:induction false} TrimRightPad(w: string, pad: string)
    requires |w| > 0 && !IsSpace(w[|w| - 1])
    requires forall k :: 0 <= k < |pad| ==> IsSpace(pad[k])
    ensures TrimRight(w + pad) == w
    decreases |pad|
  {
    if |pad| == 0 {
      assert w + pad == w;
    } else {
      var s := w + pad;
      assert IsSpace(s[|s| - 1]);
      assert s[..|s| - 1] == w + pad[..|pad| - 1];
      TrimRightPad(w, pad[..|pad| - 1]);
    }
  }

  /** The longest prefix of `s` without white space. */
  function Word(s: string): (w: string)
    ensures |w| <= |s| && w == s[..|w|]
    ensures NoSpace(w)
    ensures |w| < |s| ==> IsSpace(s[|w|])
    decreases |s|
  {
    if |s| == 0 || IsSpace(s[0]) then "" else [s[0]] + Word(s[1..])
  }

  /** `strings.Fields`: the maximal runs of non-space characters, in order. */
  function Fields(s: string): (r: seq<string>)
    ensures forall k :: 0 <= k < |r| ==> |r[k]| > 0 && NoSpace(r[k])
    decreases |s|
  {
    if |s| == 0 then []
    else if IsSpace(s[0]) then Fields(s[1..])
    else
      var w := Word(s);
      [w] + Fields(s[|w|..])
  }

  lemma {:induction false} WordOfSpaceFree(w: string, t: string)
    requires NoSpace(w)
    requires |t| > 0 ==> IsSpace(t[0])
    ensures Word(w + t) == w
    decreases |w|
  {
    if |w| > 0 {
      assert (w + t)[1..] == w[1..] + t;
      WordOfSpaceFree(w[1..], t);
      assert [w[0]] + w[1..] == w;
    } else {
      assert w + t == t;
    }
  }

  /** Fields recovers the words of a single-space-separated list. */
  lemma {:induction false} FieldsOfJoin(ws: seq<string>)
    requires forall k :: 0 <= k < |ws| ==> |ws[k]| > 0 && NoSpace(ws[k])
    ensures Fields(Join(ws, ' ')) == ws
    decreases |ws|
  {
    if |ws| == 1 {
      WordOfSpaceFree(ws[0], "");
      assert ws[0] + "" == ws[0];
      assert ws[0][|ws[0]|..] == "";
    } else if |ws| > 1 {
      var tail := Join(ws[1..], ' ');
      var s := ws[0] + [' '] + tail;
      assert Join(ws, ' ') == s;
      WordOfSpaceFree(ws[0], [' '] + tail);
      assert s == ws[0] + ([' '] + tail);
      assert s[|ws[0]|..] == [' '] + tail;
      assert ([' '] + tail)[1..] == tail;
      FieldsOfJoin(ws[1..]);
      assert [ws[0]] + ws[1..] == ws;
    }
  }

  // ---------------------------------------------------------------------
  // Decimal numbers (fmt's %d and strconv.ParseInt(s, 10, 64))
  // ---------------------------------------------------------------------

  predicate IsDigit(c: char) { '0' <= c <= '9' }

  /** A decimal digit is not white space. */
  lemma DigitNotSpace(c: char)
    requires IsDigit(c)
    ensures !IsSpace(c)
  {
  }

  predicate AllDigits(s: string) {
    forall i :: 0 <= i < |s| ==> IsDigit(s[i])
  }

  function DigitChar(d: nat): char
    requires d < 10
  {
    ('0' as int + d) as char
  }

  /** The value of a string of decimal digits. */
  function DigitsValue(s: string): nat
    requires AllDigits(s)
    decreases |s|
  {
    if |s| == 0 then 0
    else DigitsValue(s[..|s| - 1]) * 10 + (s[|s| - 1] as int - '0' as int)
  }

  /** `fmt.Sprintf("%d", n)` for a natural number. */
  function NatToString(n: nat): (r: string)
    ensures |r| > 0 && AllDigits(r)
    decreases n
  {
    if n < 10 then [DigitChar(n)] else NatToString(n / 10) + [DigitChar(n % 10)]
  }

  /** Reading back a formatted number gives the number. */
  lemma {:induction false} NatToStringValue(n: nat)
    ensures DigitsValue(NatToString(n)) == n
    decreases n
  {
    if n >= 10 {
      var s := NatToString(n);
      NatToStringValue(n / 10);
      assert s[..|s| - 1] == NatToString(n / 10);
    }
  }

  /** Distinct numbers print differently. */
  lemma NatToStringInjective(m: nat, n: nat)
    requires NatToString(m) == NatToString(n)
    ensures m == n
  {
    NatToStringValue(m);
    NatToStringValue(n);
  }

  /** The error strconv attaches to a failed parse. */
  datatype NumError = ErrSyntax | ErrRange

  /** What `strconv.ParseInt(s, 10, 64)` returns: a value and maybe an error. */
  datatype ParsedInt = ParsedInt(value: int, err: Option<NumError>)

  /** An optional `+` or `-` followed by at least one decimal digit. */
  predicate WellFormedInt(s: string) {
    |s| > 0 &&
    if s[0] == '+' || s[0] == '-' then |s| > 1 && AllDigits(s[1..]) else AllDigits(s)
  }

  /**
   * `strconv.ParseInt(s, 10, 64)`: a malformed string gives 0 with a
   * syntax error; a well-formed one outside the `int64` range gives the
   * nearest bound with a range error.
   */
  function ParseInt64(s: string): (r: ParsedInt)
    ensures MinInt64 <= r.value <= MaxInt64
    ensures !WellFormedInt(s) ==> r == ParsedInt(0, Some(ErrSyntax))
    ensures r.err == Some(ErrSyntax) <==> !WellFormedInt(s)
  {
    if !WellFormedInt(s) then ParsedInt(0, Some(ErrSyntax))
    else
      var neg := s[0] == '-';
      var digits := if s[0] == '+' || s[0] == '-' then s[1..] else s;
      var magnitude: int := DigitsValue(digits);
      if !neg && magnitude > MaxInt64 then ParsedInt(MaxInt64, Some(ErrRange))
      else if neg && magnitude > -MinInt64 then ParsedInt(MinInt64, Some(ErrRange))
      else ParsedInt(if neg then -magnitude else magnitude, None)
  }

  /** A formatted natural number in the `int64` range parses back to itself without error. */
  lemma ParseFormatted(n: nat)
    requires n <= MaxInt64
    ensures ParseInt64(NatToString(n)) == ParsedInt(n, None)
  {
    var s := NatToString(n);
    NatToStringValue(n);
    assert s[0] != '+' && s[0] != '-' by { assert IsDigit(s[0]); }
  }
}
